=== FILE: README.md ===
# Voucher management system: a verified model

This project models the core of a voucher management web application. It has:

- locations run by owners;
- discount vouchers that owners issue and users claim within a date window and up to
  a quantity cap;
- reviews with a rating and uploaded media, capped at three per user and location;
- an admin area;
- a chatbot relay to a webhook;
- a data enrichment script and a data import script;
- the browser script's page logic.

The four collections (users, locations, vouchers, reviews) are one value, `Database.Db`.
Each request handler is a pure transition from a database, a session and the request
fields to a new database and an outcome. The `Store.Store` class holds the database as
a field. Its methods perform those transitions in place. `Claim` is written out step by
step, like the handler. The other methods delegate to the transition functions, and
carry the invariants the transitions are proved to keep:

- every voucher stays within its cap;
- voucher codes stay unique;
- e-mails and user names stay unique;
- no user holds more than three reviews of one location.

Modules follow the source's files:

- `VoucherModel`, `UserModel`, `LocationModel`, `ReviewModel` (schemas, setters, virtuals, hooks);
- `VoucherController`, `UserController`, `ReviewController`, `LocationController`,
  `OwnerController` (handlers);
- `Admin` (admin routes), `Auth` (session middleware), `UploadMiddleware`, `Chatbot`;
- `Enrich` (location enrichment script), `ImportData` (import script), `Frontend`
  (browser script);
- `Database` (collections and the queries the handlers make);
- `Text` and `Seqs`, which model the JavaScript built-ins the source relies on: `trim`,
  case mapping, `includes`, `parseInt`, `String(n)`, `filter`, `sort`/`slice`.

Conventions:

- Ids are natural numbers handed out from a counter. They stand for the resolved ObjectId; `ObjectIds` models the path text that names one.
- Times are integers in milliseconds.
- Location ratings are integers in tenths of a star.
- "Newest first" (`sort({ createdAt: -1 })`) is the reverse of the stored order. `XsCreatedInOrder` says a collection is stored with nondecreasing `createdAt`, as inserts with a clock that never runs back leave it. `XsNewestFirst` says `createdAt` does not increase along a list. The order clauses are proved under the first of these.

## Model

| member | source | states |
|---|---|---|
| VoucherModel.NormalizeCode | src/models/voucher.model.js:19-27 | the stored code is never longer than the submitted one |
| VoucherModel.NormalizeCodeIdempotent | src/models/voucher.model.js:23-24 | a normalized code is trimmed and upper-case, so normalizing it again leaves it unchanged |
| VoucherModel.QuantityRemaining | src/models/voucher.model.js:68-70 | the remainder is the total minus the claims, not clamped, and is positive exactly when some are left |
| VoucherModel.PhaseName | src/controllers/voucher.controller.js:122-125 | defines the label of each phase: `upcoming`, `expired`, `soldout`, `active` |
| VoucherModel.PhaseAt | src/models/voucher.model.js:72-78 | the phase is decided in order: before the start, after the end, sold out, else active |
| VoucherModel.IsListed | src/controllers/voucher.controller.js:23-27 | defines the public listing filter: started, not ended, and fewer claims than issued |
| VoucherModel.ListedIffActive | src/controllers/voucher.controller.js:23-27 | a voucher is in the public listing exactly when its phase is active, and then some remain |
| VoucherModel.PhaseNameInjective | src/controllers/voucher.controller.js:122-125 | distinct phases are reported with distinct labels |
| VoucherModel.CountAfterClaims | src/controllers/voucher.controller.js:69-72 | over `n` claims in a row the count grows by at most `n`, and not at all once the voucher is sold out |
| VoucherModel.FractionalTotalOvershoots | src/models/voucher.model.js:34-38 | as written, a total of 1.5 lets claims at counts 0 and 1 through, so 2 are claimed of 1.5 issued |
| VoucherModel.ClaimsBelowTotalPlusOne | src/controllers/voucher.controller.js:69-72 | with any total the schema accepts, the count stays below the total plus one |
| VoucherModel.WholeTotalHoldsCap | src/controllers/voucher.controller.js:69-72 | with a whole-number total, the count never passes the total |
| UserModel.ParseRole | src/models/user.model.js:52-56 | exactly the three role names are accepted |
| UserModel.ParseRoleName | src/models/user.model.js:52-56 | parsing a role's stored name gives the role back |
| UserModel.TldNoAt | src/models/user.model.js:45 | the `(\.\w{2,3})+` part of the email pattern holds no `@` |
| UserModel.WordSequenceNoAt | src/models/user.model.js:45 | a `\w+([.-]?\w+)*` word sequence holds no `@` |
| UserModel.DomainNoAt | src/models/user.model.js:45 | the domain part of the email pattern holds no `@` |
| UserModel.EmailHasOneAt | src/models/user.model.js:45 | an address matching the pattern holds exactly one `@`, so the split point is unique |
| UserModel.PreSave | src/models/user.model.js:84-87 | an empty `idName` takes the username; a non-empty one and every other field stay |
| UserModel.PreSaveIdempotent | src/models/user.model.js:84-87 | saving twice fills `idName` as saving once does |
| LocationModel.NewLocation | src/models/location.model.js:18-89 | the submitted strings are trimmed, the type defaults to `restaurant`, and rating 0, the default city, `standard` price level, a zero price range and empty lists |
| VoucherController.ListedVouchers | src/controllers/voucher.controller.js:20-29 | the listed vouchers are exactly the stored ones in their window and not sold out, each as many times as it is stored, each with an active status, and newest first when the store is in creation order |
| VoucherController.NewestFirst | src/controllers/voucher.controller.js:29 | the vouchers kept from a list in creation order, reversed, are newest first |
| Database.VouchersReversed | src/controllers/voucher.controller.js:29 | vouchers in creation order, reversed, are newest first |
| Database.LocationsReversed | src/controllers/owner.controller.js:66 | locations in creation order, reversed, are newest first |
| Database.ReviewsReversed | src/controllers/user.controller.js:150 | reviews in creation order, reversed, are newest first |
| Database.ReviewsFiltered | src/controllers/user.controller.js:150 | the reviews a query keeps from reviews in creation order are still in creation order |
| VoucherController.ClaimRedirect | src/controllers/voucher.controller.js:48-51 | the browser goes to the login page only for a user-role session without an id; otherwise to the voucher list |
| VoucherController.HasLiveClaim | src/controllers/voucher.controller.js:74-76 | defines the repeat-claim guard: some claim record of that voucher whose expiry is after now |
| VoucherController.Claim | src/controllers/voucher.controller.js:42-100 | a refused claim leaves the database unchanged |
| VoucherController.NewClaimRecord | src/controllers/voucher.controller.js:82-88 | the record holds the voucher's code, id, end date as expiry, discount and location name |
| VoucherController.ClaimOkIff | src/controllers/voucher.controller.js:48-92 | a claim succeeds exactly when every check passes (role, user, voucher, window, stock, no live claim) |
| VoucherController.ClaimNeedsUserSession | src/controllers/voucher.controller.js:48-51 | without a user-role session that has an id, the claim is refused and nothing changes |
| VoucherController.ClaimRefusals | src/controllers/voucher.controller.js:63-80 | a claim outside the window, of a sold-out voucher, or with a live claim is refused with that error |
| VoucherController.ClaimEffect | src/controllers/voucher.controller.js:82-92 | a successful claim appends one record to the user's claims and raises that voucher's count by one; nothing else changes |
| VoucherController.ClaimPreservesCap | src/controllers/voucher.controller.js:69-72 | a claim never raises a count above the number issued |
| VoucherController.ClaimKeepsIds | src/controllers/voucher.controller.js:82-92 | users and vouchers keep their ids at every position |
| VoucherController.RepeatClaimRefused | src/controllers/voucher.controller.js:74-80 | after a successful claim, a second claim of the same voucher (ids compared as resolved) before its end date is refused |
| VoucherController.DoubleClaimAtEndInstant | src/controllers/voucher.controller.js:63-80 | at the instant `now == endDate` the recorded claim is no longer live, so a second claim succeeds |
| VoucherController.ClaimsNeverExceedIssued | src/controllers/voucher.controller.js:69-90 | over any sequence of claims a count grows by exactly the number of successes, the total is untouched, and the successes never exceed what remained |
| ObjectIds.Resolve | src/controllers/voucher.controller.js:55 | the id a lookup resolves from path text is printed in lower case and has the same hex digit values |
| ObjectIds.PrintedIdsAgree | src/controllers/voucher.controller.js:55 | two printed ids with the same hex digit values are the same text |
| ObjectIds.ResolveIff | src/controllers/voucher.controller.js:55 | a lookup by the path finds the document printed as `id` exactly when both have the same hex digit values |
| ObjectIds.UpperCaseResolves | src/controllers/voucher.controller.js:55 | a printed id with its letters in upper case resolves to the same document |
| ObjectIds.CaseVariantClaimSlipsThrough | src/controllers/voucher.controller.js:74-76 | as written, a live claim is missed when the path spells the voucher id in upper case, though the lookup found that voucher |
| ObjectIds.AlreadyClaimedAnySpelling | src/controllers/voucher.controller.js:74-80 | the corrected guard gives the same answer for every spelling of the same id |
| ObjectIds.AlreadyClaimedOnPrinted | src/controllers/voucher.controller.js:74-76 | on the printed id, the corrected guard and the guard as written agree |
| ObjectIds.CaseVariantDeletesSelf | src/routes/admin.routes.js:174-183 | as written, the admin's own id in upper case passes the self-deletion guard and names the admin's own account |
| ObjectIds.RefusesSelfIff | src/routes/admin.routes.js:174 | the corrected guard refuses exactly the paths with the admin's own hex digit values |
| VoucherController.VoucherStatus | src/controllers/voucher.controller.js:102-147 | 401 exactly without a session id and 404 exactly for an unknown voucher; a report carries the voucher's phase, counts, code, discount and end date, whether the caller holds a live claim, a location name exactly when the location is stored, and eligibility exactly for a user-role session |
| VoucherController.StatusRemaining | src/controllers/voucher.controller.js:136 | the remainder reported is the virtual remainder clamped at zero |
| VoucherController.StatusPredictsClaim | src/controllers/voucher.controller.js:121-133 | for a user-role session whose user exists, an active status with no live claim means a claim succeeds, and conversely |
| VoucherController.BuildVoucher | src/controllers/voucher.controller.js:166-174 | the document has the normalized code, zero claims, the submitted numbers and dates, and is refused if the schema fails |
| VoucherController.CreateVoucher | src/controllers/voucher.controller.js:149-184 | a refused creation leaves the database unchanged |
| VoucherController.CreateVoucherGuards | src/controllers/voucher.controller.js:154-164 | creation is refused unless the caller owns the location and no stored voucher has the code |
| VoucherController.CreateVoucherEffect | src/controllers/voucher.controller.js:166-176 | a created voucher is appended with the normalized code, zero claims and the caller's location |
| VoucherController.AppendKeepsCodesUnique | src/models/voucher.model.js:22 | appending a voucher whose code is not taken keeps codes distinct |
| VoucherController.CreateVoucherKeepsCodesUnique | src/controllers/voucher.controller.js:160-176 | creation keeps the codes pairwise distinct |
| VoucherController.CreateVoucherKeepsCap | src/controllers/voucher.controller.js:166-176 | creation keeps every voucher within its cap |
| VoucherController.AppendKeepsCap | src/models/voucher.model.js:34-43 | appending a voucher within its cap keeps every voucher within its cap |
| VoucherController.OwnedVoucher | src/controllers/voucher.controller.js:192-196 | the guard finds the voucher only when its location belongs to the caller |
| VoucherController.UpdateVoucher | src/controllers/voucher.controller.js:186-214 | a refused update leaves the database unchanged |
| VoucherController.UpdateVoucherEffect | src/controllers/voucher.controller.js:198-206 | an update takes the submitted discount, total, dates and trimmed conditions, keeps the code, claims, location, id and creation time, and changes no other voucher |
| VoucherController.UpdateCanBreakCap | src/controllers/voucher.controller.js:198-206 | nothing checks the new total against the claims, so an accepted update can leave a voucher over its cap |
| VoucherController.DeleteVoucher | src/controllers/voucher.controller.js:216-235 | after the guard, exactly that voucher is removed |
| VoucherController.OwnerGuard | src/controllers/voucher.controller.js:221-225 | the guard refuses callers who do not own the voucher's location |
| UserController.SelectRole | src/controllers/user.controller.js:31-44 | `owner` and `user` are kept as given; anything else becomes `user` |
| UserController.ValidateRegistration | src/controllers/user.controller.js:31-44 | the passwords must agree, then the phone must be 9 to 11 digits; otherwise the selected role |
| UserController.EmailNormalizationsAgree | src/controllers/user.controller.js:56 | registration's lower-then-trim and login's trim-then-lower give the same address |
| UserController.FirstConflict | src/controllers/user.controller.js:65-72 | the first account matching any of email, username or phone, or none |
| UserController.DuplicateMessage | src/controllers/user.controller.js:65-69 | the e-mail message exactly when the e-mails are equal; otherwise the username message exactly when the typed username is stored, then the phone message when the phone is, else the generic one |
| UserController.BuildUser | src/controllers/user.controller.js:83-88 | the account saved has the probe's fields, the hashed password, the role and an empty claim list |
| UserController.BuildUserValid | src/models/user.model.js:21-56 | a saved account passes every validator of the schema |
| UserController.Register | src/controllers/user.controller.js:46-91 | a refused registration leaves the database unchanged |
| UserController.RegisterRedirect | src/controllers/user.controller.js:46-91 | the login tab on success, the register tab otherwise |
| UserController.ValidPhoneIsTrimmed | src/models/user.model.js:33-38 | a validated phone number is left unchanged by the trim setter |
| UserController.RegisterEffect | src/controllers/user.controller.js:65-88 | a successful registration appends one account with the normalized email, trimmed username and phone |
| UserController.AppendKeepsAccountsUnique | src/models/user.model.js:24 | appending an account whose email and username are free keeps both unique |
| UserController.RegisterKeepsAccountsUnique | src/models/user.model.js:42 | registration keeps emails and usernames unique |
| UserController.RegisterRefusesTaken | src/controllers/user.controller.js:65-72 | a form whose email, username or phone is taken is refused |
| UserController.PaddedUsernameGetsGenericMessage | src/controllers/user.controller.js:74-81 | a padded username that matches a stored one gets the generic duplicate message |
| UserController.UserByEmail | src/controllers/user.controller.js:102 | the index of the account with that email, if any |
| UserController.Login | src/controllers/user.controller.js:93-126 | both fields are required; the account is found by the normalized email and the password checked |
| UserController.LoginOkIff | src/controllers/user.controller.js:97-120 | login succeeds exactly for non-empty fields, a stored account and a matching password, and then the session holds that account |
| UserController.LoginAfterRegister | src/controllers/user.controller.js:46-126 | whoever has just registered can log in with the same email in any spelling that normalizes alike |
| UserController.LiveClaims | src/controllers/user.controller.js:154 | the claims kept are exactly those not yet expired, each as many times as it was held |
| UserController.LiveClaimsInOrder | src/controllers/user.controller.js:154 | the sweep keeps the order of the claims: sweeping a concatenation concatenates the sweeps, a single claim is kept exactly when it is live, and nothing comes of nothing |
| UserController.LiveClaimsSweep | src/controllers/user.controller.js:154-158 | the sweep removes something exactly when some claim has expired, and a second sweep changes nothing |
| UserController.ReviewsByUser | src/controllers/user.controller.js:150-152 | exactly the stored reviews written by the user, each as many times as it is stored, newest first when the reviews are stored in creation order |
| UserController.GetProfile | src/controllers/user.controller.js:135-178 | a refusal changes nothing; a profile shown is the signed-in user's, holds only live claims, and lists that user's reviews as `ReviewsByUser` gives them |
| UserController.SweepClaimsIdempotent | src/controllers/user.controller.js:154-158 | the write-back of the live claims keeps every user's id, and a second write-back at the same instant changes nothing |
| UserController.ProfileWriteBack | src/controllers/user.controller.js:135-158 | the profile leaves the store unchanged for an owner, an anonymous session or an unknown user, and otherwise writes back the signed-in user's live claims |
| UserController.ProfileSweepsExpired | src/controllers/user.controller.js:143-158 | afterwards the stored claims are exactly the live ones shown, and no other user changes |
| UserController.ProfileSweepIdempotent | src/controllers/user.controller.js:143-158 | viewing the profile again at the same instant changes nothing |
| UserController.GetOwnerProfile | src/controllers/user.controller.js:180-214 | refused exactly for a `user` session; shown exactly for another session whose user is stored, with that user and exactly the caller's locations, newest first |
| UserController.OwnerProfileVouchers | src/controllers/user.controller.js:195-199 | every voucher shown is at one of the caller's locations, and every voucher at those locations is shown |
| ReviewController.ValidateReviewInput | src/controllers/review.controller.js:59-77 | a session, a location, a rating `parseInt` reads as 1 to 5, and a trimmed comment of 1 to 500 characters |
| ReviewController.InputErrorRedirect | src/controllers/review.controller.js:60-73 | the login page, the location list, or the location's page, by error |
| ReviewController.BuildMediaPayload | src/controllers/review.controller.js:24-30 | a video type gives a video, anything else an image; the url lies under the user's upload directory |
| ReviewController.MediaUrlShape | src/controllers/review.controller.js:26 | a media url holds no backslash and starts with the user's directory |
| ReviewController.MediaOf | src/controllers/review.controller.js:97-105 | one payload per file with a filename, in order |
| ReviewController.MeanTenths | src/controllers/review.controller.js:49-51 | the mean rounded to tenths half up, as `Math.round(mean * 10)` in exact arithmetic |
| ReviewController.SumRatingsBounds | src/models/review.model.js:29-34 | the sum of `n` ratings from 1 to 5 lies between `n` and `5n` |
| ReviewController.RatingTenths | src/controllers/review.controller.js:46-57 | defines the stored rating: 0 without reviews, else the mean in tenths rounded half up |
| ReviewController.RatingTenthsBounds | src/controllers/review.controller.js:46-57 | with valid ratings the stored rating lies between 1.0 and 5.0, or is 0 without reviews |
| ReviewController.UpdateLocationRating | src/controllers/review.controller.js:46-57 | only location ratings change: the other collections and the number of locations stay, the location with the id takes the rating of its reviews, and every other location is unchanged |
| ReviewController.UpdateLocationRatingEffect | src/controllers/review.controller.js:46-57 | afterwards the location's rating is that of its reviews, and no other location changes |
| ReviewController.CreateReview | src/controllers/review.controller.js:79-123 | a refused review leaves the database unchanged |
| ReviewController.StoreReview | src/controllers/review.controller.js:114-115 | the review is appended and its location's rating recomputed |
| ReviewController.StoreReviewRating | src/controllers/review.controller.js:114-115 | once stored, the location's rating is the rounded mean of all its reviews, the new one included |
| ReviewController.CreateReviewEffect | src/controllers/review.controller.js:105-115 | a created review is appended with the caller, the location, the parsed rating, the trimmed comment and the media |
| ReviewController.CountAfterAppend | src/controllers/review.controller.js:91 | an appended review raises its own (user, location) count by one and leaves the others |
| ReviewController.CreateReviewKeepsCap | src/controllers/review.controller.js:91-95 | creation never takes a user past three reviews of one location |
| ReviewController.CreateReviewRating | src/controllers/review.controller.js:114-115 | after creation the location's rating is the rounded mean of its reviews |
| ReviewController.ReviewRemainingCount | src/controllers/review.controller.js:311-334 | 401 without a session id; otherwise the count used, what remains of three, and whether another is allowed |
| ReviewController.RemainingPredictsCreate | src/controllers/review.controller.js:320-329 | `canReview` holds exactly when the cap check of creation passes |
| ReviewController.UpdateReview | src/controllers/review.controller.js:125-154 | a refused edit leaves the database unchanged |
| ReviewController.UpdateReviewEffect | src/controllers/review.controller.js:132-146 | the author, location and id stay; the rating, comment and added media change; no other review changes; the location's rating is recomputed from the reviews after the edit |
| ReviewController.CountAfterReplace | src/controllers/review.controller.js:138-145 | replacing a review by one with the same author and location keeps every count |
| ReviewController.UpdateReviewKeepsCap | src/controllers/review.controller.js:125-154 | editing keeps the cap of three reviews per user and location |
| ReviewController.RemoveReview | src/controllers/review.controller.js:167-172 | the review is removed, users and vouchers stay, and its location's rating is recomputed from the reviews that remain while every other location stays |
| ReviewController.DeleteReview | src/controllers/review.controller.js:159-183 | succeeds exactly for an existing review of the caller's; then only it is removed and its location's rating recomputed; otherwise nothing changes |
| ReviewController.AdminDeleteReview | src/controllers/review.controller.js:201-225 | fails exactly for an unknown id and then changes nothing; otherwise only that review is removed and its location's rating recomputed |
| ReviewController.RatingZeroWhenNoneRemain | src/controllers/review.controller.js:49-52 | a location left without reviews is rated 0 |
| ReviewController.OwnerReviews | src/controllers/review.controller.js:227-250 | refused exactly without an owner session |
| ReviewController.OwnerReviewsAreOwn | src/controllers/review.controller.js:235-239 | exactly the reviews of the caller's locations are listed |
| ReviewController.OwnerReviewDetail | src/controllers/review.controller.js:258-288 | a detail shown is the stored review with that id (owner id compared, as corrected) |
| ReviewController.OwnerReviewDetailIff | src/controllers/review.controller.js:274-277 | with the owner id compared, an owner sees a review's detail exactly when its location is theirs |
| ReviewController.Populated | src/controllers/review.controller.js:252-256 | the populated owner is missing exactly when the location is gone; a document found names the location's owner |
| ReviewController.PrintedOwner | src/controllers/review.controller.js:274 | `String` of the populated owner never starts with a hex digit |
| ReviewController.OwnerReviewDetailAsWritten | src/controllers/review.controller.js:258-288 | as written, every request is refused; it is refused as forbidden exactly when the session is not an owner's |
| ReviewController.OwnReviewRefused | src/controllers/review.controller.js:274-277 | as written, an owner asking for a review of their own location, which the corrected handler shows, is refused as not theirs |
| LocationController.AllLocations | src/controllers/location.controller.js:16-43 | exactly the stored locations, narrowed to one type when a type other than `all` is given, each as many times as it is stored, newest first when the locations are stored in creation order; the type shown defaults to `all` |
| LocationController.UnfilteredListIsEverything | src/controllers/location.controller.js:19-36 | without a filter, the list is every location, newest first |
| LocationController.LocationById | src/controllers/location.controller.js:49-95 | none exactly for an unknown id; otherwise the stored location with that id; its reviews are exactly the stored ones about it, each as many times as it is stored, newest first when stored in creation order; their count and their mean in tenths in exact arithmetic |
| LocationController.SumRatingsAppend | src/controllers/location.controller.js:75-88 | the sum of ratings distributes over concatenation |
| LocationController.SumRatingsReverse | src/controllers/location.controller.js:75-88 | the sum of ratings does not depend on the order |
| LocationController.DetailAgreesWithStoredRating | src/controllers/location.controller.js:75-88 | in exact arithmetic, the average on the detail page is the rating the review handlers store |
| LocationController.CreateLocation | src/controllers/location.controller.js:101-127 | a refusal changes nothing; a success needs a session and appends exactly one location |
| LocationController.PlaceholderTrimmed | src/models/location.model.js:49-53 | the placeholder url has no white space, so the trim setter keeps it |
| LocationController.CreateLocationEffect | src/controllers/location.controller.js:104-116 | the created location is owned by the caller and shows the placeholder exactly when no image is given |
| LocationController.UpdateLocation | src/controllers/location.controller.js:133-169 | a refusal changes nothing; a success changes only the locations |
| LocationController.UpdateLocationEffect | src/controllers/location.controller.js:143-158 | only the caller's own location changes, and in it only the edited fields |
| LocationController.UpdateByOtherRefused | src/controllers/location.controller.js:143-147 | a caller who owns no location with that id changes nothing |
| LocationController.RemoveLocation | src/controllers/location.controller.js:183-198 | the location, its vouchers and its reviews are removed, and nothing else |
| LocationController.DeleteLocation | src/controllers/location.controller.js:175-207 | the caller's own location is removed with everything referencing it |
| LocationController.DeleteLocationIff | src/controllers/location.controller.js:183-198 | the delete succeeds exactly for a location of the caller's, and afterwards nothing refers to it |
| OwnerController.OwnerVouchers | src/controllers/owner.controller.js:21-26 | exactly the stored vouchers at the owner's locations, each as many times as it is stored, newest first when the vouchers are stored in creation order |
| OwnerController.OwnedIds | src/controllers/owner.controller.js:21-22 | an id is among the ids of the owner's locations exactly when the owner owns a stored location with that id |
| OwnerController.OwnerReviewsNewest | src/controllers/owner.controller.js:41-47 | exactly the stored reviews of the owner's locations, each as many times as it is stored, newest first when the reviews are stored in creation order |
| OwnerController.RenderDashboard | src/controllers/owner.controller.js:18-61 | exactly the owner's locations, each as many times as it is stored and in stored order, and their count; the first five of the owner's vouchers as `OwnerVouchers` orders them, their count, the listed ones counted as active and their claims summed; the first five of the owner's reviews as `OwnerReviewsNewest` orders them, none when the owner has no location |
| OwnerController.ActiveAtMostTotal | src/controllers/owner.controller.js:29-38 | the active count counts exactly the listed vouchers and is at most the voucher count |
| OwnerController.RecentReviewsAreOwn | src/controllers/owner.controller.js:41-47 | every recent review is about one of the owner's locations |
| OwnerController.SumClaimedAtMostIssued | src/controllers/owner.controller.js:38 | when every voucher is within its cap, the claims add up to at most the issued quantities |
| OwnerController.TotalClaimsAtMostIssued | src/controllers/owner.controller.js:29-38 | while every voucher is within its cap, the dashboard's claim total is at most the issued total |
| OwnerController.ListLocations | src/controllers/owner.controller.js:63-76 | exactly the owner's stored locations, each as many times as it is stored, newest first when the locations are stored in creation order |
| Admin.SendResponse | src/routes/admin.routes.js:33-40 | JSON with 200 or 400 by success, or a flash and a redirect |
| Admin.MonthsBefore | src/routes/admin.routes.js:42-50 | the month `k` before, with the year carried as `Date` does, is a valid month |
| Admin.GetMonthRange | src/routes/admin.routes.js:42-50 | `monthsBack + 1` months, each the one `monthsBack - i` before the current month |
| Admin.NextOfMonthsBefore | src/routes/admin.routes.js:42-50 | the month after the `k+1`-th before is the `k`-th before |
| Admin.MonthRangeConsecutive | src/routes/admin.routes.js:42-50 | the window lists consecutive months, oldest first, ending at the current month |
| Admin.CountFor | src/routes/admin.routes.js:52-65 | a positive count comes from a row with that key |
| Admin.MonthCounts | src/routes/admin.routes.js:52-65 | one count per month, in order, with the 0-based month looked up 1-based |
| Admin.CountForDistinct | src/routes/admin.routes.js:52-65 | with distinct keys, the count found is that of the row with the key |
| Admin.CountForMissing | src/routes/admin.routes.js:52-65 | a key that no row has gives 0 |
| Admin.MonthCountsAreTallies | src/routes/admin.routes.js:52-65 | with rows grouped from the creation months, each chart entry is the number of documents created in that month |
| Admin.MonthCountIsTally | src/routes/admin.routes.js:52-65 | one month's count is its tally |
| Admin.TallyZero | src/routes/admin.routes.js:52-65 | a month without a group row has no documents |
| Admin.DashboardStats | src/routes/admin.routes.js:67-136 | the totals, the listed vouchers as active, and those past their end as expired |
| Admin.DisjointFilters | src/routes/admin.routes.js:89-99 | the active and expired filters select disjoint vouchers |
| Admin.ActiveAndExpiredDisjoint | src/routes/admin.routes.js:89-99 | active plus expired is at most the total |
| Admin.UpdateRole | src/routes/admin.routes.js:153-168 | only the three role names are accepted; the user with the id gets it; otherwise nothing changes |
| Admin.RemoveUser | src/routes/admin.routes.js:170-191 | the user, their reviews, their locations and everything at those locations are removed |
| Admin.DeleteUser | src/routes/admin.routes.js:170-191 | refused exactly for the admin's own id (ids compared as resolved), and then nothing changes; otherwise success and the cascade removal; JSON exactly when the request asks for it |
| Admin.DeleteUserCascade | src/routes/admin.routes.js:170-191 | nothing the user wrote or owned remains, and other users' reviews of other locations stay |
| Admin.SelfNeverDeleted | src/routes/admin.routes.js:170-191 | an admin's own account survives any delete request of theirs (ids compared as resolved) |
| Admin.AdminDeleteLocation | src/routes/admin.routes.js:210-226 | the same cascade as an owner's delete, without the owner check |
| Admin.AdminDeleteVoucher | src/routes/admin.routes.js:246-257 | exactly the voucher with the id is removed |
| Auth.Unauthorized | src/middleware/auth.js:17-20 | always a refusal; to the login page with the log-in message exactly when not logged in |
| Auth.RequireRole | src/middleware/auth.js:22-25 | passes exactly when the session has one of the roles; otherwise the refusal goes to the login page exactly when the session has no id |
| Auth.RequireAuth | src/middleware/auth.js:27-30 | passes exactly when the session has an id |
| Auth.GatesNested | src/middleware/auth.js:32-34 | whoever passes the admin gate passes the owner gate, and whoever passes that passes the user gate |
| Auth.HomeFor | src/middleware/auth.js:36-41 | the admin and owner dashboards, the home page otherwise |
| Auth.RedirectIfAuthenticated | src/middleware/auth.js:36-41 | anonymous requests pass, the others go to their home |
| Auth.LocalsUser | src/middleware/auth.js:43-50 | absent without a session id, otherwise the session's fields |
| Chatbot.EscapeHtml | src/routes/chatbot.routes.js:20-23 | the result holds no `<`, `>` or `"` and is at least as long as the input |
| Chatbot.EscapeHtmlAppend | src/routes/chatbot.routes.js:20-23 | escaping distributes over concatenation |
| Chatbot.EscapePlainIsIdentity | src/routes/chatbot.routes.js:20-23 | text without a special character passes unchanged |
| Chatbot.EntityOfEscape | src/routes/chatbot.routes.js:21 | an escaped character reads back as itself; a plain one is no entity |
| Chatbot.UnescapeEscape | src/routes/chatbot.routes.js:20-23 | decoding the entities gives back the original text |
| Chatbot.NewlinesToBr | src/routes/chatbot.routes.js:76 | no line feed remains |
| Chatbot.NoNewlineUnchanged | src/routes/chatbot.routes.js:76 | text without a line feed keeps its form |
| Chatbot.WhiteRun | src/routes/chatbot.routes.js:60 | the run stays within the text |
| Chatbot.WhiteRunIsMaximal | src/routes/chatbot.routes.js:60 | the run is white space and the character after it is not |
| Chatbot.DigitRun | src/routes/chatbot.routes.js:60 | the length of the digit run at a position |
| Chatbot.NameTail | src/routes/chatbot.routes.js:60 | the lazy name group, when it succeeds, ends before a bracketed id and holds only name characters |
| Chatbot.ShortenWhite | src/routes/chatbot.routes.js:60 | the `\s+` after a list number is tried from the longest run down, and the name after it succeeds |
| Chatbot.NumberedAt | src/routes/chatbot.routes.js:60 | the `(\d+)[.)]\s+` group takes part only after a digit run and a `.` or `)`, and only where a name and a bracketed id follow |
| Chatbot.MatchAt | src/routes/chatbot.routes.js:60 | a match found starts at the position and has its number, name and id where the pattern puts them |
| Chatbot.NameTailIsSpaced | src/routes/chatbot.routes.js:60 | between the name and the bracket there is only white space |
| Chatbot.ShortenedIsSpaced | src/routes/chatbot.routes.js:60 | the shortened run is white space |
| Chatbot.NumberIsSpaced | src/routes/chatbot.routes.js:60 | the `\s+` after `N.` is white space up to the name |
| Chatbot.MatchIsSpaced | src/routes/chatbot.routes.js:60 | every match has its white space where the pattern requires it |
| Chatbot.FindFrom | src/routes/chatbot.routes.js:65 | a match found starts at or after the position and is the match at its start |
| Chatbot.FindFromLeftmost | src/routes/chatbot.routes.js:65 | the match found is the leftmost one |
| Chatbot.LinkifyLocations | src/routes/chatbot.routes.js:59-77 | the loop builds the escaped text with each match replaced by its anchor, then the line breaks |
| Chatbot.LinkifyStep | src/routes/chatbot.routes.js:65-73 | one loop turn adds the escaped text before the match and the anchor |
| Chatbot.LinkifyDone | src/routes/chatbot.routes.js:75 | when nothing more matches, the rest is escaped |
| Chatbot.NoBracketFindsNothing | src/routes/chatbot.routes.js:60 | without a `[` nothing matches from any position |
| Chatbot.NoBracketNoLinks | src/routes/chatbot.routes.js:59-77 | without a `[` the reply is the escaped text with line breaks |
| Chatbot.Lookup | src/routes/chatbot.routes.js:31 | none exactly when no member has the key; otherwise the value of the last member with the key, as `JSON.parse` keeps it |
| Chatbot.LastKeyBelow | src/routes/chatbot.routes.js:31 | the last position below `n` holding the key, none exactly when no position below `n` holds it |
| Chatbot.LastMemberWins | src/routes/chatbot.routes.js:31 | a member appended with a key hides every earlier member with that key |
| Chatbot.StringField | src/routes/chatbot.routes.js:29-32 | none exactly when no answer field from `k` on holds a string |
| Chatbot.StringFieldIsAField | src/routes/chatbot.routes.js:29-32 | a string found is the value of one of the answer fields |
| Chatbot.FirstNonBlank | src/routes/chatbot.routes.js:48-49 | a value found is one of the string values and is not blank |
| Chatbot.FirstAnswer | src/routes/chatbot.routes.js:34-39 | an answer found among the elements is not empty |
| Chatbot.ExtractAnswer | src/routes/chatbot.routes.js:25-54 | defines `extractAnswer`: falsy data, a string, the answer fields, the array elements, the candidates text, the non-blank string values, then the cut serialization, in that order |
| Chatbot.ExtractBasics | src/routes/chatbot.routes.js:26-27 | falsy data gives the empty answer and a string is its own answer |
| Chatbot.FieldPriority | src/routes/chatbot.routes.js:29-32 | for an object, the first answer field holding a string wins over every later one |
| Chatbot.FieldScan | src/routes/chatbot.routes.js:29-32 | the field scan finds the first string field from a position |
| Chatbot.ArrayFirstAnswer | src/routes/chatbot.routes.js:34-39 | for an array, the answer is the first non-empty answer among its elements |
| Chatbot.ArrayScan | src/routes/chatbot.routes.js:34-39 | the element scan skips the elements with empty answers |
| Chatbot.FallbackBounded | src/routes/chatbot.routes.js:51-53 | when nothing else answers, the serialized value is cut at 1000 characters |
| Chatbot.PrepareQuery | src/routes/chatbot.routes.js:81-87 | the trimmed question or keyword, the mode defaulting to `faq`, the context; 400 for a blank question |
| Chatbot.Query | src/routes/chatbot.routes.js:79-111 | the reply reports success exactly with status 200 |
| Chatbot.BlankQuestionNeverCallsWebhook | src/routes/chatbot.routes.js:85-87 | a blank question gets 400 whatever the webhook would say |
| Chatbot.SuccessfulReply | src/routes/chatbot.routes.js:101-106 | a JSON reply's answer is what the extraction finds in the body; any other reply's is the body text |
| UploadMiddleware.SanitizeFilename | src/middleware/upload.js:24 | same length; each safe character kept, each other one replaced by `_` |
| UploadMiddleware.SanitizeIsSafeAndIdempotent | src/middleware/upload.js:24 | a sanitized name holds only safe characters, and sanitizing again changes nothing |
| UploadMiddleware.SanitizeKeepsSafe | src/middleware/upload.js:24 | a name of safe characters is kept as it is |
| UploadMiddleware.LastDot | src/middleware/upload.js:34 | the position of the last `.`, or none |
| UploadMiddleware.ExtName | src/middleware/upload.js:34 | the extension from the last dot, empty for a leading dot or `..`, and a suffix of the name |
| UploadMiddleware.BaseAndExtension | src/middleware/upload.js:34-35 | base and extension put together give the name back, and the base is not empty when there is an extension |
| UploadMiddleware.StoredBase | src/middleware/upload.js:35 | a non-empty name of safe characters (`media` when nothing is left) |
| UploadMiddleware.StoredFilename | src/middleware/upload.js:33-38 | the stored name ends with the lower-cased extension |
| UploadMiddleware.StoredFilenameShape | src/middleware/upload.js:33-38 | the stored name is the base, `-`, the unique suffix, then the lower-cased extension |
| UploadMiddleware.AcceptedKinds | src/middleware/upload.js:41-44 | an accepted file is stored as a video only with a video type and as an image only with an image type |
| UploadMiddleware.AcceptsMedia | src/middleware/upload.js:41-44 | defines the file filter: a type starting with `image/` or `video/` |
| UploadMiddleware.Destination | src/middleware/upload.js:27-32 | a directory directly under `uploads/reviews/`, named `anonymous` exactly without a signed-in user |
| UploadMiddleware.DestinationPerUser | src/middleware/upload.js:27-32 | two signed-in users share an upload directory only when they are the same user |
| UploadMiddleware.MediaUrlMatchesDestination | src/middleware/upload.js:27-32 | a stored file is served from the directory it was written to |
| UploadMiddleware.Screen | src/middleware/upload.js:41-50 | a request passes exactly when it has at most five files, all images or videos of at most 15 MiB |
| UploadMiddleware.Accept | src/middleware/upload.js:26-50 | an accepted request stores every file in the user's directory under its stored name |
| UploadMiddleware.ScreenFindsFirstFailure | src/middleware/upload.js:41-50 | the error names the first file that fails, every earlier file having passed |
| Enrich.StrLeTotal | src/config/enrich_locations.js:29-34 | the string order used by `sort()` is total |
| Enrich.StrLeAntisymmetric | src/config/enrich_locations.js:29-34 | it is antisymmetric |
| Enrich.StrLeTransitive | src/config/enrich_locations.js:29-34 | it is transitive |
| Enrich.StrLeReflexive | src/config/enrich_locations.js:29-34 | it is reflexive |
| Enrich.ConsSorted | src/config/enrich_locations.js:29-34 | an element no larger than the head of a sorted list keeps it sorted |
| Enrich.InsertSorted | src/config/enrich_locations.js:29-34 | insertion into a sorted list keeps it sorted and adds exactly the element |
| Enrich.SortSorted | src/config/enrich_locations.js:29-34 | the sorted copy is sorted and a permutation of the input |
| Enrich.SortedSameHead | src/config/enrich_locations.js:29-34 | two sorted lists with the same elements start alike |
| Enrich.SortedTail | src/config/enrich_locations.js:29-34 | the tail of a sorted list is sorted |
| Enrich.SortedUnique | src/config/enrich_locations.js:29-34 | two sorted lists with the same elements are equal |
| Enrich.ArraysEqual | src/config/enrich_locations.js:29-34 | defines `arraysEqual`: the same length and equal sorted copies |
| Enrich.ArraysEqualIffSameElements | src/config/enrich_locations.js:29-34 | two lists compare equal exactly when they hold the same elements with the same multiplicities |
| Enrich.RangeFilledOnlyWhenUnset | src/config/enrich_locations.js:86-98 | each bound of the price range is kept when set and takes the normalized value when it is 0 |
| Enrich.InferCity | src/config/enrich_locations.js:46-49 | defines `inferCity`: a real city is kept, else the derived one, else the old value |
| Enrich.EnsureMenuHighlights | src/config/enrich_locations.js:51-55 | defines `ensureMenuHighlights`: a non-empty parsed list is kept, else one is inferred from the description |
| Enrich.KeptCity | src/config/enrich_locations.js:111-117 | a real city is kept and not counted as a change |
| Enrich.KeptLevel | src/config/enrich_locations.js:100-109 | a set price level is kept and not counted as a change |
| Enrich.KeywordCityAgrees | src/config/enrich_locations.js:119-134 | the keywords are built with the city the location ends up with |
| Enrich.Tally | src/config/enrich_locations.js:36-44 | the processed count is the number of locations |
| Enrich.TallyExtend | src/config/enrich_locations.js:62-145 | one more location adds exactly its changes to the counters |
| Enrich.TallyBounds | src/config/enrich_locations.js:36-44 | no counter exceeds the number of locations |
| Enrich.PersistedAll | src/config/enrich_locations.js:136-144 | one stored document per location |
| Enrich.PersistedAllExtend | src/config/enrich_locations.js:136-144 | one more location adds exactly its stored document |
| Enrich.PersistedAllAt | src/config/enrich_locations.js:136-144 | each stored document is that location's result, and a dry run stores the documents unchanged |
| Enrich.Record | src/config/enrich_locations.js:70-134 | the counters are raised for exactly the checks that changed something |
| Enrich.Visit | src/config/enrich_locations.js:62-145 | one loop turn: the enriched location's changes are counted and its document stored unless the run is dry |
| Enrich.Run | src/config/enrich_locations.js:57-158 | the summary is the tally over all locations and the stored collection is each location's result |
| ImportData.SegmentEnd | import_data.js:18-21 | the end of the run of characters other than `/` and `?` |
| ImportData.FirstMatch | import_data.js:18-21 | the leftmost position where the database-name pattern matches, or none |
| ImportData.FirstMatchIsLeftmost | import_data.js:18-21 | no earlier position matches |
| ImportData.GetDbName | import_data.js:18-21 | a non-empty name without `/` or `?` |
| ImportData.DbNameShape | import_data.js:18-21 | the default exactly when nothing matches, otherwise the whole segment after a `/`, ending at `?` or the end |
| ImportData.Before | import_data.js:24-26 | the text before the first occurrence of the separator, without it |
| ImportData.After | import_data.js:24 | the text after the first occurrence of the separator, or none |
| ImportData.FirstSlashes | import_data.js:26 | the first `//`, or none |
| ImportData.Host | import_data.js:23-26 | no `/` in the host; after `@` with credentials, after `//` otherwise; the default without either |
| ImportData.HostAfterCredentials | import_data.js:24-25 | with credentials, the host starts right after the first `@` |
| ImportData.ImportCommand | import_data.js:53 | defines the `mongoimport` command line, with the database name the pattern reads from the uri |
| ImportData.ImportCollection | import_data.js:32-79 | a missing file fails without a command; otherwise the command runs and its success is the result |
| ImportData.ImportAll | import_data.js:81-117 | exit code 1 for a missing folder; otherwise one result per collection, in order, and overall success when all succeed |
| ImportData.CollectionOrder | import_data.js:89-95 | the collections are users, locations, vouchers, reviews, sessions |
| ImportData.MissingFilesFail | import_data.js:38-41 | when every file is missing nothing runs and every collection fails |
| Frontend.StarAfter | src/public/js/main.js:100-110 | a lit star gains `text-warning` and loses `text-muted`, any other the reverse; other classes stay |
| Frontend.UpdateStarDisplay | src/public/js/main.js:100-110 | every star gets the classes for its index and the rating |
| Frontend.LitPrefix | src/public/js/main.js:100-110 | exactly the first `rating` stars are lit, and none is both lit and muted |
| Frontend.LeaveRating | src/public/js/main.js:91-94 | the stored value read by `parseInt`, 0 when it is not a number |
| Frontend.LeaveRedisplaysStored | src/public/js/main.js:91-94 | a rating stored as digits is redisplayed as it was |
| Frontend.ToastIcon | src/public/js/main.js:253-261 | one of the four icons; `info-circle` for every kind other than the three named ones |
| Frontend.ToastIconsDistinct | src/public/js/main.js:253-261 | the four kinds get four different icons |
| Frontend.StarString | src/public/js/main.js:546 | `rating` filled stars then empty ones up to five; none for a negative rating |
| Frontend.FiveStars | src/public/js/main.js:546 | a rating from 0 to 5 gives five stars, that many filled |
| Frontend.RepeatCount | src/public/js/main.js:546 | a repeated character occurs exactly that many times |
| Frontend.RenderQuickView | src/public/js/main.js:513-573 | the no-data box iff there is no location; no modal iff a review has a negative rating (the RangeError is caught by the click handler); otherwise a line per voucher and per review, in order, or the placeholders, with every review's stars drawn |
| Frontend.ReviewAuthor | src/public/js/main.js:546 | the author shown is never empty, and is anonymous without a user name |
| Frontend.ApplySearch | src/public/js/main.js:155-163 | each item is shown exactly when its lower-cased text contains the lower-cased term |
| Frontend.SearchIgnoresCase | src/public/js/main.js:155-163 | the search ignores case in term and text, and an empty term shows everything |
| Frontend.RegisterSubmit | src/public/js/main.js:391-397 | mismatched passwords give a danger toast and no request; otherwise the form is posted |
| Frontend.Visible | src/public/js/main.js:155-163 | defines the search filter: the lower-cased text contains the lower-cased term |
| Text.Trim | src/controllers/review.controller.js:68 | no white space at either end, and never longer than the input |
| Text.ParseInt | src/controllers/review.controller.js:63 | defines `parseInt` without a radix: leading white space, an optional sign, a `0x` prefix for base 16, then the longest run of digits; none without a digit |
| Text.ParseIntNatToString | src/controllers/review.controller.js:63 | `parseInt` reads back the decimal form of every natural number |
| Store.Store.Claim | src/controllers/voucher.controller.js:42-100 | the store becomes what the claim transition gives, and every voucher stays within its cap |
| Store.Store.GetProfile | src/controllers/user.controller.js:135-178 | the store becomes what the profile transition gives |
| Store.Store.Register | src/controllers/user.controller.js:46-91 | the store becomes what registration gives, and emails and usernames stay unique |
| Store.Store.CreateVoucher | src/controllers/voucher.controller.js:149-184 | the store becomes what creation gives; codes stay unique and counts within caps |
| Store.Store.UpdateVoucher | src/controllers/voucher.controller.js:186-214 | the store becomes what the update gives |
| Store.Store.DeleteVoucher | src/controllers/voucher.controller.js:216-235 | the store becomes what the delete gives |
| Store.Store.CreateReview | src/controllers/review.controller.js:79-123 | the store becomes what creation gives, and the cap of three reviews holds |
| Store.Store.UpdateReview | src/controllers/review.controller.js:125-154 | the store becomes what the update gives, and the cap of three reviews holds |
| Store.Store.DeleteReview | src/controllers/review.controller.js:156-181 | the store becomes what the delete gives |
| Store.Store.CreateLocation | src/controllers/location.controller.js:101-127 | the store becomes what creation gives |
| Store.Store.UpdateLocation | src/controllers/location.controller.js:133-169 | the store becomes what the update gives |
| Store.Store.DeleteLocation | src/controllers/location.controller.js:175-207 | the store becomes what the cascade delete gives |
| Store.Store.UpdateRole | src/routes/admin.routes.js:153-168 | the store becomes what the role update gives |
| Store.Store.DeleteUser | src/routes/admin.routes.js:170-191 | the store becomes what the user deletion gives |

## Findings

| source | as written | input that shows it | evidently intended | confidence | as-written member | corrected member |
|---|---|---|---|---|---|---|
| src/controllers/voucher.controller.js:74-76 | `findById` resolves the path id whatever the case of its hex letters, but the repeat-claim guard compares the stored id's lower-case print with the path text | a second claim of voucher `65a1b2c3d4e5f60718293a4b` with path `65A1B2C3D4E5F60718293A4B` while the first claim is live: the guard misses it, so the voucher is counted twice for one user | the guard compares the resolved ids | not executed | ObjectIds.CaseVariantClaimSlipsThrough | ObjectIds.AlreadyClaimedAnySpelling |
| src/routes/admin.routes.js:174 | the self-deletion guard compares the path text with `String(req.session.userId)`, while the deletions resolve it whatever its case | an admin whose id is `65a1b2c3d4e5f60718293a4b` deletes `65A1B2C3D4E5F60718293A4B`: the guard passes and the admin's own account is removed | the guard compares the resolved ids | not executed | ObjectIds.CaseVariantDeletesSelf | ObjectIds.RefusesSelfIff |
| src/models/voucher.model.js:34-38 | the schema accepts a fractional `quantityTotal`, and the sold-out test `quantityClaimed >= quantityTotal` then lets one claim too many through | a voucher with total 1.5: the claims at counts 0 and 1 both pass, leaving 2 claimed and -0.5 remaining | totals are whole numbers, so the count never passes the total | not executed | VoucherModel.FractionalTotalOvershoots | VoucherModel.WholeTotalHoldsCap |
| src/controllers/review.controller.js:252-277 | the location's owner is populated as a user document, and the ownership guard compares `String` of that document with the session id | an owner opening the detail of a review of their own location: the printed document is not their id, so they are refused | the guard compares the id of the location's owner | not executed | ReviewController.OwnReviewRefused | ReviewController.OwnerReviewDetailIff |

The rest of the model names documents by their resolved ids, so its claim and
self-deletion guards are the corrected ones. Its voucher totals are whole numbers, and
its owner review detail compares the owner's id.

## Left out

- Concurrency: the handlers run one at a time. The two saves of a claim are one step, and the parallel lookups are sequential.
- MongoDB's query engine: each query the handlers make is written as a filter over the collection. Only the unique indexes on code, email and username are modelled, as invariants.
- bcrypt: hashing and comparison are function parameters.
- Floating point: ratings are integer tenths, and `Math.round` on a mean is exact rounding half up.
- LocationController.LocationById: the average is the exact mean rounded half up to tenths. The handler prints `toFixed(1)` of a double, which can differ: 20 reviews summing to 23 show `1.1`, while the stored rating is 1.2.
- LocationController.LocationById: the list of active vouchers on the detail page is not modelled. Its query compares `quantityClaimed` with an object, and what it selects depends on how Mongoose casts that object.
- LocationController.DetailAgreesWithStoredRating: holds in exact arithmetic only, for the reason above.
- ReviewController.UpdateReview: the edited rating is an integer. The handler assigns the raw form field, and the schema casts a text such as `4.5` to a fractional rating, which is not modelled.
- Admin.MonthCounts: the months are grouped as one calendar. The source groups with `$year`/`$month` in UTC but builds the window from local months, so near a month boundary a document can fall in the neighbouring bar.
- Admin.MonthCountsAreTallies: states the tally over that one calendar, for the reason above.
- VoucherController.HasLiveClaim: compares resolved ids. The source compares the path text literally, which is the first finding.
- VoucherController.RepeatClaimRefused: holds for ids compared as resolved, which is the corrected guard of the first finding.
- Admin.DeleteUser: compares resolved ids. The source compares the path text literally, which is the second finding.
- Admin.SelfNeverDeleted: holds for ids compared as resolved, which is the corrected guard of the second finding.
- VoucherController.ClaimPreservesCap: holds for whole-number totals, which the model's totals are. The schema also accepts a fractional total, and then the count can pass the total by less than one, as the third finding shows.
- VoucherController.ClaimsNeverExceedIssued: holds for whole-number totals only, for the same reason.
- Store.Store.Claim: keeps every voucher within its cap for whole-number totals only, for the same reason.
- ReviewController.OwnerReviewDetail: compares the id of the location's owner with the session id, which is the corrected guard of the fourth finding. As written, the populated owner document is compared, and no owner is ever shown a detail.
- ReviewController.OwnerReviewDetailIff: states the corrected guard of the fourth finding, for the same reason.
- Ids that do not cast to an ObjectId make the source's lookups throw, and its `catch` branches answer. Ids are numbers here, so this case does not arise.
- Clocks and randomness: the current time and the random file-name suffix are parameters.
- Network, filesystem and child processes: these are parameters.
  - The webhook call.
  - `fs.existsSync`.
  - `mongoimport`.
  - Directory creation.
  - Unlinking a review's media files: the media are dropped with the review.
- Strings are sequences of Unicode scalar values, not UTF-16 code units. A character outside the Basic Multilingual Plane counts 1 here and 2 against the source's length caps (the 500-character comment, for one). Case mapping covers the ASCII letters only.
- `path.join` normalisation: names are taken not to contain `/` or `..` segments.
- JSON: members are kept in the order written, duplicates included. `Chatbot.Lookup` returns the value of the last member with the key, and `Object.values` lists each key once, at its first position, with its last value, as `JSON.parse` builds the object. JavaScript moves integer-like keys first, in ascending order; the model keeps the source order. Numbers are left out. `JSON.stringify` is a parameter.
- Role gates on routes: the admin and owner gates are modelled in `Auth`, and the admin handlers assume they have run.
- Rendering: views, flash storage and month labels of the charts are not modelled. Only the data handed to the views is, apart from the voucher list of the location page named above.
- Enrich.Run: takes the fetched documents as a sequence and returns the stored collection, rather than saving mongoose documents in place.
- Enrich metadata helpers: the eight helpers the enrichment script imports (`mergeFeatureList`, `normalizePriceRange` and the rest) are function parameters. The metadata module exports only its option lists (categories, price ranges, features, business hours, days) and none of these helpers, so as the repository stands the script would fail on its first call to one. The model takes them as given.
- Enrich.Sort: states only the length of its result. Sortedness and the permutation are proved separately in `Enrich.SortSorted`.
- Frontend.ToastIcon: treats every kind other than the three names alike. It ignores the object-prototype keys (`toString` and the like), which the source's lookup table would return.
- The console output of the scripts and the handlers' `catch` branches: these report I/O failures that the model does not have.
- The HTML markup of the quick view: only its structure and placeholders are modelled.
- The timers of the browser script, its confirm dialogs and its map code: these are not modelled.
- Listing pages that only read and render: the admin lists and the admin review detail are not modelled. `getOwnerVouchers` is modelled only through `OwnerController.OwnerVouchers`.
- VoucherController.DoubleClaimAtEndInstant: records the claim at `endDate` as the source writes it, not as a finding, because the source does not say which side of the boundary is meant.

=== FILE: admin.dfy ===
/** The admin routes: how a reply is sent, the six-month window of the growth charts
    and the alignment of the per-month counts, the dashboard counts, the role update,
    and the user, location and voucher deletions. */
module Admin {
  import opened Wrappers
  import opened Seqs
  import opened Text
  import opened VoucherModel
  import opened UserModel
  import opened LocationModel
  import opened ReviewModel
  import opened Database
  import LocationController

  // ---------------------------------------------------------------- replies

  /** `wantsJson`: an XHR request, or an `Accept` or `Content-Type` header that mentions
      JSON. An absent header is the empty string. */
  predicate WantsJson(xhr: bool, accept: string, contentType: string) {
    xhr || Contains(accept, "application/json") || Contains(contentType, "application/json")
  }

  datatype FlashKind = FlashSuccess | FlashError

  datatype Reply =
    | JsonReply(status: int, success: bool, message: string)
    | FlashRedirect(kind: FlashKind, message: string, url: string)

  /** `sendResponse`: JSON with 200 on success and 400 otherwise, or a flash of the
      matching kind and a redirect. `json` is `WantsJson` of the request's headers. */
  function SendResponse(json: bool, success: bool, message: string, redirectUrl: string): (r: Reply)
    ensures r.JsonReply? <==> json
    ensures r.JsonReply? ==> (r.status == 200 <==> success) && (r.status == 400 <==> !success)
    ensures r.JsonReply? ==> r.success == success && r.message == message
    ensures r.FlashRedirect? ==> (r.kind == FlashSuccess <==> success) && r.message == message && r.url == redirectUrl
  {
    if json then JsonReply(if success then 200 else 400, success, message)
    else FlashRedirect(if success then FlashSuccess else FlashError, message, redirectUrl)
  }

  // ---------------------------------------------------------------- months

  /** A calendar month: the year and the 0-based month, as `Date` reports them. */
  datatype Month = Month(year: int, month: int)

  predicate ValidMonth(m: Month) { 0 <= m.month < 12 }

  /** The month `k` months before `(year, month)`: `new Date(year, month - k, 1)` carries
      whole years out of the month. */
  function MonthsBefore(year: int, month: int, k: int): (m: Month)
    ensures ValidMonth(m)
  {
    Month((year * 12 + month - k) / 12, (year * 12 + month - k) % 12)
  }

  /** The month after `m`. */
  function NextMonth(m: Month): Month {
    if m.month == 11 then Month(m.year + 1, 0) else Month(m.year, m.month + 1)
  }

  /** `getMonthRange(monthsBack)`, with the current year and month passed in. */
  method GetMonthRange(year: int, month: int, monthsBack: nat) returns (months: seq<Month>)
    ensures |months| == monthsBack + 1
    ensures forall j :: 0 <= j < |months| ==> months[j] == MonthsBefore(year, month, monthsBack - j)
  {
    months := [];
    var i: int := monthsBack;
    while i >= 0
      invariant -1 <= i <= monthsBack
      invariant |months| == monthsBack - i
      invariant forall j :: 0 <= j < |months| ==> months[j] == MonthsBefore(year, month, monthsBack - j)
    {
      months := months + [MonthsBefore(year, month, i)];
      i := i - 1;
    }
  }

  lemma NextOfMonthsBefore(year: int, month: int, k: int)
    ensures NextMonth(MonthsBefore(year, month, k + 1)) == MonthsBefore(year, month, k)
  {
    var t := year * 12 + month - k;
    assert t - 1 == (t - 1) / 12 * 12 + (t - 1) % 12;
    assert t == t / 12 * 12 + t % 12;
    if (t - 1) % 12 == 11 {
      assert t % 12 == 0 && t / 12 == (t - 1) / 12 + 1;
    } else {
      assert t % 12 == (t - 1) % 12 + 1 && t / 12 == (t - 1) / 12;
    }
  }

  /** The window lists consecutive months, oldest first, and ends at the current month. */
  lemma MonthRangeConsecutive(year: int, month: int, monthsBack: nat, months: seq<Month>)
    requires 0 <= month < 12
    requires |months| == monthsBack + 1
    requires forall j :: 0 <= j < |months| ==> months[j] == MonthsBefore(year, month, monthsBack - j)
    ensures months[monthsBack] == Month(year, month)
    ensures forall j :: 0 <= j < monthsBack ==> NextMonth(months[j]) == months[j + 1]
  {
    assert (year * 12 + month) / 12 == year && (year * 12 + month) % 12 == month;
    forall j | 0 <= j < monthsBack ensures NextMonth(months[j]) == months[j + 1] {
      NextOfMonthsBefore(year, month, monthsBack - j - 1);
    }
  }

  /** One row of the aggregation: a year, a 1-based month, and how many documents were
      created in it. */
  datatype GroupRow = GroupRow(y: int, m: int, count: nat)

  /** `map.get(key) || 0` over the map built from the rows: a later row with the same key
      overrides an earlier one. */
  function CountFor(rows: seq<GroupRow>, y: int, m: int): (n: nat)
    ensures n > 0 ==> exists i :: 0 <= i < |rows| && rows[i].y == y && rows[i].m == m
  {
    if |rows| == 0 then 0
    else if rows[|rows| - 1].y == y && rows[|rows| - 1].m == m then rows[|rows| - 1].count
    else CountFor(rows[..|rows| - 1], y, m)
  }

  /** `getMonthCounts`: one count per requested month, in the same order; a 0-based month
      is looked up as the aggregation's 1-based month. */
  function MonthCounts(rows: seq<GroupRow>, months: seq<Month>): (r: seq<nat>)
    ensures |r| == |months|
    ensures forall i :: 0 <= i < |months| ==> r[i] == CountFor(rows, months[i].year, months[i].month + 1)
  {
    if |months| == 0 then []
    else [CountFor(rows, months[0].year, months[0].month + 1)] + MonthCounts(rows, months[1..])
  }

  /** The number of documents created in `(y, m)`, `m` 1-based. */
  function Tally(created: seq<(int, int)>, y: int, m: int): nat {
    |Filter(created, (c: (int, int)) => c.0 == y && c.1 == m)|
  }

  /** What `$group` produces from the creation months of the matched documents: one row
      per month that has documents, with their number. */
  ghost predicate GroupsOf(rows: seq<GroupRow>, created: seq<(int, int)>) {
    (forall i, j :: 0 <= i < j < |rows| ==> (rows[i].y, rows[i].m) != (rows[j].y, rows[j].m)) &&
    (forall i :: 0 <= i < |rows| ==> rows[i].count == Tally(created, rows[i].y, rows[i].m) && rows[i].count > 0) &&
    (forall c :: c in created ==> exists i :: 0 <= i < |rows| && rows[i].y == c.0 && rows[i].m == c.1)
  }

  lemma {:induction false} CountForDistinct(rows: seq<GroupRow>, y: int, m: int, k: nat)
    requires k < |rows| && rows[k].y == y && rows[k].m == m
    requires forall i, j :: 0 <= i < j < |rows| ==> (rows[i].y, rows[i].m) != (rows[j].y, rows[j].m)
    ensures CountFor(rows, y, m) == rows[k].count
  {
    if k != |rows| - 1 {
      assert (rows[k].y, rows[k].m) != (rows[|rows| - 1].y, rows[|rows| - 1].m);
      CountForDistinct(rows[..|rows| - 1], y, m, k);
    }
  }

  lemma CountForMissing(rows: seq<GroupRow>, y: int, m: int)
    requires forall i :: 0 <= i < |rows| ==> !(rows[i].y == y && rows[i].m == m)
    ensures CountFor(rows, y, m) == 0
  {
  }

  /** With rows grouped from the documents' creation months, each chart entry is the
      number of documents created in that month, and 0 for a month without any. */
  lemma MonthCountsAreTallies(rows: seq<GroupRow>, created: seq<(int, int)>, months: seq<Month>)
    requires GroupsOf(rows, created)
    ensures forall i :: 0 <= i < |months| ==>
      MonthCounts(rows, months)[i] == Tally(created, months[i].year, months[i].month + 1)
  {
    forall i | 0 <= i < |months|
      ensures MonthCounts(rows, months)[i] == Tally(created, months[i].year, months[i].month + 1)
    {
      MonthCountIsTally(rows, created, months[i].year, months[i].month + 1);
    }
  }

  lemma MonthCountIsTally(rows: seq<GroupRow>, created: seq<(int, int)>, y: int, m: int)
    requires GroupsOf(rows, created)
    ensures CountFor(rows, y, m) == Tally(created, y, m)
  {
    if k :| 0 <= k < |rows| && rows[k].y == y && rows[k].m == m {
      CountForDistinct(rows, y, m, k);
    } else {
      CountForMissing(rows, y, m);
      forall c | c in created ensures !(c.0 == y && c.1 == m) {
        var i :| 0 <= i < |rows| && rows[i].y == c.0 && rows[i].m == c.1;
      }
      TallyZero(created, y, m);
    }
  }

  lemma {:induction false} TallyZero(created: seq<(int, int)>, y: int, m: int)
    requires forall c :: c in created ==> !(c.0 == y && c.1 == m)
    ensures Tally(created, y, m) == 0
  {
    if |created| > 0 {
      assert created[0] in created;
      assert forall c :: c in created[1..] ==> c in created;
      TallyZero(created[1..], y, m);
    }
  }

  // ------------------------------------------------------------- dashboard

  datatype AdminStats = AdminStats(totalUsers: nat, totalLocations: nat, totalVouchers: nat,
                                   totalReviews: nat, activeVouchers: nat, expiredVouchers: nat)

  predicate IsExpired(v: Voucher, now: Time) { v.endDate < now }

  /** The dashboard's counts: "active" is the public listing predicate, "expired" an end
      date in the past. */
  function DashboardStats(db: Db, now: Time): (s: AdminStats)
    ensures s.totalUsers == |db.users| && s.totalLocations == |db.locations|
    ensures s.totalVouchers == |db.vouchers| && s.totalReviews == |db.reviews|
    ensures s.activeVouchers == |Filter(db.vouchers, (v: Voucher) => IsListed(v, now))|
    ensures s.expiredVouchers == |Filter(db.vouchers, (v: Voucher) => IsExpired(v, now))|
  {
    AdminStats(|db.users|, |db.locations|, |db.vouchers|, |db.reviews|,
               |Filter(db.vouchers, (v: Voucher) => IsListed(v, now))|,
               |Filter(db.vouchers, (v: Voucher) => IsExpired(v, now))|)
  }

  lemma {:induction false} DisjointFilters(vs: seq<Voucher>, now: Time)
    ensures |Filter(vs, (v: Voucher) => IsListed(v, now))| + |Filter(vs, (v: Voucher) => IsExpired(v, now))| <= |vs|
  {
    if |vs| > 0 {
      DisjointFilters(vs[1..], now);
    }
  }

  /** No voucher is both active and expired, so together they are at most the total;
      and the active count is the number of vouchers whose status is active. */
  lemma ActiveAndExpiredDisjoint(db: Db, now: Time)
    ensures var s := DashboardStats(db, now); s.activeVouchers + s.expiredVouchers <= s.totalVouchers
    ensures DashboardStats(db, now).activeVouchers == |Filter(db.vouchers, (v: Voucher) => PhaseAt(v, now) == Active)|
  {
    DisjointFilters(db.vouchers, now);
    forall v | v in db.vouchers ensures IsListed(v, now) == (PhaseAt(v, now) == Active) {
      ListedIffActive(v, now);
    }
    FilterExt(db.vouchers, (v: Voucher) => IsListed(v, now), (v: Voucher) => PhaseAt(v, now) == Active);
  }

  // ------------------------------------------------------------------ roles

  datatype AdminResult = AdminResult(db: Db, reply: Reply)

  /** Whether a reply reports success, in either form. */
  predicate Succeeded(r: Reply) {
    if r.JsonReply? then r.success else r.kind == FlashSuccess
  }

  /** `PUT /admin/users/:id/role`: only the three role names are accepted; the user with
      that id, if any, gets the role. */
  function UpdateRole(db: Db, json: bool, id: Id, role: string): (r: AdminResult)
    ensures Succeeded(r.reply) <==> ParseRole(role).Some?
    ensures r.reply.JsonReply? <==> json
    ensures ParseRole(role).None? ==> r.db == db
    ensures r.db.locations == db.locations && r.db.vouchers == db.vouchers && r.db.reviews == db.reviews
    ensures |r.db.users| == |db.users|
    ensures ParseRole(role).Some? ==> forall i :: 0 <= i < |db.users| ==>
      r.db.users[i] == if UserIndex(db.users, id) == Some(i) then db.users[i].(role := ParseRole(role).value) else db.users[i]
  {
    match ParseRole(role)
    case None => AdminResult(db, SendResponse(json, false, "invalid role", "/admin/users"))
    case Some(newRole) =>
      var users := match UserIndex(db.users, id)
        case None => db.users
        case Some(ui) => db.users[ui := db.users[ui].(role := newRole)];
      AdminResult(db.(users := users), SendResponse(json, true, "role updated", "/admin/users"))
  }

  // --------------------------------------------------------------- deletions

  /** The cascade of `DELETE /admin/users/:id`: the user's reviews, the user's locations,
      the vouchers of those locations, and the user. */
  function RemoveUser(db: Db, id: Id): (r: Db)
    ensures forall x :: x in r.reviews <==> x in db.reviews && x.user != id
    ensures forall l :: l in r.locations <==> l in db.locations && l.owner != id
    ensures forall u :: u in r.users <==> u in db.users && u.id != id
    ensures forall v :: v in r.vouchers <==>
      (v in db.vouchers && !exists l :: l in db.locations && l.owner == id && l.id == v.location)
  {
    var owned := LocationIds(LocationsOf(db.locations, Some(id)));
    var vouchers := Filter(db.vouchers, (v: Voucher) => v.location !in owned);
    assert forall v :: v in vouchers <==>
      (v in db.vouchers && !exists l :: l in db.locations && l.owner == id && l.id == v.location) by {
      forall v | v in db.vouchers && exists l :: l in db.locations && l.owner == id && l.id == v.location
        ensures v.location in owned
      {
        var l :| l in db.locations && l.owner == id && l.id == v.location;
        assert l in LocationsOf(db.locations, Some(id));
      }
    }
    db.(reviews := Filter(db.reviews, (x: Review) => x.user != id),
        locations := Filter(db.locations, (l: Location) => l.owner != id),
        vouchers := vouchers,
        users := UsersWithout(db.users, id))
  }

  /** `DELETE /admin/users/:id`: an admin cannot delete their own account. */
  function DeleteUser(db: Db, json: bool, self: Id, id: Id): (r: AdminResult)
    ensures Succeeded(r.reply) <==> id != self
    ensures r.reply.JsonReply? <==> json
    ensures id == self ==> r.db == db
    ensures id != self ==> r.db == RemoveUser(db, id)
  {
    if id == self then AdminResult(db, SendResponse(json, false, "cannot delete yourself", "/admin/users"))
    else AdminResult(RemoveUser(db, id), SendResponse(json, true, "user deleted", "/admin/users"))
  }

  /** After the cascade nothing the user wrote or owned remains; the reviews other users
      left on the user's locations do remain. */
  lemma DeleteUserCascade(db: Db, self: Id, id: Id, json: bool)
    requires id != self
    ensures var r := DeleteUser(db, json, self, id).db;
      (forall x :: x in r.reviews ==> x.user != id) &&
      (forall l :: l in r.locations ==> l.owner != id) &&
      (forall u :: u in r.users ==> u.id != id) &&
      (forall v :: v in r.vouchers ==> forall l :: l in db.locations && l.owner == id ==> v.location != l.id) &&
      (forall x :: x in db.reviews && x.user != id ==> x in r.reviews)
  {
  }

  /** An admin's own account survives any delete request of theirs. */
  lemma SelfNeverDeleted(db: Db, self: Id, id: Id, json: bool, u: User)
    requires u in db.users && u.id == self
    ensures u in DeleteUser(db, json, self, id).db.users
  {
  }

  /** `DELETE /admin/locations/:id`: the same cascade as an owner's delete, without the
      ownership check. */
  function AdminDeleteLocation(db: Db, id: Id): (r: Db)
    ensures r == LocationController.RemoveLocation(db, id)
    ensures forall v :: v in r.vouchers ==> v.location != id
    ensures forall x :: x in r.reviews ==> x.location != id
  {
    LocationController.RemoveLocation(db, id)
  }

  /** `DELETE /admin/vouchers/:id`. */
  function AdminDeleteVoucher(db: Db, id: Id): (r: Db)
    ensures forall v :: v in r.vouchers <==> v in db.vouchers && v.id != id
    ensures r.users == db.users && r.locations == db.locations && r.reviews == db.reviews
  {
    db.(vouchers := VouchersWithout(db.vouchers, id))
  }
}

=== FILE: auth.dfy ===
/** The session as the middleware sees it, the role gates, and the user record
    exposed to the views. */
module Auth {
  import opened Wrappers
  import opened UserModel

  /** The fields login writes into the session; all absent for an anonymous visitor. */
  datatype Session = Session(userId: Option<Id>, role: Option<Role>, username: Option<string>)

  const Anonymous := Session(None, None, None)

  datatype GateMessage = PleaseLogIn | NoPermission

  /** What a gate does with a request: let it through, or redirect with a flash. */
  datatype Gate = Pass | Refuse(url: string, message: GateMessage)

  /** The refusal every gate shares: a visitor without a session id is sent to log in,
      anyone else is told they lack permission. */
  function Unauthorized(notLoggedIn: bool): (g: Gate)
    ensures g.Refuse?
    ensures g.url == "/auth" <==> notLoggedIn
    ensures g.message == PleaseLogIn <==> notLoggedIn
  {
    if notLoggedIn then Refuse("/auth", PleaseLogIn) else Refuse("/", NoPermission)
  }

  /** `requireRole(...roles)`. */
  function RequireRole(roles: set<Role>, s: Session): (g: Gate)
    ensures g == Pass <==> s.role.Some? && s.role.value in roles
    ensures g != Pass ==> g == Unauthorized(s.userId.None?)
  {
    if s.role.Some? && s.role.value in roles then Pass else Unauthorized(s.userId.None?)
  }

  /** `requireAuth`. */
  function RequireAuth(s: Session): (g: Gate)
    ensures g == Pass <==> s.userId.Some?
    ensures g != Pass ==> g == Refuse("/auth", PleaseLogIn)
  {
    if s.userId.Some? then Pass else Unauthorized(true)
  }

  const AdminRoles: set<Role> := {AdminRole}
  const OwnerRoles: set<Role> := {OwnerRole, AdminRole}
  const UserRoles: set<Role> := {UserRole, OwnerRole, AdminRole}

  /** The gates are nested: whoever passes the admin gate passes the owner gate,
      and whoever passes the owner gate passes the user gate; the user gate admits
      every role. */
  lemma GatesNested(s: Session)
    ensures RequireRole(AdminRoles, s) == Pass ==> RequireRole(OwnerRoles, s) == Pass
    ensures RequireRole(OwnerRoles, s) == Pass ==> RequireRole(UserRoles, s) == Pass
    ensures RequireRole(UserRoles, s) == Pass <==> s.role.Some?
  {
    if s.role.Some? {
      match s.role.value
      case UserRole => assert UserRole in UserRoles;
      case OwnerRole => assert OwnerRole in UserRoles;
      case AdminRole => assert AdminRole in UserRoles;
    }
  }

  /** The landing page of a role: the admin and owner dashboards, the home page otherwise. */
  function HomeFor(role: Option<Role>): (url: string)
    ensures role == Some(AdminRole) ==> url == "/admin/dashboard"
    ensures role == Some(OwnerRole) ==> url == "/owner/dashboard"
    ensures role != Some(AdminRole) && role != Some(OwnerRole) ==> url == "/"
  {
    match role
    case Some(AdminRole) => "/admin/dashboard"
    case Some(OwnerRole) => "/owner/dashboard"
    case _ => "/"
  }

  /** `redirectIfAuthenticated`: anonymous requests pass, the others go home. */
  function RedirectIfAuthenticated(s: Session): (r: Option<string>)
    ensures r.None? <==> s.userId.None?
    ensures r.Some? ==> r.value == HomeFor(s.role)
  {
    if s.userId.None? then None else Some(HomeFor(s.role))
  }

  datatype LocalUser = LocalUser(id: Id, username: Option<string>, role: Option<Role>)

  /** `res.locals.user`: absent without a session id, otherwise the session's fields. */
  function LocalsUser(s: Session): (r: Option<LocalUser>)
    ensures r.None? <==> s.userId.None?
    ensures r.Some? ==> r.value == LocalUser(s.userId.value, s.username, s.role)
  {
    if s.userId.Some? then Some(LocalUser(s.userId.value, s.username, s.role)) else None
  }
}

=== FILE: chatbot.dfy ===
/** The chatbot route: HTML escaping, the search for an answer in the webhook's JSON,
    the rewrite of `name [24-hex id]` mentions into location links, and the request
    validation and reply. */
module Chatbot {
  import opened Wrappers
  import opened Seqs
  import opened Text

  // ------------------------------------------------------------- escaping

  predicate IsSpecial(c: char) { c == '&' || c == '<' || c == '>' || c == '"' }

  function EscapeChar(c: char): (r: string)
    ensures |r| > 0
  {
    if c == '&' then "&amp;"
    else if c == '<' then "&lt;"
    else if c == '>' then "&gt;"
    else if c == '"' then "&quot;"
    else [c]
  }

  /** `escapeHtml`: each of `& < > "` becomes its entity; every other character is kept. */
  function EscapeHtml(s: string): (r: string)
    ensures forall i :: 0 <= i < |r| ==> r[i] != '<' && r[i] != '>' && r[i] != '"'
    ensures |r| >= |s|
  {
    if |s| == 0 then [] else EscapeChar(s[0]) + EscapeHtml(s[1..])
  }

  lemma {:induction false} EscapeHtmlAppend(a: string, b: string)
    ensures EscapeHtml(a + b) == EscapeHtml(a) + EscapeHtml(b)
  {
    if |a| == 0 {
      assert a + b == b;
    } else {
      assert (a + b)[1..] == a[1..] + b;
      EscapeHtmlAppend(a[1..], b);
    }
  }

  /** Text without any of the four special characters passes through unchanged. */
  lemma {:induction false} EscapePlainIsIdentity(s: string)
    requires forall i :: 0 <= i < |s| ==> !IsSpecial(s[i])
    ensures EscapeHtml(s) == s
  {
    if |s| > 0 {
      EscapePlainIsIdentity(s[1..]);
    }
  }

  /** The entity at the head of `s`, if any: the character it stands for and its length. */
  function EntityAt(s: string): (r: Option<(char, nat)>)
    ensures r.Some? ==> 0 < r.value.1 <= |s|
  {
    if StartsWith(s, "&amp;") then Some(('&', 5))
    else if StartsWith(s, "&lt;") then Some(('<', 4))
    else if StartsWith(s, "&gt;") then Some(('>', 4))
    else if StartsWith(s, "&quot;") then Some(('"', 6))
    else None
  }

  /** Decoding the four entities, left to right. */
  function Unescape(s: string): string {
    if |s| == 0 then []
    else match EntityAt(s)
      case Some((c, n)) => [c] + Unescape(s[n..])
      case None => [s[0]] + Unescape(s[1..])
  }

  /** An escaped character is read back as itself, and a plain one is no entity. */
  lemma EntityOfEscape(c: char, rest: string)
    ensures EntityAt(EscapeChar(c) + rest) == if IsSpecial(c) then Some((c, |EscapeChar(c)|)) else None
  {
    var t := EscapeChar(c) + rest;
    if c == '&' {
      assert t[..5] == "&amp;";
    } else if c == '<' {
      assert t[..4] == "&lt;";
      assert |t| >= 4 && t[1] == 'l';
    } else if c == '>' {
      assert t[..4] == "&gt;";
      assert |t| >= 4 && t[1] == 'g';
    } else if c == '"' {
      assert t[..6] == "&quot;";
      assert |t| >= 6 && t[1] == 'q';
    } else {
      assert t[0] == c;
    }
  }

  /** Escaping loses nothing: decoding the entities gives back the original text. */
  lemma {:induction false} UnescapeEscape(s: string)
    ensures Unescape(EscapeHtml(s)) == s
  {
    if |s| > 0 {
      var e := EscapeChar(s[0]);
      var rest := EscapeHtml(s[1..]);
      var t := e + rest;
      assert EscapeHtml(s) == t;
      EntityOfEscape(s[0], rest);
      UnescapeEscape(s[1..]);
      assert t[|e|..] == rest;
      if !IsSpecial(s[0]) {
        assert t[1..] == rest;
      }
      assert s == [s[0]] + s[1..];
    }
  }

  // ------------------------------------------------------------ line breaks

  /** `s.replace(/\r?\n/g, '<br>')`. */
  function NewlinesToBr(s: string): (r: string)
    ensures forall i :: 0 <= i < |r| ==> r[i] != '\n'
  {
    if |s| == 0 then []
    else if |s| >= 2 && s[0] == '\r' && s[1] == '\n' then "<br>" + NewlinesToBr(s[2..])
    else if s[0] == '\n' then "<br>" + NewlinesToBr(s[1..])
    else [s[0]] + NewlinesToBr(s[1..])
  }

  /** Text without a line feed keeps its form. */
  lemma {:induction false} NoNewlineUnchanged(s: string)
    requires forall i :: 0 <= i < |s| ==> s[i] != '\n'
    ensures NewlinesToBr(s) == s
  {
    if |s| > 0 {
      NoNewlineUnchanged(s[1..]);
    }
  }

  // ------------------------------------------------- the location pattern

  /** A character the name group `[^\[\n]` accepts. */
  predicate NameChar(c: char) { c != '[' && c != '\n' }

  /** The length of the whitespace run at `i`. */
  function WhiteRun(text: string, i: nat): (n: nat)
    requires i <= |text|
    ensures i + n <= |text|
    decreases |text| - i
  {
    if i < |text| && IsWhite(text[i]) then 1 + WhiteRun(text, i + 1) else 0
  }

  /** The run is white space, and the character after it is not. */
  lemma {:induction false} WhiteRunIsMaximal(text: string, i: nat)
    requires i <= |text|
    ensures forall k :: i <= k < i + WhiteRun(text, i) ==> IsWhite(text[k])
    ensures i + WhiteRun(text, i) == |text| || !IsWhite(text[i + WhiteRun(text, i)])
    decreases |text| - i
  {
    if i < |text| && IsWhite(text[i]) {
      WhiteRunIsMaximal(text, i + 1);
    }
  }

  /** The length of the decimal digit run at `i`. */
  function DigitRun(text: string, i: nat): (n: nat)
    requires i <= |text|
    ensures i + n <= |text|
    ensures forall k :: i <= k < i + n ==> IsDigit(text[k])
    ensures i + n == |text| || !IsDigit(text[i + n])
    decreases |text| - i
  {
    if i < |text| && IsDigit(text[i]) then 1 + DigitRun(text, i + 1) else 0
  }

  /** `\[([0-9a-fA-F]{24})\]` at `b`. */
  predicate IdAt(text: string, b: nat) {
    b + 26 <= |text| && text[b] == '[' && text[b + 25] == ']' &&
    forall k :: b + 1 <= k < b + 25 ==> IsHexDigit(text[k])
  }

  /** The lazy name group `[^\[\n]+?` started at `q` and holding `text[q..e]`, followed
      by `\s*\[…\]`: where the name ends and where the bracketed id starts. The name is
      the shortest that lets the tail match; the tail's whitespace run is the greedy one,
      since a shorter run would leave a whitespace character where `[` is needed. */
  function NameTail(text: string, q: nat, e: nat): (r: Option<(nat, nat)>)
    requires q <= e <= |text|
    ensures r.Some? ==> e <= r.value.0 && q < r.value.0 <= r.value.1 && IdAt(text, r.value.1)
    ensures r.Some? ==> forall k :: e <= k < r.value.0 ==> NameChar(text[k])
    decreases |text| - e
  {
    var w := e + WhiteRun(text, e);
    if q < e && IdAt(text, w) then Some((e, w))
    else if e < |text| && NameChar(text[e]) then NameTail(text, q, e + 1)
    else None
  }

  /** The `\s+` after `N.`: the longest run first, then shorter ones, down to one. The
      result is where the name starts. */
  function ShortenWhite(text: string, s: nat, k: nat): (r: Option<nat>)
    requires s + k <= |text|
    ensures r.Some? ==> s < r.value <= s + k && NameTail(text, r.value, r.value).Some?
    decreases k
  {
    if k == 0 then None
    else if NameTail(text, s + k, s + k).Some? then Some(s + k)
    else ShortenWhite(text, s, k - 1)
  }

  /** One match of the pattern: where it starts, the list number (empty when the
      optional `N.` group did not take part), where the name lies, and where the
      bracketed id starts. */
  datatype Match = Match(start: nat, num: string, nameStart: nat, nameEnd: nat, idStart: nat)

  /** Where the match ends, and the search resumes. */
  function End(m: Match): nat { m.idStart + 26 }

  /** `(\d+)[.)]` at `start`, before the name at `q`, with `num` as its digits. */
  predicate NumberPrefix(text: string, start: nat, num: string, q: nat) {
    start + |num| < q <= |text| && |num| > 0 && text[start..start + |num|] == num && AllDigits(num) &&
    (text[start + |num|] == '.' || text[start + |num|] == ')')
  }

  /** The parts of a match lie where the pattern puts them. */
  predicate WellPlaced(text: string, m: Match) {
    m.start <= m.nameStart <= |text| && NameTail(text, m.nameStart, m.nameStart) == Some((m.nameEnd, m.idStart)) &&
    (m.num == [] ==> m.nameStart == m.start) &&
    (m.num != [] ==> NumberPrefix(text, m.start, m.num, m.nameStart))
  }

  /** The optional `(\d+)[.)]\s+` group at `p`: where the name starts after it, or none
      when the group cannot take part. Its `\d+` keeps all the digits, since fewer would
      leave a digit where `.` or `)` is needed. */
  function NumberedAt(text: string, p: nat): (r: Option<nat>)
    requires p <= |text|
    ensures r.Some? ==> var d := DigitRun(text, p);
      0 < d && p + d < |text| && (text[p + d] == '.' || text[p + d] == ')') &&
      p + d + 1 < r.value <= |text| && NameTail(text, r.value, r.value).Some?
  {
    var d := DigitRun(text, p);
    if d > 0 && p + d < |text| && (text[p + d] == '.' || text[p + d] == ')')
    then ShortenWhite(text, p + d + 1, WhiteRun(text, p + d + 1))
    else None
  }

  /** The pattern tried at `p`: first with the numbered group, and without it when that
      fails. */
  function MatchAt(text: string, p: nat): (r: Option<Match>)
    requires p <= |text|
    ensures r.Some? ==> r.value.start == p && WellPlaced(text, r.value)
  {
    var numbered := NumberedAt(text, p);
    if numbered.Some? then
      var d := DigitRun(text, p);
      var q := numbered.value;
      var num := text[p..p + d];
      assert AllDigits(num) by {
        forall i | 0 <= i < |num| ensures IsDigit(num[i]) {
          assert num[i] == text[p + i];
        }
      }
      var nt := NameTail(text, q, q).value;
      Some(Match(p, num, q, nt.0, nt.1))
    else match NameTail(text, p, p)
      case Some((e, b)) => Some(Match(p, "", p, e, b))
      case None => None
  }

  /** The white space the pattern puts in a match: the `\s+` after the list number and
      the `\s*` before the bracketed id. */
  predicate Spaced(text: string, m: Match)
    requires WellPlaced(text, m)
  {
    (forall k :: m.nameEnd <= k < m.idStart ==> IsWhite(text[k])) &&
    (m.num != [] ==> forall k :: m.start + |m.num| < k < m.nameStart ==> IsWhite(text[k]))
  }

  lemma {:induction false} NameTailIsSpaced(text: string, q: nat, e: nat)
    requires q <= e <= |text| && NameTail(text, q, e).Some?
    ensures var r := NameTail(text, q, e).value; forall k :: r.0 <= k < r.1 ==> IsWhite(text[k])
    decreases |text| - e
  {
    if q < e && IdAt(text, e + WhiteRun(text, e)) {
      WhiteRunIsMaximal(text, e);
    } else {
      NameTailIsSpaced(text, q, e + 1);
    }
  }

  lemma {:induction false} ShortenedIsSpaced(text: string, s: nat, k: nat)
    requires s + k <= |text| && ShortenWhite(text, s, k).Some?
    requires forall j :: s <= j < s + k ==> IsWhite(text[j])
    ensures forall j :: s <= j < ShortenWhite(text, s, k).value ==> IsWhite(text[j])
    decreases k
  {
    if NameTail(text, s + k, s + k).None? {
      ShortenedIsSpaced(text, s, k - 1);
    }
  }

  /** The `\s+` after `N.` is white space up to where the name starts. */
  lemma NumberIsSpaced(text: string, s: nat)
    requires s <= |text| && ShortenWhite(text, s, WhiteRun(text, s)).Some?
    ensures forall j :: s <= j < ShortenWhite(text, s, WhiteRun(text, s)).value ==> IsWhite(text[j])
  {
    WhiteRunIsMaximal(text, s);
    ShortenedIsSpaced(text, s, WhiteRun(text, s));
  }

  /** Every match has its white space where the pattern requires it. */
  lemma MatchIsSpaced(text: string, p: nat)
    requires p <= |text| && MatchAt(text, p).Some?
    ensures Spaced(text, MatchAt(text, p).value)
  {
    var m := MatchAt(text, p).value;
    NameTailIsSpaced(text, m.nameStart, m.nameStart);
    if NumberedAt(text, p).Some? {
      NumberIsSpaced(text, p + DigitRun(text, p) + 1);
    }
  }

  /** `pattern.exec(text)` with `lastIndex == p`: the leftmost match at or after `p`. */
  function FindFrom(text: string, p: nat): (r: Option<Match>)
    requires p <= |text|
    ensures r.Some? ==> p <= r.value.start <= |text| && MatchAt(text, r.value.start) == r
    decreases |text| - p
  {
    if MatchAt(text, p).Some? then MatchAt(text, p)
    else if p < |text| then FindFrom(text, p + 1)
    else None
  }

  /** The match found is the leftmost one: nothing matches between `p` and its start,
      and when none is found nothing matches from `p` to the end. */
  lemma FindFromLeftmost(text: string, p: nat)
    requires p <= |text|
    ensures FindFrom(text, p).Some? ==> forall k :: p <= k < FindFrom(text, p).value.start ==> MatchAt(text, k).None?
    ensures FindFrom(text, p).None? ==> forall k :: p <= k <= |text| ==> MatchAt(text, k).None?
  {
    forall k | p <= k <= |text| && (FindFrom(text, p).None? || k < FindFrom(text, p).value.start)
      ensures MatchAt(text, k).None?
    {
      NoMatchBefore(text, p, k);
    }
  }

  /** One position at a time: before the match found, or anywhere when none is found,
      nothing matches. */
  lemma {:induction false} NoMatchBefore(text: string, p: nat, k: nat)
    requires p <= k <= |text|
    requires FindFrom(text, p).None? || k < FindFrom(text, p).value.start
    ensures MatchAt(text, k).None?
    decreases k - p
  {
    if p < k {
      assert MatchAt(text, p).None?;
      NoMatchBefore(text, p + 1, k);
    }
  }

  /** The 24 hex digits between the brackets. */
  function IdOf(text: string, m: Match): string
    requires WellPlaced(text, m)
  {
    text[m.idStart + 1..m.idStart + 25]
  }

  /** The replacement for one match: the list number with `. `, then the anchor to the
      location with the trimmed, escaped name. */
  function Anchor(text: string, m: Match): string
    requires WellPlaced(text, m)
  {
    (if m.num != "" then m.num + ". " else "") +
    "<a href=\"/locations/" + IdOf(text, m) + "\" class=\"chat-location-link\">" +
    EscapeHtml(Trim(text[m.nameStart..m.nameEnd])) + "</a>"
  }

  /** The text from `i` on, with the text between matches escaped and each match replaced
      by its anchor. */
  function LinkifyFrom(text: string, i: nat): string
    requires i <= |text|
    decreases |text| - i
  {
    match FindFrom(text, i)
    case None => EscapeHtml(text[i..])
    case Some(m) => EscapeHtml(text[i..m.start]) + Anchor(text, m) + LinkifyFrom(text, End(m))
  }

  /** The HTML `linkifyLocations` produces. */
  function LinkifyHtml(text: string): string {
    NewlinesToBr(LinkifyFrom(text, 0))
  }

  /** `linkifyLocations`: the `exec` loop, accumulating the escaped text before each match
      and the match's anchor, then the escaped rest, then the line breaks. */
  method LinkifyLocations(text: string) returns (html: string)
    ensures html == LinkifyHtml(text)
    ensures forall i :: 0 <= i < |html| ==> html[i] != '\n'
  {
    var result := "";
    var lastIndex: nat := 0;
    var found := FindFrom(text, lastIndex);
    while found.Some?
      invariant lastIndex <= |text|
      invariant found == FindFrom(text, lastIndex)
      invariant result + LinkifyFrom(text, lastIndex) == LinkifyFrom(text, 0)
      decreases |text| - lastIndex
    {
      var m := found.value;
      var piece := EscapeHtml(text[lastIndex..m.start]) + Anchor(text, m);
      LinkifyStep(text, lastIndex);
      assert result + LinkifyFrom(text, lastIndex) == (result + piece) + LinkifyFrom(text, End(m));
      result := result + piece;
      lastIndex := End(m);
      found := FindFrom(text, lastIndex);
    }
    LinkifyDone(text, lastIndex);
    result := result + EscapeHtml(text[lastIndex..]);
    html := NewlinesToBr(result);
  }

  lemma LinkifyStep(text: string, i: nat)
    requires i <= |text| && FindFrom(text, i).Some?
    ensures var m := FindFrom(text, i).value;
      LinkifyFrom(text, i) == (EscapeHtml(text[i..m.start]) + Anchor(text, m)) + LinkifyFrom(text, End(m))
  {
  }

  lemma LinkifyDone(text: string, i: nat)
    requires i <= |text| && FindFrom(text, i).None?
    ensures LinkifyFrom(text, i) == EscapeHtml(text[i..])
  {
  }

  /** Without a `[` nothing matches from any position. */
  lemma {:induction false} NoBracketFindsNothing(text: string, p: nat)
    requires p <= |text|
    requires forall i :: 0 <= i < |text| ==> text[i] != '['
    ensures FindFrom(text, p).None?
    decreases |text| - p
  {
    if p < |text| {
      NoBracketFindsNothing(text, p + 1);
    }
  }

  /** Without a `[` the reply is the escaped text with line breaks. */
  lemma NoBracketNoLinks(text: string)
    requires forall i :: 0 <= i < |text| ==> text[i] != '['
    ensures LinkifyHtml(text) == NewlinesToBr(EscapeHtml(text))
  {
    NoBracketFindsNothing(text, 0);
    LinkifyDone(text, 0);
    assert text[0..] == text;
  }

  // ---------------------------------------------------------- the answer

  /** A JSON value as the reply text is written. An object is its list of members in
      the order written; a key may be repeated, and `JSON.parse` then keeps one property
      per key, at its first position, holding the last value given for it. */
  datatype Json =
    | JNull
    | JBool(b: bool)
    | JNum(n: int)
    | JStr(s: string)
    | JArr(items: seq<Json>)
    | JObj(members: seq<(string, Json)>)

  predicate Falsy(d: Json) {
    d == JNull || d == JBool(false) || d == JNum(0) || d == JStr("")
  }

  /** The index of the last of the first `n` members with that key. */
  function LastKeyBelow(members: seq<(string, Json)>, key: string, n: nat): (r: Option<nat>)
    requires n <= |members|
    ensures r.Some? ==> r.value < n && members[r.value].0 == key
    ensures r.Some? ==> forall j :: r.value < j < n ==> members[j].0 != key
    ensures r.None? ==> forall j :: 0 <= j < n ==> members[j].0 != key
  {
    if n == 0 then None
    else if members[n - 1].0 == key then Some(n - 1)
    else LastKeyBelow(members, key, n - 1)
  }

  /** `obj[key]` for a parsed object: the value of the last member with that key;
      `None` for `undefined`. */
  function Lookup(members: seq<(string, Json)>, key: string): (r: Option<Json>)
    ensures r.None? <==> forall i :: 0 <= i < |members| ==> members[i].0 != key
    ensures r.Some? ==> LastKeyBelow(members, key, |members|).Some? &&
                        members[LastKeyBelow(members, key, |members|).value] == (key, r.value)
  {
    var k := LastKeyBelow(members, key, |members|);
    if k.None? then None else Some(members[k.value].1)
  }

  /** A later member with a key overrides every earlier one. */
  lemma LastMemberWins(members: seq<(string, Json)>, key: string, v: Json)
    ensures Lookup(members + [(key, v)], key) == Some(v)
  {
    var m := members + [(key, v)];
    assert m[|m| - 1].0 == key;
  }

  /** `value?.[key]`: a member of an object, `undefined` for anything else. */
  function Prop(v: Option<Json>, key: string): Option<Json> {
    if v.Some? && v.value.JObj? then Lookup(v.value.members, key) else None
  }

  /** `value?.[0]`: the first element of an array, or the member named `0`. */
  function First(v: Option<Json>): Option<Json> {
    if v.Some? && v.value.JArr? && |v.value.items| > 0 then Some(v.value.items[0])
    else Prop(v, "0")
  }

  /** The fields tried for a direct answer, in order. */
  const AnswerFields: seq<string> := ["answer", "text", "message", "output", "content"]

  /** The first of the answer fields, from `k` on, whose value is a string. */
  function StringField(members: seq<(string, Json)>, k: nat): (r: Option<string>)
    requires k <= |AnswerFields|
    ensures r.None? <==> forall j :: k <= j < |AnswerFields| ==> !HoldsString(members, j)
    decreases |AnswerFields| - k
  {
    if k == |AnswerFields| then None
    else match Lookup(members, AnswerFields[k])
      case Some(JStr(s)) => assert HoldsString(members, k); Some(s)
      case _ => StringField(members, k + 1)
  }

  /** The answer field `j` holds a string. */
  predicate HoldsString(members: seq<(string, Json)>, j: nat)
    requires j < |AnswerFields|
  {
    Lookup(members, AnswerFields[j]).Some? && Lookup(members, AnswerFields[j]).value.JStr?
  }

  /** A string found is the value of one of the answer fields from `k` on. */
  lemma {:induction false} StringFieldIsAField(members: seq<(string, Json)>, k: nat)
    requires k <= |AnswerFields| && StringField(members, k).Some?
    ensures exists j :: k <= j < |AnswerFields| && Lookup(members, AnswerFields[j]) == Some(JStr(StringField(members, k).value))
    decreases |AnswerFields| - k
  {
    if !HoldsString(members, k) {
      StringFieldIsAField(members, k + 1);
    }
  }

  /** `data.candidates[0]?.content?.parts?.[0]?.text` when it is a string. */
  function CandidateText(members: seq<(string, Json)>): Option<string> {
    match Lookup(members, "candidates")
    case Some(JArr(cs)) =>
      var t := Prop(First(Prop(Prop(First(Some(JArr(cs))), "content"), "parts")), "text");
      if t.Some? && t.value.JStr? then Some(t.value.s) else None
    case _ => None
  }

  /** A member whose key appeared before it: the parsed object has no property of its
      own for it. */
  predicate RepeatedKey(members: seq<(string, Json)>, i: nat)
    requires i < |members|
  {
    exists j :: 0 <= j < i && members[j].0 == members[i].0
  }

  /** The values of the parsed object from member `i` on: one per key, at the key's
      first position, with the key's last value. */
  function ValuesFrom(members: seq<(string, Json)>, i: nat): (r: seq<Json>)
    requires i <= |members|
    decreases |members| - i
  {
    if i == |members| then []
    else
      var rest := ValuesFrom(members, i + 1);
      if RepeatedKey(members, i) then rest
      else
        var v := Lookup(members, members[i].0);
        assert v.Some?;
        [v.value] + rest
  }

  /** `Object.values(data)`. */
  function Values(d: Json): seq<Json> {
    match d
    case JArr(items) => items
    case JObj(members) => ValuesFrom(members, 0)
    case _ => []
  }

  /** The first value that is a string with something besides white space. */
  function FirstNonBlank(values: seq<Json>): (r: Option<string>)
    ensures r.Some? ==> JStr(r.value) in values && Trim(r.value) != ""
  {
    if |values| == 0 then None
    else if values[0].JStr? && Trim(values[0].s) != "" then Some(values[0].s)
    else FirstNonBlank(values[1..])
  }

  /** The most characters of serialized JSON the answer keeps. */
  const MaxJsonAnswer := 1000

  /** `extractAnswer`; `stringify` is `JSON.stringify`. */
  function ExtractAnswer(d: Json, stringify: Json -> string): string
    decreases d, 1
  {
    if Falsy(d) then ""
    else if d.JStr? then d.s
    else if d.JObj? && StringField(d.members, 0).Some? then StringField(d.members, 0).value
    else if d.JArr? && FirstAnswer(d, 0, stringify).Some? then FirstAnswer(d, 0, stringify).value
    else if d.JObj? && CandidateText(d.members).Some? then CandidateText(d.members).value
    else if FirstNonBlank(Values(d)).Some? then FirstNonBlank(Values(d)).value
    else Take(stringify(d), MaxJsonAnswer)
  }

  /** The loop over an array: the first element, from `i` on, whose answer is not empty. */
  function FirstAnswer(d: Json, i: nat, stringify: Json -> string): (r: Option<string>)
    requires d.JArr? && i <= |d.items|
    ensures r.Some? ==> r.value != ""
    decreases d, 0, |d.items| - i
  {
    if i == |d.items| then None
    else
      var a := ExtractAnswer(d.items[i], stringify);
      if a != "" then Some(a) else FirstAnswer(d, i + 1, stringify)
  }

  /** Falsy data gives the empty answer and a string is its own answer. */
  lemma ExtractBasics(d: Json, stringify: Json -> string)
    ensures Falsy(d) ==> ExtractAnswer(d, stringify) == ""
    ensures d.JStr? ==> ExtractAnswer(d, stringify) == d.s
  {
  }

  /** For an object, the first answer field holding a string wins over every later one
      and over every other rule. */
  lemma FieldPriority(members: seq<(string, Json)>, k: nat, s: string, stringify: Json -> string)
    requires k < |AnswerFields|
    requires Lookup(members, AnswerFields[k]) == Some(JStr(s))
    requires forall j :: 0 <= j < k ==> !HoldsString(members, j)
    ensures ExtractAnswer(JObj(members), stringify) == s
  {
    FieldScan(members, 0, k, s);
  }

  lemma {:induction false} FieldScan(members: seq<(string, Json)>, from: nat, k: nat, s: string)
    requires from <= k < |AnswerFields|
    requires Lookup(members, AnswerFields[k]) == Some(JStr(s))
    requires forall j :: from <= j < k ==> !HoldsString(members, j)
    ensures StringField(members, from) == Some(s)
    decreases k - from
  {
    var here := Lookup(members, AnswerFields[from]);
    if from < k {
      assert !HoldsString(members, from);
      FieldScan(members, from + 1, k, s);
      assert StringField(members, from) == StringField(members, from + 1);
    } else {
      assert here == Some(JStr(s));
    }
  }

  /** For an array, the answer is the first non-empty answer among its elements. */
  lemma {:induction false} ArrayFirstAnswer(items: seq<Json>, k: nat, stringify: Json -> string)
    requires k < |items| && ExtractAnswer(items[k], stringify) != ""
    requires forall j :: 0 <= j < k ==> ExtractAnswer(items[j], stringify) == ""
    ensures ExtractAnswer(JArr(items), stringify) == ExtractAnswer(items[k], stringify)
  {
    ArrayScan(JArr(items), 0, k, stringify);
  }

  lemma {:induction false} ArrayScan(d: Json, from: nat, k: nat, stringify: Json -> string)
    requires d.JArr? && from <= k < |d.items| && ExtractAnswer(d.items[k], stringify) != ""
    requires forall j :: from <= j < k ==> ExtractAnswer(d.items[j], stringify) == ""
    ensures FirstAnswer(d, from, stringify) == Some(ExtractAnswer(d.items[k], stringify))
    decreases k - from
  {
    if from < k {
      var a := ExtractAnswer(d.items[from], stringify);
      assert a == "";
      ArrayScan(d, from + 1, k, stringify);
      assert FirstAnswer(d, from, stringify) == FirstAnswer(d, from + 1, stringify);
    } else {
      var a := ExtractAnswer(d.items[k], stringify);
      assert a != "";
      assert FirstAnswer(d, from, stringify) == Some(a);
    }
  }

  /** When nothing else yields an answer, the serialized value is cut at 1000 characters. */
  lemma FallbackBounded(d: Json, stringify: Json -> string)
    requires !Falsy(d) && !d.JStr? && !d.JArr?
    requires d.JObj? ==> StringField(d.members, 0).None? && CandidateText(d.members).None?
    requires FirstNonBlank(Values(d)).None?
    ensures ExtractAnswer(d, stringify) == Take(stringify(d), MaxJsonAnswer)
    ensures |ExtractAnswer(d, stringify)| <= MaxJsonAnswer
  {
  }

  // ------------------------------------------------------------ the route

  /** The body of `POST /chatbot/query`; an absent field is the empty string. */
  datatype QueryForm = QueryForm(question: string, keyword: string, mode: string, context: string)

  /** What is sent to the webhook. */
  datatype ChatRequest = ChatRequest(question: string, mode: string, context: string)

  /** The trimmed question (or keyword), the mode defaulting to `faq`, and the context;
      a blank question is refused with 400. */
  function PrepareQuery(f: QueryForm): (r: Result<ChatRequest, int>)
    ensures r.Err? <==> Trim(if f.question != "" then f.question else f.keyword) == ""
    ensures r.Err? ==> r.error == 400
    ensures r.Ok? ==> r.value.question != "" && Trim(r.value.question) == r.value.question
    ensures r.Ok? ==> r.value.mode == if f.mode != "" then Trim(f.mode) else "faq"
  {
    var q := Trim(if f.question != "" then f.question else f.keyword);
    if q == "" then Err(400)
    else
      TrimIdempotent(if f.question != "" then f.question else f.keyword);
      Ok(ChatRequest(q, if f.mode != "" then Trim(f.mode) else "faq", Trim(f.context)))
  }

  /** The webhook's answer: unreachable, or a status, a content type, the body text, and
      the body parsed as JSON (`None` when it is not JSON). */
  datatype Upstream =
    | Unreachable
    | Response(status: int, contentType: string, body: string, json: Option<Json>)

  /** `response.ok`. */
  predicate IsOk(status: int) { 200 <= status <= 299 }

  datatype ChatReply = ChatReply(status: int, success: bool, answer: string, answerHtml: string)

  /** The route: 400 before any webhook call for a blank question, the upstream status
      when it fails, 500 when it cannot be reached or its JSON cannot be parsed, and
      otherwise the answer and its linked HTML. */
  function Query(f: QueryForm, webhook: ChatRequest -> Upstream, stringify: Json -> string): (r: ChatReply)
    ensures r.success <==> r.status == 200
  {
    match PrepareQuery(f)
    case Err(code) => ChatReply(code, false, "", "")
    case Ok(req) =>
      match webhook(req)
      case Unreachable => ChatReply(500, false, "", "")
      case Response(status, contentType, body, json) =>
        if !IsOk(status) then ChatReply(status, false, "", "")
        else if Contains(contentType, "application/json") && json.None? then ChatReply(500, false, "", "")
        else
          var answer := if Contains(contentType, "application/json") then ExtractAnswer(json.value, stringify) else body;
          ChatReply(200, true, answer, LinkifyHtml(answer))
  }

  /** A blank question gets 400 whatever the webhook would have said. */
  lemma BlankQuestionNeverCallsWebhook(f: QueryForm, w1: ChatRequest -> Upstream, w2: ChatRequest -> Upstream,
                                       stringify: Json -> string)
    requires Trim(if f.question != "" then f.question else f.keyword) == ""
    ensures Query(f, w1, stringify) == Query(f, w2, stringify)
    ensures Query(f, w1, stringify).status == 400
  {
  }

  /** A JSON reply's answer is what `extractAnswer` finds in the parsed body; any other
      successful reply answers with the body text. Either way the HTML is its linked
      form. */
  lemma SuccessfulReply(f: QueryForm, webhook: ChatRequest -> Upstream, stringify: Json -> string)
    requires Query(f, webhook, stringify).success
    ensures PrepareQuery(f).Ok?
    ensures var u := webhook(PrepareQuery(f).value); var r := Query(f, webhook, stringify);
      u.Response? && IsOk(u.status) && r.answerHtml == LinkifyHtml(r.answer) &&
      r.answer == (if Contains(u.contentType, "application/json") then ExtractAnswer(u.json.value, stringify) else u.body)
  {
  }
}

=== FILE: database.dfy ===
/** The four collections as one value, in insertion order, with the lookups and
    bulk deletions the controllers issue against them. */
module Database {
  import opened Wrappers
  import opened Seqs
  import opened VoucherModel
  import opened UserModel
  import opened LocationModel
  import opened ReviewModel

  /** A snapshot of the database. `nextId` is the next id to hand out. */
  datatype Db = Db(
    users: seq<User>,
    locations: seq<Location>,
    vouchers: seq<Voucher>,
    reviews: seq<Review>,
    nextId: nat)

  // ------------------------------------------------------- creation order

  /** Vouchers stored in creation order: none was created after a later one. */
  predicate VouchersCreatedInOrder(xs: seq<Voucher>) {
    forall i, j :: 0 <= i < j < |xs| ==> xs[i].createdAt <= xs[j].createdAt
  }

  /** Vouchers newest first, as `sort({ createdAt: -1 })` lists them. */
  predicate VouchersNewestFirst(xs: seq<Voucher>) {
    forall i, j :: 0 <= i < j < |xs| ==> xs[i].createdAt >= xs[j].createdAt
  }

  lemma VouchersReversed(xs: seq<Voucher>)
    requires VouchersCreatedInOrder(xs)
    ensures VouchersNewestFirst(Reverse(xs))
  {
    var r := Reverse(xs);
    forall i, j | 0 <= i < j < |r| ensures r[i].createdAt >= r[j].createdAt {
      assert r[i] == xs[|xs| - 1 - i] && r[j] == xs[|xs| - 1 - j];
    }
  }

  lemma VouchersFiltered(xs: seq<Voucher>, keep: Voucher -> bool)
    requires VouchersCreatedInOrder(xs)
    ensures VouchersCreatedInOrder(Filter(xs, keep))
  {
    var before := (a: Voucher, b: Voucher) => a.createdAt <= b.createdAt;
    assert InOrder(xs, before);
    FilterKeepsOrder(xs, keep, before);
    var r := Filter(xs, keep);
    forall i, j | 0 <= i < j < |r| ensures r[i].createdAt <= r[j].createdAt {
      assert before(r[i], r[j]);
    }
  }

  /** Locations stored in creation order: none was created after a later one. */
  predicate LocationsCreatedInOrder(xs: seq<Location>) {
    forall i, j :: 0 <= i < j < |xs| ==> xs[i].createdAt <= xs[j].createdAt
  }

  /** Locations newest first, as `sort({ createdAt: -1 })` lists them. */
  predicate LocationsNewestFirst(xs: seq<Location>) {
    forall i, j :: 0 <= i < j < |xs| ==> xs[i].createdAt >= xs[j].createdAt
  }

  lemma LocationsReversed(xs: seq<Location>)
    requires LocationsCreatedInOrder(xs)
    ensures LocationsNewestFirst(Reverse(xs))
  {
    var r := Reverse(xs);
    forall i, j | 0 <= i < j < |r| ensures r[i].createdAt >= r[j].createdAt {
      assert r[i] == xs[|xs| - 1 - i] && r[j] == xs[|xs| - 1 - j];
    }
  }

  lemma LocationsFiltered(xs: seq<Location>, keep: Location -> bool)
    requires LocationsCreatedInOrder(xs)
    ensures LocationsCreatedInOrder(Filter(xs, keep))
  {
    var before := (a: Location, b: Location) => a.createdAt <= b.createdAt;
    assert InOrder(xs, before);
    FilterKeepsOrder(xs, keep, before);
    var r := Filter(xs, keep);
    forall i, j | 0 <= i < j < |r| ensures r[i].createdAt <= r[j].createdAt {
      assert before(r[i], r[j]);
    }
  }

  /** Reviews stored in creation order: none was created after a later one. */
  predicate ReviewsCreatedInOrder(xs: seq<Review>) {
    forall i, j :: 0 <= i < j < |xs| ==> xs[i].createdAt <= xs[j].createdAt
  }

  /** Reviews newest first, as `sort({ createdAt: -1 })` lists them. */
  predicate ReviewsNewestFirst(xs: seq<Review>) {
    forall i, j :: 0 <= i < j < |xs| ==> xs[i].createdAt >= xs[j].createdAt
  }

  lemma ReviewsReversed(xs: seq<Review>)
    requires ReviewsCreatedInOrder(xs)
    ensures ReviewsNewestFirst(Reverse(xs))
  {
    var r := Reverse(xs);
    forall i, j | 0 <= i < j < |r| ensures r[i].createdAt >= r[j].createdAt {
      assert r[i] == xs[|xs| - 1 - i] && r[j] == xs[|xs| - 1 - j];
    }
  }

  lemma ReviewsFiltered(xs: seq<Review>, keep: Review -> bool)
    requires ReviewsCreatedInOrder(xs)
    ensures ReviewsCreatedInOrder(Filter(xs, keep))
  {
    var before := (a: Review, b: Review) => a.createdAt <= b.createdAt;
    assert InOrder(xs, before);
    FilterKeepsOrder(xs, keep, before);
    var r := Filter(xs, keep);
    forall i, j | 0 <= i < j < |r| ensures r[i].createdAt <= r[j].createdAt {
      assert before(r[i], r[j]);
    }
  }

  // ---------------------------------------------------------------- lookups

  /** `User.findById`: the index of the user with that id. */
  function UserIndex(users: seq<User>, id: Id): (r: Option<nat>)
    ensures r.Some? ==> r.value < |users| && users[r.value].id == id
    ensures r.None? ==> forall j :: 0 <= j < |users| ==> users[j].id != id
  {
    FirstIndex(users, (u: User) => u.id == id)
  }

  /** A lookup by id sees only the ids: users with the same ids at every position are
      found at the same index. */
  lemma UserIndexByIds(a: seq<User>, b: seq<User>, id: Id)
    requires |a| == |b| && forall k :: 0 <= k < |a| ==> a[k].id == b[k].id
    ensures UserIndex(a, id) == UserIndex(b, id)
  {
    var ra, rb := UserIndex(a, id), UserIndex(b, id);
    if ra.Some? {
      assert b[ra.value].id == id;
    }
    if rb.Some? {
      assert a[rb.value].id == id;
    }
  }

  function LocationIndex(locations: seq<Location>, id: Id): (r: Option<nat>)
    ensures r.Some? ==> r.value < |locations| && locations[r.value].id == id
    ensures r.None? ==> forall j :: 0 <= j < |locations| ==> locations[j].id != id
  {
    FirstIndex(locations, (l: Location) => l.id == id)
  }

  function VoucherIndex(vouchers: seq<Voucher>, id: Id): (r: Option<nat>)
    ensures r.Some? ==> r.value < |vouchers| && vouchers[r.value].id == id
    ensures r.None? ==> forall j :: 0 <= j < |vouchers| ==> vouchers[j].id != id
  {
    FirstIndex(vouchers, (v: Voucher) => v.id == id)
  }

  function ReviewIndex(reviews: seq<Review>, id: Id): (r: Option<nat>)
    ensures r.Some? ==> r.value < |reviews| && reviews[r.value].id == id
    ensures r.None? ==> forall j :: 0 <= j < |reviews| ==> reviews[j].id != id
  {
    FirstIndex(reviews, (r: Review) => r.id == id)
  }

  /** `Location.findOne({ _id, owner })`: a location with that id and that owner. */
  function OwnedLocationIndex(locations: seq<Location>, id: Id, owner: Option<Id>): (r: Option<nat>)
    ensures r.Some? ==> r.value < |locations| && locations[r.value].id == id &&
                        owner.Some? && locations[r.value].owner == owner.value
    ensures r.None? ==> forall j :: 0 <= j < |locations| ==>
                          !(locations[j].id == id && owner.Some? && locations[j].owner == owner.value)
  {
    FirstIndex(locations, (l: Location) => l.id == id && owner.Some? && l.owner == owner.value)
  }

  /** `Review.findOne({ _id, user })`: a review with that id written by that user. */
  function OwnReviewIndex(reviews: seq<Review>, id: Id, user: Option<Id>): (r: Option<nat>)
    ensures r.Some? ==> r.value < |reviews| && reviews[r.value].id == id &&
                        user.Some? && reviews[r.value].user == user.value
    ensures r.None? ==> forall j :: 0 <= j < |reviews| ==>
                          !(reviews[j].id == id && user.Some? && reviews[j].user == user.value)
  {
    FirstIndex(reviews, (r: Review) => r.id == id && user.Some? && r.user == user.value)
  }

  /** The reviews of one location, in insertion order (`Review.find({ location })`). */
  function ReviewsAt(reviews: seq<Review>, location: Id): (r: seq<Review>)
    ensures forall x :: x in r <==> x in reviews && x.location == location
    ensures forall x :: multiset(r)[x] == if x.location == location then multiset(reviews)[x] else 0
    ensures ReviewsCreatedInOrder(reviews) ==> ReviewsCreatedInOrder(r)
  {
    var keep := (x: Review) => x.location == location;
    forall x ensures multiset(Filter(reviews, keep))[x] == if x.location == location then multiset(reviews)[x] else 0 {
      FilterMultiplicity(reviews, keep, x);
    }
    assert ReviewsCreatedInOrder(reviews) ==> ReviewsCreatedInOrder(Filter(reviews, keep)) by {
      if ReviewsCreatedInOrder(reviews) {
        ReviewsFiltered(reviews, keep);
      }
    }
    Filter(reviews, keep)
  }

  /** `Review.countDocuments({ user, location })`. */
  function CountReviewsBy(reviews: seq<Review>, user: Id, location: Id): (n: nat)
    ensures n <= |reviews|
  {
    |Filter(reviews, (x: Review) => x.user == user && x.location == location)|
  }

  /** `Voucher.deleteMany({ location })`. */
  function VouchersNotAt(vouchers: seq<Voucher>, location: Id): (r: seq<Voucher>)
    ensures forall x :: x in r <==> x in vouchers && x.location != location
  {
    Filter(vouchers, (x: Voucher) => x.location != location)
  }

  /** `Review.deleteMany({ location })`. */
  function ReviewsNotAt(reviews: seq<Review>, location: Id): (r: seq<Review>)
    ensures forall x :: x in r <==> x in reviews && x.location != location
  {
    Filter(reviews, (x: Review) => x.location != location)
  }

  /** `Location.findByIdAndDelete`: every location with that id goes (ids are unique). */
  function LocationsWithout(locations: seq<Location>, id: Id): (r: seq<Location>)
    ensures forall x :: x in r <==> x in locations && x.id != id
  {
    Filter(locations, (x: Location) => x.id != id)
  }

  function VouchersWithout(vouchers: seq<Voucher>, id: Id): (r: seq<Voucher>)
    ensures forall x :: x in r <==> x in vouchers && x.id != id
  {
    Filter(vouchers, (x: Voucher) => x.id != id)
  }

  function ReviewsWithout(reviews: seq<Review>, id: Id): (r: seq<Review>)
    ensures forall x :: x in r <==> x in reviews && x.id != id
  {
    Filter(reviews, (x: Review) => x.id != id)
  }

  function UsersWithout(users: seq<User>, id: Id): (r: seq<User>)
    ensures forall x :: x in r <==> x in users && x.id != id
  {
    Filter(users, (x: User) => x.id != id)
  }

  /** The locations of one owner, in insertion order (`Location.find({ owner })`). */
  function LocationsOf(locations: seq<Location>, owner: Option<Id>): (r: seq<Location>)
    ensures forall x :: x in r <==> x in locations && owner.Some? && x.owner == owner.value
    ensures forall x :: multiset(r)[x] == if owner.Some? && x.owner == owner.value then multiset(locations)[x] else 0
    ensures LocationsCreatedInOrder(locations) ==> LocationsCreatedInOrder(r)
  {
    var keep := (x: Location) => owner.Some? && x.owner == owner.value;
    forall x ensures multiset(Filter(locations, keep))[x] ==
                     if owner.Some? && x.owner == owner.value then multiset(locations)[x] else 0 {
      FilterMultiplicity(locations, keep, x);
    }
    assert LocationsCreatedInOrder(locations) ==> LocationsCreatedInOrder(Filter(locations, keep)) by {
      if LocationsCreatedInOrder(locations) {
        LocationsFiltered(locations, keep);
      }
    }
    Filter(locations, keep)
  }

  /** The ids of a list of locations (`locations.map(loc => loc._id)`). */
  function LocationIds(locations: seq<Location>): (r: seq<Id>)
    ensures |r| == |locations|
    ensures forall i :: 0 <= i < |locations| ==> r[i] == locations[i].id
    ensures forall id :: id in r <==> exists l :: l in locations && l.id == id
  {
    if |locations| == 0 then [] else [locations[0].id] + LocationIds(locations[1..])
  }

  /** `Voucher.find({ location: { $in: ids } })`. */
  function VouchersAtAny(vouchers: seq<Voucher>, ids: seq<Id>): (r: seq<Voucher>)
    ensures forall x :: x in r <==> x in vouchers && x.location in ids
    ensures forall x :: multiset(r)[x] == if x.location in ids then multiset(vouchers)[x] else 0
    ensures VouchersCreatedInOrder(vouchers) ==> VouchersCreatedInOrder(r)
  {
    var keep := (x: Voucher) => x.location in ids;
    forall x ensures multiset(Filter(vouchers, keep))[x] == if x.location in ids then multiset(vouchers)[x] else 0 {
      FilterMultiplicity(vouchers, keep, x);
    }
    assert VouchersCreatedInOrder(vouchers) ==> VouchersCreatedInOrder(Filter(vouchers, keep)) by {
      if VouchersCreatedInOrder(vouchers) {
        VouchersFiltered(vouchers, keep);
      }
    }
    Filter(vouchers, keep)
  }

  function ReviewsAtAny(reviews: seq<Review>, ids: seq<Id>): (r: seq<Review>)
    ensures forall x :: x in r <==> x in reviews && x.location in ids
    ensures forall x :: multiset(r)[x] == if x.location in ids then multiset(reviews)[x] else 0
    ensures ReviewsCreatedInOrder(reviews) ==> ReviewsCreatedInOrder(r)
  {
    var keep := (x: Review) => x.location in ids;
    forall x ensures multiset(Filter(reviews, keep))[x] == if x.location in ids then multiset(reviews)[x] else 0 {
      FilterMultiplicity(reviews, keep, x);
    }
    assert ReviewsCreatedInOrder(reviews) ==> ReviewsCreatedInOrder(Filter(reviews, keep)) by {
      if ReviewsCreatedInOrder(reviews) {
        ReviewsFiltered(reviews, keep);
      }
    }
    Filter(reviews, keep)
  }

  /** Every voucher keeps its claim count within the number issued. */
  predicate AllWithinCap(vouchers: seq<Voucher>) {
    forall i :: 0 <= i < |vouchers| ==> WithinCap(vouchers[i])
  }

  /** Voucher codes are pairwise distinct (the unique index on `code`). */
  predicate CodesUnique(vouchers: seq<Voucher>) {
    forall i, j :: 0 <= i < j < |vouchers| ==> vouchers[i].code != vouchers[j].code
  }

  /** Any voucher with the given stored code. */
  predicate CodeTaken(vouchers: seq<Voucher>, code: string) {
    exists i :: 0 <= i < |vouchers| && vouchers[i].code == code
  }
}

=== FILE: enrich.dfy ===
/** The enrichment script: for every stored location it fills in features, menu
    highlights, the price range and level, the city and the keyword list, counts what it
    changed, and saves the document unless it only previews (`--dry`). The metadata
    helpers it calls are given as functions. */
module Enrich {
  import opened Wrappers
  import opened LocationModel

  // ------------------------------------------------------ string ordering

  /** The order `Array.prototype.sort` uses for strings: character by character, a
      proper prefix first. */
  predicate StrLe(a: string, b: string) {
    |a| == 0 || (|b| > 0 && (a[0] < b[0] || (a[0] == b[0] && StrLe(a[1..], b[1..]))))
  }

  lemma {:induction false} StrLeTotal(a: string, b: string)
    ensures StrLe(a, b) || StrLe(b, a)
  {
    if |a| > 0 && |b| > 0 && a[0] == b[0] {
      StrLeTotal(a[1..], b[1..]);
    }
  }

  lemma {:induction false} StrLeAntisymmetric(a: string, b: string)
    requires StrLe(a, b) && StrLe(b, a)
    ensures a == b
  {
    if |a| > 0 && |b| > 0 {
      StrLeAntisymmetric(a[1..], b[1..]);
      assert a == [a[0]] + a[1..] && b == [b[0]] + b[1..];
    }
  }

  lemma {:induction false} StrLeTransitive(a: string, b: string, c: string)
    requires StrLe(a, b) && StrLe(b, c)
    ensures StrLe(a, c)
  {
    if |a| > 0 && |b| > 0 && |c| > 0 && a[0] == b[0] && b[0] == c[0] {
      StrLeTransitive(a[1..], b[1..], c[1..]);
    }
  }

  lemma {:induction false} StrLeReflexive(a: string)
    ensures StrLe(a, a)
  {
    if |a| > 0 {
      StrLeReflexive(a[1..]);
    }
  }

  predicate Sorted(s: seq<string>) {
    forall i, j :: 0 <= i < j < |s| ==> StrLe(s[i], s[j])
  }

  /** A sorted sequence stays sorted with an element in front that is below all of it. */
  lemma ConsSorted(x: string, s: seq<string>)
    requires Sorted(s)
    requires forall k :: 0 <= k < |s| ==> StrLe(x, s[k])
    ensures Sorted([x] + s)
  {
    var t := [x] + s;
    forall i, j | 0 <= i < j < |t| ensures StrLe(t[i], t[j]) {
      if i == 0 {
        assert t[j] == s[j - 1];
      } else {
        assert t[i] == s[i - 1] && t[j] == s[j - 1];
      }
    }
  }

  /** `x` placed before the first element of `s` it is not above. */
  function Insert(x: string, s: seq<string>): (r: seq<string>)
    ensures |r| == |s| + 1
  {
    if |s| == 0 then [x]
    else if StrLe(x, s[0]) then [x] + s
    else [s[0]] + Insert(x, s[1..])
  }

  /** Inserting into a sorted sequence adds the element and keeps the order. */
  lemma {:induction false} InsertSorted(x: string, s: seq<string>)
    requires Sorted(s)
    ensures multiset(Insert(x, s)) == multiset(s) + multiset{x}
    ensures Sorted(Insert(x, s))
  {
    if |s| == 0 {
    } else if StrLe(x, s[0]) {
      forall k | 0 <= k < |s| ensures StrLe(x, s[k]) {
        if k > 0 {
          StrLeTransitive(x, s[0], s[k]);
        }
      }
      ConsSorted(x, s);
    } else {
      StrLeTotal(x, s[0]);
      SortedTail(s);
      InsertSorted(x, s[1..]);
      var rest := Insert(x, s[1..]);
      forall k | 0 <= k < |rest| ensures StrLe(s[0], rest[k]) {
        assert rest[k] in multiset(rest);
        if rest[k] != x {
          var m :| 0 <= m < |s[1..]| && s[1..][m] == rest[k];
          assert s[1..][m] == s[m + 1];
        }
      }
      ConsSorted(s[0], rest);
    }
  }

  /** The sorted copy `[...a].sort()`. */
  function Sort(s: seq<string>): (r: seq<string>)
    ensures |r| == |s|
  {
    if |s| == 0 then [] else Insert(s[0], Sort(s[1..]))
  }

  /** The sorted copy is sorted and holds the same strings. */
  lemma {:induction false} SortSorted(s: seq<string>)
    ensures multiset(Sort(s)) == multiset(s)
    ensures Sorted(Sort(s))
  {
    if |s| > 0 {
      SortSorted(s[1..]);
      InsertSorted(s[0], Sort(s[1..]));
      assert s == [s[0]] + s[1..];
    }
  }

  /** Two sorted sequences with the same elements start with the same element. */
  lemma SortedSameHead(x: seq<string>, y: seq<string>)
    requires Sorted(x) && Sorted(y) && multiset(x) == multiset(y) && |x| > 0 && |y| > 0
    ensures x[0] == y[0]
  {
    assert x[0] in multiset(y) && y[0] in multiset(x);
    var j :| 0 <= j < |y| && y[j] == x[0];
    var k :| 0 <= k < |x| && x[k] == y[0];
    if j > 0 { assert StrLe(y[0], y[j]); } else { StrLeReflexive(y[0]); }
    if k > 0 { assert StrLe(x[0], x[k]); } else { StrLeReflexive(x[0]); }
    StrLeAntisymmetric(x[0], y[0]);
  }

  lemma SortedTail(x: seq<string>)
    requires Sorted(x) && |x| > 0
    ensures Sorted(x[1..]) && multiset(x) == multiset{x[0]} + multiset(x[1..])
  {
    assert x == [x[0]] + x[1..];
    forall i, j | 0 <= i < j < |x[1..]| ensures StrLe(x[1..][i], x[1..][j]) {
      assert x[1..][i] == x[i + 1] && x[1..][j] == x[j + 1];
    }
  }

  /** Two sorted sequences with the same elements are the same sequence. */
  lemma {:induction false} SortedUnique(x: seq<string>, y: seq<string>)
    requires Sorted(x) && Sorted(y) && multiset(x) == multiset(y)
    ensures x == y
  {
    assert |x| == |multiset(x)| == |multiset(y)| == |y|;
    if |x| > 0 {
      SortedSameHead(x, y);
      SortedTail(x);
      SortedTail(y);
      TailMultiset(x);
      TailMultiset(y);
      SortedUnique(x[1..], y[1..]);
      assert x == [x[0]] + x[1..];
      assert y == [y[0]] + y[1..];
    }
  }

  lemma TailMultiset(x: seq<string>)
    requires |x| > 0
    ensures multiset(x[1..]) == multiset(x) - multiset{x[0]}
  {
    assert x == [x[0]] + x[1..];
  }

  /** `arraysEqual`: equal lengths, and the sorted copies agree position by position. */
  predicate ArraysEqual(a: seq<string>, b: seq<string>) {
    |a| == |b| && forall i :: 0 <= i < |a| ==> Sort(a)[i] == Sort(b)[i]
  }

  /** `arraysEqual` holds exactly when both lists hold the same strings the same number
      of times. */
  lemma ArraysEqualIffSameElements(a: seq<string>, b: seq<string>)
    ensures ArraysEqual(a, b) <==> multiset(a) == multiset(b)
  {
    SortSorted(a);
    SortSorted(b);
    if multiset(a) == multiset(b) {
      assert |a| == |multiset(a)| == |multiset(b)| == |b|;
      SortedUnique(Sort(a), Sort(b));
    }
    if ArraysEqual(a, b) {
      assert |Sort(a)| == |multiset(a)| == |a|;
      assert |Sort(b)| == |multiset(b)| == |b|;
      assert Sort(a) == Sort(b);
    }
  }

  // --------------------------------------------------------- the helpers

  /** What `buildKeywordSet` is given. */
  datatype KeywordInput = KeywordInput(name: string, city: string, address: string, kind: string,
                                       description: string, features: seq<string>,
                                       menuHighlights: seq<string>, priceLevel: string)

  /** The metadata helpers, each a function of its arguments. An empty string or list
      stands for a falsy result. */
  datatype Helpers = Helpers(
    mergeFeatureList: (seq<string>, string) -> seq<string>,
    inferMenuHighlights: string -> seq<string>,
    normalizePriceRange: (int, int) -> PriceRange,
    priceLevelFromRange: PriceRange -> string,
    priceLevelFromText: (string, string) -> string,
    buildKeywordSet: KeywordInput -> seq<string>,
    deriveCity: string -> string,
    parseListInput: seq<string> -> seq<string>)

  /** `inferCity`: a real city is kept; otherwise the city found in the address and
      description, or else the current value. */
  function InferCity(l: Location, h: Helpers): string {
    if l.city != "" && l.city != DefaultCity then l.city
    else
      var derived := h.deriveCity(l.address + " " + l.description);
      if derived != "" then derived else l.city
  }

  /** `ensureMenuHighlights`: a non-empty existing list is kept, otherwise one is inferred
      from the description. */
  function EnsureMenuHighlights(l: Location, h: Helpers): seq<string> {
    var existing := h.parseListInput(l.menuHighlights);
    if |existing| > 0 then existing else h.inferMenuHighlights(l.description)
  }

  // ------------------------------------------------------ one location

  /** The checks of one pass, in the order the loop makes them. The range check fills the
      unset bounds and has no counter of its own. */
  datatype Check = FeaturesCheck | MenusCheck | RangeCheck | LevelCheck | CityCheck | KeywordsCheck

  /** Which checks found something to change. */
  datatype Changes = Changes(features: bool, menus: bool, range: bool, priceLevel: bool,
                             city: bool, keywords: bool)

  predicate AnyChange(c: Changes) {
    c.features || c.menus || c.range || c.priceLevel || c.city || c.keywords
  }

  datatype Step = Step(location: Location, changes: Changes)

  /** The price range with each unset bound filled from the normalized range, and
      whether the lower and the upper bound were filled. */
  function FillRange(l: Location, h: Helpers): (PriceRange, bool, bool) {
    var n := h.normalizePriceRange(l.priceRange.min, l.priceRange.max);
    var fillMin := l.priceRange.min == 0 && n.min != 0;
    var fillMax := l.priceRange.max == 0 && n.max != 0;
    (PriceRange(if fillMin then n.min else l.priceRange.min, if fillMax then n.max else l.priceRange.max),
     fillMin, fillMax)
  }

  /** The price level: the current one, else one inferred from the range, else from the
      description with `standard` as the fallback. */
  function InferredLevel(l: Location, h: Helpers): string {
    if l.priceLevel != "" then l.priceLevel
    else if h.priceLevelFromRange(l.priceRange) != "" then h.priceLevelFromRange(l.priceRange)
    else h.priceLevelFromText(l.description, DefaultPriceLevel)
  }

  /** What `buildKeywordSet` is given for the document `l` and the guessed city. */
  function KeywordSource(l: Location, guessed: string): KeywordInput {
    KeywordInput(l.name, if guessed != "" then guessed else l.city, l.address, l.kind,
                 l.description, l.features, l.menuHighlights, l.priceLevel)
  }

  /** One check on the document `l`: the document with the new value written, and whether
      the check found a change. A list counts as changed when the new one is non-empty and
      `arraysEqual` tells it apart from the current one; a scalar when the new value is
      non-empty and differs. */
  function Apply(k: Check, l: Location, h: Helpers): (r: (Location, bool))
  {
    match k
    case FeaturesCheck =>
      var features := h.mergeFeatureList(l.features, l.description);
      var changed := |features| > 0 && !ArraysEqual(features, l.features);
      (if changed then l.(features := features) else l, changed)
    case MenusCheck =>
      var menus := EnsureMenuHighlights(l, h);
      var changed := |menus| > 0 && !ArraysEqual(menus, l.menuHighlights);
      (if changed then l.(menuHighlights := menus) else l, changed)
    case RangeCheck =>
      var (range, fillMin, fillMax) := FillRange(l, h);
      (l.(priceRange := range), fillMin || fillMax)
    case LevelCheck =>
      var level := InferredLevel(l, h);
      var changed := level != "" && l.priceLevel != level;
      (if changed then l.(priceLevel := level) else l, changed)
    case CityCheck =>
      var city := InferCity(l, h);
      var changed := city != "" && city != l.city;
      (if changed then l.(city := city) else l, changed)
    case KeywordsCheck =>
      var keywords := h.buildKeywordSet(KeywordSource(l, InferCity(l, h)));
      var changed := |keywords| > 0 && !ArraysEqual(keywords, l.keywords);
      (if changed then l.(keywords := keywords) else l, changed)
  }

  /** The body of the loop for one location: the checks in order. Outside a dry run each
      check reads the document as the earlier ones left it; in a dry run nothing is
      written, so every check reads the document as it was fetched. */
  function EnrichStep(l: Location, dry: bool, h: Helpers): Step {
    if dry then
      Step(l, Changes(Apply(FeaturesCheck, l, h).1, Apply(MenusCheck, l, h).1, Apply(RangeCheck, l, h).1,
                      Apply(LevelCheck, l, h).1, Apply(CityCheck, l, h).1, Apply(KeywordsCheck, l, h).1))
    else
      var (l1, c1) := Apply(FeaturesCheck, l, h);
      var (l2, c2) := Apply(MenusCheck, l1, h);
      var (l3, c3) := Apply(RangeCheck, l2, h);
      var (l4, c4) := Apply(LevelCheck, l3, h);
      var (l5, c5) := Apply(CityCheck, l4, h);
      var (l6, c6) := Apply(KeywordsCheck, l5, h);
      Step(l6, Changes(c1, c2, c3, c4, c5, c6))
  }

  /** A price bound that is already set is never replaced, and one that is not set
      becomes the normalized bound. */
  lemma RangeFilledOnlyWhenUnset(l: Location, h: Helpers)
    ensures var r := EnrichStep(l, false, h).location.priceRange;
      var n := h.normalizePriceRange(l.priceRange.min, l.priceRange.max);
      (l.priceRange.min != 0 ==> r.min == l.priceRange.min) &&
      (l.priceRange.max != 0 ==> r.max == l.priceRange.max) &&
      (l.priceRange.min == 0 ==> r.min == n.min) &&
      (l.priceRange.max == 0 ==> r.max == n.max)
  {
    var l2 := Apply(MenusCheck, Apply(FeaturesCheck, l, h).0, h).0;
    assert l2.priceRange == l.priceRange;
    var l3 := Apply(RangeCheck, l2, h).0;
    var l6 := EnrichStep(l, false, h).location;
    assert l6.priceRange == l3.priceRange;
  }

  /** A real city survives the pass and is never counted, whether or not the run
      writes. */
  lemma KeptCity(l: Location, dry: bool, h: Helpers)
    requires l.city != "" && l.city != DefaultCity
    ensures EnrichStep(l, dry, h).location.city == l.city && !EnrichStep(l, dry, h).changes.city
  {
  }

  /** A set price level is kept and never counted, whether or not the run writes. */
  lemma KeptLevel(l: Location, dry: bool, h: Helpers)
    requires l.priceLevel != ""
    ensures EnrichStep(l, dry, h).location.priceLevel == l.priceLevel && !EnrichStep(l, dry, h).changes.priceLevel
  {
  }

  /** The keyword check reads the city the city check guessed on the document before it:
      after the city check has written, guessing again on the written document gives the
      same city to `buildKeywordSet`. */
  lemma KeywordCityAgrees(l4: Location, h: Helpers)
    ensures var l5 := Apply(CityCheck, l4, h).0;
      KeywordSource(l5, InferCity(l5, h)) == KeywordSource(l5, InferCity(l4, h))
  {
  }

  /** What is stored for a location after its pass: the enriched document when it was
      saved, the original otherwise. */
  function Persisted(l: Location, dry: bool, h: Helpers): Location {
    var st := EnrichStep(l, dry, h);
    if !dry && AnyChange(st.changes) then st.location else l
  }

  // ------------------------------------------------------------ the run

  datatype Summary = Summary(processed: nat, updated: nat, city: nat, features: nat,
                             menuHighlights: nat, priceLevel: nat, keywords: nat)

  function Count(b: bool): nat { if b then 1 else 0 }

  /** The counters after one more location with the changes `c`. */
  function Bump(t: Summary, c: Changes): Summary {
    Summary(t.processed + 1, t.updated + Count(AnyChange(c)), t.city + Count(c.city),
            t.features + Count(c.features), t.menuHighlights + Count(c.menus),
            t.priceLevel + Count(c.priceLevel), t.keywords + Count(c.keywords))
  }

  /** The summary after the passes over `ls`. */
  function Tally(ls: seq<Location>, dry: bool, h: Helpers): (s: Summary)
    ensures s.processed == |ls|
  {
    if |ls| == 0 then Summary(0, 0, 0, 0, 0, 0, 0)
    else Bump(Tally(ls[..|ls| - 1], dry, h), EnrichStep(ls[|ls| - 1], dry, h).changes)
  }

  lemma TallyExtend(ls: seq<Location>, i: nat, dry: bool, h: Helpers)
    requires i < |ls|
    ensures Tally(ls[..i + 1], dry, h) == Bump(Tally(ls[..i], dry, h), EnrichStep(ls[i], dry, h).changes)
  {
    assert ls[..i + 1][..i] == ls[..i];
  }

  /** `updated` counts the locations with any change, so it bounds every per-field
      counter and is itself at most `processed`. */
  lemma {:induction false} TallyBounds(ls: seq<Location>, dry: bool, h: Helpers)
    ensures var s := Tally(ls, dry, h);
      s.updated <= s.processed && s.city <= s.updated && s.features <= s.updated &&
      s.menuHighlights <= s.updated && s.priceLevel <= s.updated && s.keywords <= s.updated
  {
    if |ls| > 0 {
      TallyBounds(ls[..|ls| - 1], dry, h);
    }
  }

  /** What is stored for each of `ls` after the run. */
  function PersistedAll(ls: seq<Location>, dry: bool, h: Helpers): (r: seq<Location>)
    ensures |r| == |ls|
  {
    if |ls| == 0 then [] else PersistedAll(ls[..|ls| - 1], dry, h) + [Persisted(ls[|ls| - 1], dry, h)]
  }

  lemma PersistedAllExtend(ls: seq<Location>, i: nat, dry: bool, h: Helpers)
    requires i < |ls|
    ensures PersistedAll(ls[..i + 1], dry, h) == PersistedAll(ls[..i], dry, h) + [Persisted(ls[i], dry, h)]
  {
    assert ls[..i + 1][..i] == ls[..i];
  }

  /** Each stored document is its own location's pass, and a dry run stores nothing
      new. */
  lemma {:induction false} PersistedAllAt(ls: seq<Location>, dry: bool, h: Helpers)
    ensures forall k :: 0 <= k < |ls| ==> PersistedAll(ls, dry, h)[k] == Persisted(ls[k], dry, h)
    ensures dry ==> PersistedAll(ls, dry, h) == ls
  {
    if |ls| > 0 {
      PersistedAllAt(ls[..|ls| - 1], dry, h);
      assert ls == ls[..|ls| - 1] + [ls[|ls| - 1]];
    }
  }

  /** The counters of `run` after one more location with the changes `c`; `processed`
      was set once before the loop. */
  method Record(t: Summary, c: Changes) returns (s: Summary)
    ensures s == Bump(t, c).(processed := t.processed)
  {
    s := t;
    if c.features { s := s.(features := s.features + 1); }
    if c.menus { s := s.(menuHighlights := s.menuHighlights + 1); }
    if c.priceLevel { s := s.(priceLevel := s.priceLevel + 1); }
    if c.city { s := s.(city := s.city + 1); }
    if c.keywords { s := s.(keywords := s.keywords + 1); }
    if AnyChange(c) { s := s.(updated := s.updated + 1); }
  }

  /** One turn of the loop of `run`: the pass on `location`, the counters it raises, and
      the document the collection holds afterwards: the enriched one when it was saved. */
  method Visit(location: Location, dry: bool, h: Helpers, t: Summary) returns (s: Summary, saved: Location)
    ensures s == Bump(t, EnrichStep(location, dry, h).changes).(processed := t.processed)
    ensures saved == Persisted(location, dry, h)
  {
    var st := EnrichStep(location, dry, h);
    s := Record(t, st.changes);
    saved := location;
    if AnyChange(st.changes) && !dry {
      saved := st.location;
    }
  }

  /** `run` over the fetched locations: each pass on a document, the counters, and the
      save when something changed outside a dry run; `stored` is the collection after the
      saves. */
  method Run(locations: seq<Location>, dry: bool, h: Helpers) returns (summary: Summary, stored: seq<Location>)
    ensures summary == Tally(locations, dry, h)
    ensures stored == PersistedAll(locations, dry, h)
  {
    summary := Summary(|locations|, 0, 0, 0, 0, 0, 0);
    stored := [];
    for i := 0 to |locations|
      invariant summary == Tally(locations[..i], dry, h).(processed := |locations|)
      invariant stored == PersistedAll(locations[..i], dry, h)
    {
      var saved;
      summary, saved := Visit(locations[i], dry, h, summary);
      stored := stored + [saved];
      PersistedAllExtend(locations, i, dry, h);
      TallyExtend(locations, i, dry, h);
    }
    assert locations[..|locations|] == locations;
  }
}

=== FILE: frontend.dfy ===
/** The browser script's logic that does not depend on the page: the star rating
    widget, the toast icons, the location quick view, the list search and the check
    made before a registration is sent. Elements are modelled by the state the script
    reads and writes: a star by its set of classes, a list item by whether it is
    shown. */
module Frontend {
  import opened Wrappers
  import opened Text

  // ----------------------------------------------------------- star rating

  const Warning := "text-warning"
  const Muted := "text-muted"

  /** Whether star `index` is lit for `rating`; `None` is a `NaN` rating, which lights no
      star because every comparison with it is false. */
  predicate Lit(index: int, rating: Option<int>) {
    rating.Some? && index < rating.value
  }

  /** The classes of star `index` after `updateStarDisplay`: a lit star gains
      `text-warning` and loses `text-muted`, any other star the reverse. */
  function StarAfter(classes: set<string>, index: int, rating: Option<int>): (r: set<string>)
    ensures Warning in r <==> Lit(index, rating)
    ensures Muted in r <==> !Lit(index, rating)
    ensures forall c :: c in classes && c != Warning && c != Muted ==> c in r
    ensures forall c :: c in r && c != Warning && c != Muted ==> c in classes
  {
    if Lit(index, rating) then classes + {Warning} - {Muted} else classes + {Muted} - {Warning}
  }

  /** `updateStarDisplay`: every star in turn gets the classes for its index. */
  method UpdateStarDisplay(stars: array<set<string>>, rating: Option<int>)
    modifies stars
    ensures forall i :: 0 <= i < stars.Length ==> stars[i] == StarAfter(old(stars[i]), i, rating)
  {
    for i := 0 to stars.Length
      invariant forall k :: 0 <= k < i ==> stars[k] == StarAfter(old(stars[k]), k, rating)
      invariant forall k :: i <= k < stars.Length ==> stars[k] == old(stars[k])
    {
      stars[i] := StarAfter(stars[i], i, rating);
    }
  }

  /** After an update exactly the first `rating` stars are lit, and no star is both lit
      and muted. */
  lemma LitPrefix(classes: set<string>, index: nat, rating: nat)
    ensures var r := StarAfter(classes, index, Some(rating));
      (Warning in r <==> index < rating) && !(Warning in r && Muted in r)
  {
  }

  /** The rating redisplayed when the mouse leaves the widget: the stored value read
      with `parseInt`, and 0 when that is not a number. */
  function LeaveRating(stored: string): (r: int)
    ensures ParseInt(stored).None? ==> r == 0
  {
    match ParseInt(stored)
    case None => 0
    case Some(n) => n
  }

  /** A rating the widget stored as digits is redisplayed as it was. */
  lemma LeaveRedisplaysStored(n: nat)
    ensures LeaveRating(NatToString(n)) == n
  {
    ParseIntNatToString(n);
  }

  // ----------------------------------------------------------------- toasts

  /** `getToastIcon`: the icon of the four known kinds, `info-circle` for any other. */
  function ToastIcon(kind: string): (icon: string)
    ensures icon in {"check-circle", "exclamation-triangle", "exclamation-circle", "info-circle"}
    ensures kind !in {"success", "danger", "warning"} ==> icon == "info-circle"
  {
    if kind == "success" then "check-circle"
    else if kind == "danger" then "exclamation-triangle"
    else if kind == "warning" then "exclamation-circle"
    else "info-circle"
  }

  /** The four kinds get four different icons. */
  lemma ToastIconsDistinct()
    ensures ToastIcon("success") != ToastIcon("danger") && ToastIcon("success") != ToastIcon("warning")
    ensures ToastIcon("danger") != ToastIcon("warning") && ToastIcon("info") == "info-circle"
    ensures ToastIcon("success") != ToastIcon("info") && ToastIcon("danger") != ToastIcon("info")
    ensures ToastIcon("warning") != ToastIcon("info")
  {
  }

  // ------------------------------------------------------------ quick view

  const FilledStar := '\U{2605}'
  const EmptyStar := '\U{2606}'

  /** The rating of a review as stars: `rating` filled stars, then empty ones up to five.
      A missing rating counts as 0; a negative one makes `repeat` throw a RangeError,
      which `None` stands for, and the quick view then opens nothing (`NotOpened`). */
  function StarString(rating: int): (r: Option<string>)
    ensures r.None? <==> rating < 0
    ensures r.Some? ==> |r.value| == (if rating < 5 then 5 else rating)
    ensures r.Some? ==> forall i :: 0 <= i < |r.value| ==> (r.value[i] == FilledStar <==> i < rating)
    ensures r.Some? ==> forall i :: 0 <= i < |r.value| ==> (r.value[i] == EmptyStar <==> i >= rating)
  {
    if rating < 0 then None
    else Some(RepeatChar(FilledStar, rating) + RepeatChar(EmptyStar, if 5 - rating > 0 then 5 - rating else 0))
  }

  /** A rating from 0 to 5 shows five stars, the rating of them filled. */
  lemma FiveStars(rating: int)
    requires 0 <= rating <= 5
    ensures |StarString(rating).value| == 5
    ensures multiset(StarString(rating).value)[FilledStar] == rating
  {
    var s := StarString(rating).value;
    assert s == RepeatChar(FilledStar, rating) + RepeatChar(EmptyStar, 5 - rating);
    RepeatCount(FilledStar, rating, FilledStar);
    RepeatCount(EmptyStar, 5 - rating, FilledStar);
  }

  lemma {:induction false} RepeatCount(c: char, n: nat, d: char)
    ensures multiset(RepeatChar(c, n))[d] == (if c == d then n else 0)
  {
    if n > 0 {
      RepeatCount(c, n - 1, d);
      assert RepeatChar(c, n) == [c] + RepeatChar(c, n - 1);
    }
  }

  const NoData := "Kh\U{00F4}ng c\U{00F3} d\U{1EEF} li\U{1EC7}u"
  const NoVouchers := "Ch\U{01B0}a c\U{00F3} voucher ho\U{1EA1}t \U{0111}\U{1ED9}ng"
  const NoReviews := "Ch\U{01B0}a c\U{00F3} \U{0111}\U{00E1}nh gi\U{00E1}"
  const Anonymous := "\U{1EA8}n danh"

  /** What the quick view reads of a voucher and a review. A missing text field is
      `""`, a missing number `0`. */
  datatype QuickVoucher = QuickVoucher(code: string, discountPct: int, conditions: string)
  datatype QuickReview = QuickReview(username: Option<string>, rating: int, comment: string)

  /** The data of the quick view; a missing list is `None`. */
  datatype QuickData = QuickData(location: Option<string>, vouchers: Option<seq<QuickVoucher>>,
                                 reviews: Option<seq<QuickReview>>)

  /** A voucher line: code, discount, and the conditions line when there are any. */
  datatype VoucherLine = VoucherLine(code: string, discountPct: int, conditions: Option<string>)

  /** A review line: the author, the stars and the comment. */
  datatype ReviewLine = ReviewLine(author: string, stars: Option<string>, comment: string)

  /** A list section: its lines, or the placeholder shown when there are none. */
  datatype Listing<T> = Placeholder(text: string) | Lines(lines: seq<T>)

  /** The quick view: the "no data" box, the popup of a location with its two lists, or
      nothing when rendering throws (the click handler catches the error and opens no
      modal). */
  datatype QuickView = NoDataBox(text: string)
                     | Popup(location: string, vouchers: Listing<VoucherLine>, reviews: Listing<ReviewLine>)
                     | NotOpened

  function RenderVoucher(v: QuickVoucher): VoucherLine {
    VoucherLine(v.code, v.discountPct, if v.conditions != "" then Some(v.conditions) else None)
  }

  function RenderReview(r: QuickReview): ReviewLine {
    ReviewLine(if r.username.Some? && r.username.value != "" then r.username.value else Anonymous,
               StarString(r.rating), r.comment)
  }

  /** A missing list read as `|| []`. */
  function OrEmpty<T>(s: Option<seq<T>>): seq<T> {
    if s.Some? then s.value else []
  }

  /** Every review's rating can be drawn as stars. */
  predicate StarsShow(rs: seq<QuickReview>) {
    forall i :: 0 <= i < |rs| ==> rs[i].rating >= 0
  }

  /** `renderLocationQuickView`, as the click handler of `initializeLocationQuickView` uses
      it. */
  function RenderQuickView(data: Option<QuickData>): (v: QuickView)
    ensures v.NoDataBox? <==> data.None? || data.value.location.None?
    ensures v.NoDataBox? ==> v.text == NoData
    ensures v.NotOpened? <==> data.Some? && data.value.location.Some? && !StarsShow(OrEmpty(data.value.reviews))
    ensures v.Popup? && v.reviews.Lines? ==> forall i :: 0 <= i < |v.reviews.lines| ==> v.reviews.lines[i].stars.Some?
    ensures v.Popup? ==> var vs := OrEmpty(data.value.vouchers);
      (vs == [] <==> v.vouchers == Placeholder(NoVouchers)) &&
      (vs != [] ==> v.vouchers.Lines? && |v.vouchers.lines| == |vs| &&
                    forall i :: 0 <= i < |vs| ==> v.vouchers.lines[i] == RenderVoucher(vs[i]))
    ensures v.Popup? ==> var rs := OrEmpty(data.value.reviews);
      (rs == [] <==> v.reviews == Placeholder(NoReviews)) &&
      (rs != [] ==> v.reviews.Lines? && |v.reviews.lines| == |rs| &&
                    forall i :: 0 <= i < |rs| ==> v.reviews.lines[i] == RenderReview(rs[i]))
  {
    if data.None? || data.value.location.None? then NoDataBox(NoData)
    else if !StarsShow(OrEmpty(data.value.reviews)) then NotOpened
    else
      var vs := OrEmpty(data.value.vouchers);
      var rs := OrEmpty(data.value.reviews);
      Popup(data.value.location.value,
            if |vs| > 0 then Lines(seq(|vs|, i requires 0 <= i < |vs| => RenderVoucher(vs[i]))) else Placeholder(NoVouchers),
            if |rs| > 0 then Lines(seq(|rs|, i requires 0 <= i < |rs| => RenderReview(rs[i]))) else Placeholder(NoReviews))
  }

  /** A review without a user name is shown as anonymous, and the author shown is never
      empty. */
  lemma ReviewAuthor(r: QuickReview)
    ensures RenderReview(r).author != ""
    ensures r.username.None? || r.username == Some("") ==> RenderReview(r).author == Anonymous
  {
  }

  // ---------------------------------------------------------------- search

  /** An item stays visible when its lower-cased text contains the lower-cased term. */
  predicate Visible(text: string, term: string) {
    Contains(ToLower(text), ToLower(term))
  }

  /** The search input's handler: each item of the target list is shown or hidden. */
  method ApplySearch(texts: seq<string>, term: string, shown: array<bool>)
    requires shown.Length == |texts|
    modifies shown
    ensures forall i :: 0 <= i < |texts| ==> shown[i] == Visible(texts[i], term)
  {
    for i := 0 to |texts|
      invariant forall k :: 0 <= k < i ==> shown[k] == Visible(texts[k], term)
    {
      shown[i] := Visible(texts[i], term);
    }
  }

  /** The search ignores case in the term and in the text, an empty term shows every
      item, and an item is shown exactly when the term occurs in it somewhere. */
  lemma SearchIgnoresCase(text: string, term: string)
    ensures Visible(text, ToLower(term)) == Visible(text, term)
    ensures Visible(ToLower(text), term) == Visible(text, term)
    ensures Visible(text, "")
    ensures Visible(text, term) <==> exists i :: OccursAt(ToLower(text), ToLower(term), i)
  {
    ToLowerIdempotent(term);
    ToLowerIdempotent(text);
    assert OccursAt(ToLower(text), ToLower(""), 0);
  }

  // -------------------------------------------------------------- register

  /** What submitting the registration form does. */
  datatype RegisterOutcome = Toast(message: string, kind: string) | Post(url: string, tab: string)

  const PasswordMismatch := "M\U{1EAD}t kh\U{1EA9}u x\U{00E1}c nh\U{1EAD}n kh\U{00F4}ng kh\U{1EDB}p"

  /** The register form's submit handler: mismatched passwords give a danger toast and
      no request; otherwise the form is posted to `/register`. */
  function RegisterSubmit(password: string, confirmation: string): (o: RegisterOutcome)
    ensures o.Post? <==> password == confirmation
    ensures o.Toast? ==> o == Toast(PasswordMismatch, "danger")
    ensures o.Post? ==> o == Post("/register", "register")
  {
    if password != confirmation then Toast(PasswordMismatch, "danger") else Post("/register", "register")
  }
}

=== FILE: import_data.dfy ===
/** The data import script: the database name and host read from the connection URI,
    the import of one collection from its JSON file, and the report over the fixed list
    of collections. The filesystem and the `mongoimport` process are given as
    functions. */
module ImportData {
  import opened Wrappers

  // ------------------------------------------------------- database name

  const DefaultDbName := "voucher_system"
  const DefaultHost := "localhost:27017"

  /** The end of the run of characters other than `/` and `?` that starts at `i`. */
  function SegmentEnd(uri: string, i: nat): (e: nat)
    requires i <= |uri|
    ensures i <= e <= |uri|
    ensures forall k :: i <= k < e ==> uri[k] != '/' && uri[k] != '?'
    ensures e < |uri| ==> uri[e] == '/' || uri[e] == '?'
    decreases |uri| - i
  {
    if i == |uri| || uri[i] == '/' || uri[i] == '?' then i else SegmentEnd(uri, i + 1)
  }

  /** Whether the pattern `/([^/?]+)(\?|$)` matches at `p`: a `/`, a non-empty run of
      other characters, then `?` or the end. The greedy run can only be followed by `/`,
      `?` or the end, so no shorter run can succeed where the longest fails. */
  predicate MatchesAt(uri: string, p: nat)
    requires p < |uri|
  {
    var e := SegmentEnd(uri, p + 1);
    uri[p] == '/' && e > p + 1 && (e == |uri| || uri[e] == '?')
  }

  /** The leftmost position from `p` on where the pattern matches. */
  function FirstMatch(uri: string, p: nat): (r: Option<nat>)
    requires p <= |uri|
    ensures r.Some? ==> p <= r.value < |uri| && MatchesAt(uri, r.value)
    ensures r.None? ==> forall q :: p <= q < |uri| ==> !MatchesAt(uri, q)
    decreases |uri| - p
  {
    if p == |uri| then None
    else if MatchesAt(uri, p) then Some(p)
    else FirstMatch(uri, p + 1)
  }

  /** No position before the one found matches. */
  lemma {:induction false} FirstMatchIsLeftmost(uri: string, p: nat)
    requires p <= |uri| && FirstMatch(uri, p).Some?
    ensures forall q :: p <= q < FirstMatch(uri, p).value ==> !MatchesAt(uri, q)
    decreases |uri| - p
  {
    if !MatchesAt(uri, p) {
      FirstMatchIsLeftmost(uri, p + 1);
    }
  }

  /** `getDbName`: the captured segment of the leftmost match, or `voucher_system`. */
  function GetDbName(uri: string): (name: string)
    ensures name != ""
    ensures forall k :: 0 <= k < |name| ==> name[k] != '/' && name[k] != '?'
  {
    match FirstMatch(uri, 0)
    case None => DefaultDbName
    case Some(p) => uri[p + 1..SegmentEnd(uri, p + 1)]
  }

  /** The name is the default exactly when nothing matches, and otherwise it is the
      whole segment after a `/`: a `/` before it, and `?` or the end after it. */
  lemma DbNameShape(uri: string)
    ensures FirstMatch(uri, 0).None? ==> GetDbName(uri) == DefaultDbName
    ensures FirstMatch(uri, 0).Some? ==>
      var p := FirstMatch(uri, 0).value; var name := GetDbName(uri);
      p + 1 + |name| <= |uri| && uri[p] == '/' && uri[p + 1..p + 1 + |name|] == name &&
      (p + 1 + |name| == |uri| || uri[p + 1 + |name|] == '?')
  {
    if FirstMatch(uri, 0).Some? {
      var p := FirstMatch(uri, 0).value;
      var e := SegmentEnd(uri, p + 1);
      assert GetDbName(uri) == uri[p + 1..e];
      assert e == p + 1 + |GetDbName(uri)|;
    }
  }

  // ---------------------------------------------------------------- host

  /** The text before the first `c`: element 0 of `s.split(c)`. */
  function Before(s: string, c: char): (r: string)
    ensures |r| <= |s| && r == s[..|r|]
    ensures c !in r
    ensures |r| < |s| ==> s[|r|] == c
  {
    if |s| == 0 || s[0] == c then [] else [s[0]] + Before(s[1..], c)
  }

  /** The text after the first `c`, if any. */
  function After(s: string, c: char): (r: Option<string>)
    ensures r.None? <==> c !in s
    ensures r.Some? ==> |r.value| < |s| && s[|s| - |r.value| - 1] == c &&
                        r.value == s[|s| - |r.value|..] && c !in s[..|s| - |r.value| - 1]
  {
    if |s| == 0 then None
    else if s[0] == c then Some(s[1..])
    else After(s[1..], c)
  }

  /** The position of the first `//` from `i` on: the text after it, up to the next
      `/`, is what `split('//')[1].split('/')[0]` keeps. */
  function FirstSlashes(s: string, i: nat): (r: Option<nat>)
    requires i <= |s|
    ensures r.Some? ==> i <= r.value && r.value + 1 < |s| && s[r.value] == '/' && s[r.value + 1] == '/'
    ensures r.Some? ==> forall k :: i <= k < r.value ==> !(s[k] == '/' && s[k + 1] == '/')
    ensures r.None? ==> forall k :: i <= k < |s| - 1 ==> !(s[k] == '/' && s[k + 1] == '/')
    decreases |s| - i
  {
    if i + 1 >= |s| then None
    else if s[i] == '/' && s[i + 1] == '/' then Some(i)
    else FirstSlashes(s, i + 1)
  }

  /** The host shown by the script: with credentials in the URI, the text after the
      first `@`, up to the next `@` or `/`; without, the text after the first `//` up to
      the next `/`, or `localhost:27017` when there is none or it is empty. */
  function Host(uri: string): (host: string)
    ensures '/' !in host
    ensures '@' in uri ==> '@' !in host
    ensures '@' !in uri && FirstSlashes(uri, 0).None? ==> host == DefaultHost
  {
    match After(uri, '@')
    case Some(rest) => Before(Before(rest, '@'), '/')
    case None =>
      match FirstSlashes(uri, 0)
      case None => DefaultHost
      case Some(p) => var name := Before(uri[p + 2..], '/'); if name != "" then name else DefaultHost
  }

  /** With credentials, the host is the text right after the first `@`. */
  lemma HostAfterCredentials(uri: string)
    requires '@' in uri
    ensures var rest := After(uri, '@').value; Host(uri) == rest[..|Host(uri)|]
  {
    var rest := After(uri, '@').value;
    var b := Before(rest, '@');
    assert Host(uri) == b[..|Host(uri)|];
  }

  // ----------------------------------------------------------- collections

  /** The collections imported, in order, with their files. */
  const Collections := [("users", "voucher_system.users.json"),
                        ("locations", "voucher_system.locations.json"),
                        ("vouchers", "voucher_system.vouchers.json"),
                        ("reviews", "voucher_system.reviews.json"),
                        ("sessions", "voucher_system.sessions.json")]

  /** What importing one collection did: whether it succeeded, and the command run if
      any. */
  datatype Imported = Imported(success: bool, command: Option<string>)

  /** The `mongoimport` command line for one collection; it drops the collection first. */
  function ImportCommand(uri: string, collection: string, filePath: string): string {
    "mongoimport --uri \"" + uri + "\" --db " + GetDbName(uri) + " --collection " + collection +
    " --file \"" + filePath + "\" --jsonArray --drop"
  }

  /** `importCollection`: a missing file fails without running anything; otherwise the
      command runs, and the import succeeds when it does. `fileExists` and `runs` stand
      for the filesystem and the child process. */
  function ImportCollection(uri: string, collection: string, filePath: string,
                            fileExists: string -> bool, runs: string -> bool): (r: Imported)
    ensures !fileExists(filePath) ==> r == Imported(false, None)
    ensures fileExists(filePath) ==> r.command == Some(ImportCommand(uri, collection, filePath))
    ensures r.success <==> fileExists(filePath) && runs(ImportCommand(uri, collection, filePath))
  {
    if !fileExists(filePath) then Imported(false, None)
    else
      var command := ImportCommand(uri, collection, filePath);
      Imported(runs(command), Some(command))
  }

  /** The file of a collection inside the data folder. */
  function FilePath(dataDir: string, file: string): string {
    dataDir + "/" + file
  }

  /** The report of `main`: each collection with its outcome, in order, and whether all
      succeeded. */
  datatype Report = Report(results: seq<(string, bool)>, allSuccess: bool)

  /** The exit code when the data folder is missing. */
  const MissingFolderExit := 1

  /** `main`: each collection of the list in order, then the overall verdict. A missing
      data folder ends the script with exit code 1 before anything is imported. */
  method ImportAll(uri: string, dataDir: string, dirExists: bool,
                   fileExists: string -> bool, runs: string -> bool) returns (r: Result<Report, int>)
    ensures !dirExists ==> r == Err(MissingFolderExit)
    ensures dirExists ==> r.Ok? && |r.value.results| == |Collections|
    ensures dirExists ==> forall k :: 0 <= k < |Collections| ==>
      r.value.results[k] == (Collections[k].0,
                             ImportCollection(uri, Collections[k].0, FilePath(dataDir, Collections[k].1),
                                              fileExists, runs).success)
    ensures dirExists ==> (r.value.allSuccess <==> forall k :: 0 <= k < |r.value.results| ==> r.value.results[k].1)
  {
    if !dirExists {
      return Err(MissingFolderExit);
    }
    var results: seq<(string, bool)> := [];
    for i := 0 to |Collections|
      invariant |results| == i
      invariant forall k :: 0 <= k < i ==>
        results[k] == (Collections[k].0,
                       ImportCollection(uri, Collections[k].0, FilePath(dataDir, Collections[k].1),
                                        fileExists, runs).success)
    {
      var (name, file) := Collections[i];
      var outcome := ImportCollection(uri, name, FilePath(dataDir, file), fileExists, runs);
      results := results + [(name, outcome.success)];
    }
    var allSuccess := true;
    for i := 0 to |results|
      invariant allSuccess <==> forall k :: 0 <= k < i ==> results[k].1
    {
      allSuccess := allSuccess && results[i].1;
    }
    return Ok(Report(results, allSuccess));
  }

  /** The report names the collections in the fixed order users, locations, vouchers,
      reviews, sessions. */
  lemma CollectionOrder()
    ensures |Collections| == 5
    ensures Collections[0].0 == "users" && Collections[1].0 == "locations" &&
            Collections[2].0 == "vouchers" && Collections[3].0 == "reviews" &&
            Collections[4].0 == "sessions"
  {
  }

  /** When every file is missing, nothing runs and every collection fails. */
  lemma MissingFilesFail(uri: string, dataDir: string, fileExists: string -> bool, runs: string -> bool)
    requires forall p :: !fileExists(p)
    ensures forall k :: 0 <= k < |Collections| ==>
      ImportCollection(uri, Collections[k].0, FilePath(dataDir, Collections[k].1), fileExists, runs) == Imported(false, None)
  {
  }
}

=== FILE: location_controller.dfy ===
/** Locations: the public list with its type filter, the detail page with its average,
    creation with the placeholder image, and the owner-guarded update and cascading
    delete. */
module LocationController {
  import opened Wrappers
  import opened Seqs
  import opened Text
  import opened LocationModel
  import opened ReviewModel
  import opened Database
  import opened Auth
  import ReviewController

  // ------------------------------------------------------------------ list

  /** Whether the `type` query parameter narrows the list. */
  predicate FiltersByKind(kind: string) { kind != "" && kind != "all" }

  datatype LocationList = LocationList(locations: seq<Location>, currentType: string)

  /** `getAllLocations`: newest first, narrowed to one type when a type other than
      `all` is given. */
  function AllLocations(db: Db, kind: string): (r: LocationList)
    ensures r.currentType == (if kind == "" then "all" else kind)
    ensures forall l :: l in r.locations <==> l in db.locations && (FiltersByKind(kind) ==> l.kind == kind)
    ensures forall l :: multiset(r.locations)[l] == if FiltersByKind(kind) ==> l.kind == kind then multiset(db.locations)[l] else 0
    ensures LocationsCreatedInOrder(db.locations) ==> LocationsNewestFirst(r.locations)
  {
    var keep := (l: Location) => FiltersByKind(kind) ==> l.kind == kind;
    var matching := Filter(db.locations, keep);
    ReverseSameElements(matching);
    ReverseMultiset(matching);
    forall l ensures multiset(matching)[l] == if FiltersByKind(kind) ==> l.kind == kind then multiset(db.locations)[l] else 0 {
      FilterMultiplicity(db.locations, keep, l);
    }
    assert LocationsCreatedInOrder(db.locations) ==> LocationsNewestFirst(Reverse(matching)) by {
      if LocationsCreatedInOrder(db.locations) {
        LocationsFiltered(db.locations, keep);
        LocationsReversed(matching);
      }
    }
    LocationList(Reverse(matching), if kind == "" then "all" else kind)
  }

  /** Without a filter the list is every location, newest first. */
  lemma UnfilteredListIsEverything(db: Db, kind: string)
    requires !FiltersByKind(kind)
    ensures AllLocations(db, kind).locations == Reverse(db.locations)
  {
    FilterSameLength(db.locations, (l: Location) => FiltersByKind(kind) ==> l.kind == kind);
  }

  // ---------------------------------------------------------------- detail

  datatype LocationDetail = LocationDetail(location: Location, reviews: seq<Review>,
                                           averageTenths: int, reviewCount: nat)

  /** `getLocationById`: the location, its reviews newest first, their average (in
      tenths, 0 without reviews) and their count; `None` for an unknown id. */
  function LocationById(db: Db, id: Id): (r: Option<LocationDetail>)
    ensures r.None? <==> forall i :: 0 <= i < |db.locations| ==> db.locations[i].id != id
    ensures r.Some? ==> r.value.location.id == id && r.value.location in db.locations
    ensures r.Some? ==> r.value.reviewCount == |r.value.reviews|
    ensures r.Some? ==> forall x :: multiset(r.value.reviews)[x] == if x.location == id then multiset(db.reviews)[x] else 0
    ensures r.Some? && ReviewsCreatedInOrder(db.reviews) ==> ReviewsNewestFirst(r.value.reviews)
  {
    match LocationIndex(db.locations, id)
    case None => None
    case Some(li) =>
      var at := ReviewsAt(db.reviews, id);
      ReverseMultiset(at);
      assert ReviewsCreatedInOrder(db.reviews) ==> ReviewsNewestFirst(Reverse(at)) by {
        if ReviewsCreatedInOrder(db.reviews) {
          ReviewsReversed(at);
        }
      }
      var reviews := Reverse(at);
      Some(LocationDetail(db.locations[li], reviews, ReviewController.RatingTenths(reviews), |reviews|))
  }

  lemma {:induction false} SumRatingsAppend(a: seq<Review>, b: seq<Review>)
    ensures ReviewController.SumRatings(a + b) == ReviewController.SumRatings(a) + ReviewController.SumRatings(b)
  {
    if |a| == 0 {
      assert a + b == b;
    } else {
      assert (a + b)[1..] == a[1..] + b;
      SumRatingsAppend(a[1..], b);
    }
  }

  lemma {:induction false} SumRatingsReverse(s: seq<Review>)
    ensures ReviewController.SumRatings(Reverse(s)) == ReviewController.SumRatings(s)
  {
    if |s| > 0 {
      SumRatingsReverse(s[1..]);
      SumRatingsAppend(Reverse(s[1..]), [s[0]]);
    }
  }

  /** The average the detail page shows is the rating the review handlers store for the
      location, and the count is the number of reviews referencing it. */
  lemma DetailAgreesWithStoredRating(db: Db, id: Id)
    requires LocationById(db, id).Some?
    ensures LocationById(db, id).value.averageTenths == ReviewController.RatingTenths(ReviewsAt(db.reviews, id))
    ensures LocationById(db, id).value.reviewCount == |ReviewsAt(db.reviews, id)|
  {
    SumRatingsReverse(ReviewsAt(db.reviews, id));
  }

  // ---------------------------------------------------------------- create

  /** The submitted form; `kind` is `None` when the form has no `type` field. */
  datatype LocationForm = LocationForm(name: string, description: string, address: string,
                                       kind: Option<string>, imageUrl: string)

  datatype LocationError = NotFoundOrForbidden | Failed

  datatype LocationResult = LocationResult(db: Db, outcome: Result<Id, LocationError>)

  /** `createLocation`: the caller owns the new document, which gets the placeholder
      image when the form has none; a document the schema refuses is not stored. */
  function CreateLocation(db: Db, s: Session, f: LocationForm, now: Time): (r: LocationResult)
    ensures r.outcome.Err? ==> r.db == db
    ensures r.outcome.Ok? ==> s.userId.Some? && |r.db.locations| == |db.locations| + 1
    ensures r.outcome.Ok? ==> r.db == db.(locations := db.locations + [r.db.locations[|db.locations|]], nextId := db.nextId + 1)
  {
    if s.userId.None? then LocationResult(db, Err(Failed))
    else
      var l := NewLocation(db.nextId, f.name, f.description, f.address, f.kind,
                           if f.imageUrl == "" then PlaceholderImage else f.imageUrl, s.userId.value, now);
      if !LocationModel.SchemaValid(l) then LocationResult(db, Err(Failed))
      else LocationResult(db.(locations := db.locations + [l], nextId := db.nextId + 1), Ok(l.id))
  }

  /** The placeholder contains no white space, so it survives the `trim` setter. */
  lemma PlaceholderTrimmed()
    ensures Trim(PlaceholderImage) == PlaceholderImage
  {
    assert PlaceholderImage[0] == 'h' && PlaceholderImage[|PlaceholderImage| - 1] == 'e';
    TrimmedIsFixed(PlaceholderImage);
  }

  /** A created location is owned by the caller and shows the placeholder image exactly
      when the form gave none. */
  lemma CreateLocationEffect(db: Db, s: Session, f: LocationForm, now: Time)
    requires CreateLocation(db, s, f, now).outcome.Ok?
    ensures var r := CreateLocation(db, s, f, now);
      var l := r.db.locations[|db.locations|];
      l.id == db.nextId == r.outcome.value && s.userId == Some(l.owner) && l.ratingTenths == 0 &&
      (f.imageUrl == "" ==> l.imageUrl == PlaceholderImage) &&
      (f.imageUrl != "" ==> l.imageUrl == Trim(f.imageUrl)) &&
      l.name == Trim(f.name) && LocationModel.SchemaValid(l)
  {
    var url := if f.imageUrl == "" then PlaceholderImage else f.imageUrl;
    var l := NewLocation(db.nextId, f.name, f.description, f.address, f.kind, url, s.userId.value, now);
    assert CreateLocation(db, s, f, now).db.locations[|db.locations|] == l;
    assert l.imageUrl == Trim(url);
    if f.imageUrl == "" {
      PlaceholderTrimmed();
    }
  }

  // ------------------------------------------------------- update / delete

  /** `updateLocation`: the caller's own location gets the new name, description,
      address and type; the image only when a non-empty one is given. */
  function UpdateLocation(db: Db, s: Session, id: Id, f: LocationForm): (r: LocationResult)
    ensures r.outcome.Err? ==> r.db == db
    ensures r.outcome.Ok? ==> r.db.users == db.users && r.db.vouchers == db.vouchers && r.db.reviews == db.reviews
  {
    match OwnedLocationIndex(db.locations, id, s.userId)
    case None => LocationResult(db, Err(NotFoundOrForbidden))
    case Some(li) =>
      if f.kind.None? then LocationResult(db, Err(Failed))
      else
        var old_ := db.locations[li];
        var l := old_.(name := Trim(f.name), description := Trim(f.description), address := Trim(f.address),
                       kind := f.kind.value, imageUrl := if f.imageUrl != "" then Trim(f.imageUrl) else old_.imageUrl);
        if !LocationModel.SchemaValid(l) then LocationResult(db, Err(Failed))
        else LocationResult(db.(locations := db.locations[li := l]), Ok(id))
  }

  /** Only the caller's own location can change, and in it only the edited fields. */
  lemma UpdateLocationEffect(db: Db, s: Session, id: Id, f: LocationForm)
    requires UpdateLocation(db, s, id, f).outcome.Ok?
    ensures var r := UpdateLocation(db, s, id, f);
      var li := OwnedLocationIndex(db.locations, id, s.userId).value;
      var old_ := db.locations[li];
      var l := r.db.locations[li];
      |r.db.locations| == |db.locations| && s.userId == Some(old_.owner) &&
      l == old_.(name := l.name, description := l.description, address := l.address, kind := l.kind, imageUrl := l.imageUrl) &&
      l.name == Trim(f.name) && l.description == Trim(f.description) && l.address == Trim(f.address) &&
      Some(l.kind) == f.kind && (f.imageUrl == "" ==> l.imageUrl == old_.imageUrl) &&
      forall k :: 0 <= k < |db.locations| && k != li ==> r.db.locations[k] == db.locations[k]
  {
  }

  /** A caller who owns no location with that id changes nothing. */
  lemma UpdateByOtherRefused(db: Db, s: Session, id: Id, f: LocationForm)
    requires forall i :: 0 <= i < |db.locations| && db.locations[i].id == id ==> s.userId != Some(db.locations[i].owner)
    ensures UpdateLocation(db, s, id, f) == LocationResult(db, Err(NotFoundOrForbidden))
  {
  }

  /** The cascade both delete handlers run: the location's vouchers, its reviews, and the
      location itself. */
  function RemoveLocation(db: Db, id: Id): (r: Db)
    ensures r.users == db.users && r.nextId == db.nextId
    ensures forall v :: v in r.vouchers <==> v in db.vouchers && v.location != id
    ensures forall x :: x in r.reviews <==> x in db.reviews && x.location != id
    ensures forall l :: l in r.locations <==> l in db.locations && l.id != id
  {
    db.(vouchers := VouchersNotAt(db.vouchers, id), reviews := ReviewsNotAt(db.reviews, id),
        locations := LocationsWithout(db.locations, id))
  }

  /** `deleteLocation`: the caller's own location, with everything referencing it. */
  function DeleteLocation(db: Db, s: Session, id: Id): (r: LocationResult)
    ensures r.outcome.Err? ==> r.db == db
    ensures r.outcome.Ok? ==> r.db == RemoveLocation(db, id)
  {
    match OwnedLocationIndex(db.locations, id, s.userId)
    case None => LocationResult(db, Err(NotFoundOrForbidden))
    case Some(_) => LocationResult(RemoveLocation(db, id), Ok(id))
  }

  /** An owner's delete succeeds exactly for a location of theirs, and afterwards
      nothing references it. */
  lemma DeleteLocationIff(db: Db, s: Session, id: Id)
    ensures DeleteLocation(db, s, id).outcome.Ok? <==>
      exists i :: 0 <= i < |db.locations| && db.locations[i].id == id && s.userId == Some(db.locations[i].owner)
    ensures var r := DeleteLocation(db, s, id).db;
      DeleteLocation(db, s, id).outcome.Ok? ==>
        (forall v :: v in r.vouchers ==> v.location != id) &&
        (forall x :: x in r.reviews ==> x.location != id) &&
        (forall l :: l in r.locations ==> l.id != id)
  {
    if DeleteLocation(db, s, id).outcome.Ok? {
      var i := OwnedLocationIndex(db.locations, id, s.userId).value;
      assert db.locations[i].id == id && s.userId == Some(db.locations[i].owner);
    }
  }
}

=== FILE: location_model.dfy ===
/** The location document: descriptive fields with their bounds and defaults,
    the owner, and the enriched metadata (city, price level and range, lists). */
module LocationModel {
  import opened Wrappers
  import opened Text

  const MaxNameLength := 100
  const MaxDescriptionLength := 500
  const MaxAddressLength := 200
  /** Ratings are kept in tenths of a star: 0 to 50 stands for 0.0 to 5.0. */
  const MaxRatingTenths := 50

  const PlaceholderImage := "https://" + "via.placeholder.com/400x300?text=No+Image"
  /** The default city, "not updated yet" in Vietnamese. */
  const DefaultCity := "Ch\U{01B0}a c\U{1EAD}p nh\U{1EAD}t"
  const DefaultKind := "restaurant"
  const DefaultPriceLevel := "standard"

  predicate IsKind(k: string) { k == "restaurant" || k == "cafe" || k == "tourist_spot" }

  predicate IsPriceLevel(p: string) { p == "budget" || p == "standard" || p == "premium" }

  datatype PriceRange = PriceRange(min: int, max: int)

  datatype Location = Location(
    id: Id,
    name: string,
    description: string,
    address: string,
    kind: string,
    ratingTenths: int,
    imageUrl: string,
    owner: Id,
    city: string,
    priceLevel: string,
    priceRange: PriceRange,
    features: seq<string>,
    menuHighlights: seq<string>,
    keywords: seq<string>,
    createdAt: Time)

  /** The validators that run on save. `required` refuses an empty string. */
  predicate SchemaValid(l: Location) {
    0 < |l.name| <= MaxNameLength &&
    0 < |l.description| <= MaxDescriptionLength &&
    0 < |l.address| <= MaxAddressLength &&
    IsKind(l.kind) &&
    0 <= l.ratingTenths <= MaxRatingTenths &&
    IsPriceLevel(l.priceLevel)
  }

  /** A new document as the schema builds it: submitted strings pass through the
      `trim` setters, `kind` takes its default when absent, and every other field
      takes its default. */
  function NewLocation(id: Id, name: string, description: string, address: string,
                       kind: Option<string>, imageUrl: string, owner: Id, now: Time): (l: Location)
    ensures l.kind == (if kind.Some? then kind.value else DefaultKind)
    ensures l.ratingTenths == 0 && l.city == DefaultCity && l.priceLevel == DefaultPriceLevel
    ensures l.priceRange == PriceRange(0, 0)
    ensures l.features == [] && l.menuHighlights == [] && l.keywords == []
    ensures l.name == Trim(name) && l.description == Trim(description) && l.address == Trim(address)
    ensures l.imageUrl == Trim(imageUrl) && l.owner == owner && l.createdAt == now
  {
    Location(id, Trim(name), Trim(description), Trim(address),
      if kind.Some? then kind.value else DefaultKind,
      0, Trim(imageUrl), owner, DefaultCity, DefaultPriceLevel, PriceRange(0, 0), [], [], [], now)
  }

  /** The defaults a new document gets satisfy their own constraints. */
  lemma DefaultsValid()
    ensures IsKind(DefaultKind) && IsPriceLevel(DefaultPriceLevel)
    ensures 0 <= 0 <= MaxRatingTenths
  {
  }
}

=== FILE: object_ids.dfy ===
/** Document ids as the routes receive them. A stored MongoDB ObjectId prints as 24
    lower-case hex digits. A path parameter is the text the client sent: a lookup by
    id (`findById`, `findByIdAndDelete`) casts it to an ObjectId whatever the case of
    its letters, while a guard that compares the text with a printed id compares it
    character by character. The rest of the model names a document by the id a lookup
    resolves, which is what the corrected guards below compare. */
module ObjectIds {
  import opened Text

  /** The text casts to an ObjectId: 24 hex digits in either case. */
  predicate IsIdText(s: string) {
    |s| == 24 && forall i :: 0 <= i < |s| ==> IsHexDigit(s[i])
  }

  predicate IsLowerHexDigit(c: char) { IsDigit(c) || 'a' <= c <= 'f' }

  /** The printed form of a stored id: 24 digits or lower-case letters `a` to `f`. */
  predicate IsPrinted(id: string) {
    |id| == 24 && forall i :: 0 <= i < |id| ==> IsLowerHexDigit(id[i])
  }

  /** Two texts name the same ObjectId: they have the same 24 hex digit values. */
  predicate SameObjectId(p: string, q: string)
    requires IsIdText(p) && IsIdText(q)
  {
    forall i :: 0 <= i < 24 ==> DigitValue(p[i]) == DigitValue(q[i])
  }

  /** The printed id of the document a lookup by `path` finds. */
  function Resolve(path: string): (id: string)
    requires IsIdText(path)
    ensures IsPrinted(id) && IsIdText(id)
    ensures SameObjectId(id, path)
  {
    var r := ToLower(path);
    forall i | 0 <= i < 24 ensures IsLowerHexDigit(r[i]) && DigitValue(r[i]) == DigitValue(path[i]) {
      LowerHexDigit(path[i]);
    }
    r
  }

  lemma LowerHexDigit(c: char)
    requires IsHexDigit(c)
    ensures IsLowerHexDigit(LowerChar(c)) && IsHexDigit(LowerChar(c))
    ensures DigitValue(LowerChar(c)) == DigitValue(c)
  {
  }

  /** A lower-case hex digit is fixed by its value. */
  lemma LowerHexDigitByValue(c: char, d: char)
    requires IsLowerHexDigit(c) && IsLowerHexDigit(d) && DigitValue(c) == DigitValue(d)
    ensures c == d
  {
  }

  /** Two printed ids name the same ObjectId only when they are the same text. */
  lemma {:induction false} PrintedIdsAgree(p: string, q: string)
    requires IsPrinted(p) && IsPrinted(q) && IsIdText(p) && IsIdText(q) && SameObjectId(p, q)
    ensures p == q
  {
    forall i | 0 <= i < 24 ensures p[i] == q[i] {
      LowerHexDigitByValue(p[i], q[i]);
    }
  }

  /** A lookup by `path` finds the document printed as `id` exactly when both name the
      same ObjectId. */
  lemma ResolveIff(path: string, id: string)
    requires IsIdText(path) && IsPrinted(id) && IsIdText(id)
    ensures Resolve(path) == id <==> SameObjectId(path, id)
  {
    if SameObjectId(path, id) {
      PrintedIdsAgree(Resolve(path), id);
    }
  }

  // ------------------------------------------------------------ claims

  /** A claim record as the claim guard reads it: the printed voucher id and the
      expiry. */
  datatype Held = Held(voucherId: string, expiry: int)

  /** `alreadyClaimed` in `claimVoucher` as written: a live record whose printed
      voucher id equals the path text. */
  predicate AlreadyClaimedAsWritten(held: seq<Held>, path: string, now: int) {
    exists i :: 0 <= i < |held| && held[i].voucherId == path && held[i].expiry > now
  }

  /** The guard over the voucher the path resolves to. */
  predicate AlreadyClaimed(held: seq<Held>, path: string, now: int)
    requires IsIdText(path)
  {
    exists i :: 0 <= i < |held| && held[i].voucherId == Resolve(path) && held[i].expiry > now
  }

  /** The id printed with its letters in upper case names the same document. */
  lemma {:induction false} UpperCaseResolves(id: string)
    requires IsPrinted(id) && IsIdText(id)
    ensures IsIdText(ToUpper(id)) && Resolve(ToUpper(id)) == id
  {
    var u := ToUpper(id);
    forall i | 0 <= i < 24 ensures IsHexDigit(u[i]) && LowerChar(u[i]) == id[i] {
      assert u[i] == UpperChar(id[i]);
    }
  }

  /** A voucher claimed once and requested again with the letters of its id in upper
      case: the lookup finds the same voucher, but the guard as written misses the live
      record, so the handler pushes a second record and counts the voucher once more. */
  lemma CaseVariantClaimSlipsThrough(id: string, k: nat, expiry: int, now: int)
    requires IsPrinted(id) && IsIdText(id) && k < 24 && 'a' <= id[k] <= 'f' && now < expiry
    ensures IsIdText(ToUpper(id)) && Resolve(ToUpper(id)) == id
    ensures !AlreadyClaimedAsWritten([Held(id, expiry)], ToUpper(id), now)
    ensures AlreadyClaimed([Held(id, expiry)], ToUpper(id), now)
  {
    UpperCaseResolves(id);
    var held := [Held(id, expiry)];
    assert held[0].voucherId == Resolve(ToUpper(id));
    assert ToUpper(id)[k] != id[k];
  }

  /** The corrected guard sees a live record of the voucher whatever the spelling of its
      id, and agrees with the guard as written on the printed id. */
  lemma AlreadyClaimedAnySpelling(held: seq<Held>, p: string, q: string, now: int)
    requires IsIdText(p) && IsIdText(q) && SameObjectId(p, q)
    ensures AlreadyClaimed(held, p, now) == AlreadyClaimed(held, q, now)
  {
    PrintedIdsAgree(Resolve(p), Resolve(q));
  }

  lemma AlreadyClaimedOnPrinted(held: seq<Held>, id: string, now: int)
    requires IsPrinted(id) && IsIdText(id)
    ensures AlreadyClaimedAsWritten(held, id, now) == AlreadyClaimed(held, id, now)
  {
    ResolveIff(id, id);
  }

  // ----------------------------------------------------- self-deletion

  /** The self-deletion guard of `DELETE /admin/users/:id` as written: the path text
      equals the printed id of the signed-in admin. */
  predicate RefusesSelfAsWritten(path: string, self: string) {
    path == self
  }

  /** The guard over the user the path resolves to. */
  predicate RefusesSelf(path: string, self: string)
    requires IsIdText(path)
  {
    Resolve(path) == self
  }

  /** The admin's own id with its letters in upper case passes the guard as written,
      and the deletion then removes the admin's own account. */
  lemma CaseVariantDeletesSelf(self: string, k: nat)
    requires IsPrinted(self) && IsIdText(self) && k < 24 && 'a' <= self[k] <= 'f'
    ensures IsIdText(ToUpper(self)) && !RefusesSelfAsWritten(ToUpper(self), self)
    ensures Resolve(ToUpper(self)) == self && RefusesSelf(ToUpper(self), self)
  {
    UpperCaseResolves(self);
    assert ToUpper(self)[k] != self[k];
  }

  /** The corrected guard refuses exactly the paths that name the admin's own id. */
  lemma RefusesSelfIff(path: string, self: string)
    requires IsIdText(path) && IsPrinted(self) && IsIdText(self)
    ensures RefusesSelf(path, self) <==> SameObjectId(path, self)
  {
    ResolveIff(path, self);
  }
}

=== FILE: owner_controller.dfy ===
/** The owner dashboard: counts over the owner's locations and their vouchers, the
    five newest vouchers and reviews, and the owner's location list. */
module OwnerController {
  import opened Wrappers
  import opened Seqs
  import opened VoucherModel
  import opened LocationModel
  import opened ReviewModel
  import opened Database

  /** How many items the dashboard lists. */
  const RecentLimit := 5

  datatype DashboardStats = DashboardStats(totalLocations: nat, totalVouchers: nat,
                                           activeVouchers: nat, totalClaims: int)

  datatype Dashboard = Dashboard(stats: DashboardStats, locations: seq<Location>,
                                 vouchers: seq<Voucher>, recentReviews: seq<Review>)

  function SumClaimed(vouchers: seq<Voucher>): int {
    if |vouchers| == 0 then 0 else vouchers[0].quantityClaimed + SumClaimed(vouchers[1..])
  }

  function SumIssued(vouchers: seq<Voucher>): int {
    if |vouchers| == 0 then 0 else vouchers[0].quantityTotal + SumIssued(vouchers[1..])
  }

  /** Some location with the id `id` belongs to `owner`. */
  predicate OwnsLocation(locations: seq<Location>, owner: Id, id: Id) {
    exists l :: l in locations && l.owner == owner && l.id == id
  }

  /** The ids of the owner's locations are exactly the ids of locations they own. */
  lemma OwnedIds(db: Db, owner: Id)
    ensures forall id :: id in LocationIds(LocationsOf(db.locations, Some(owner))) <==> OwnsLocation(db.locations, owner, id)
  {
    var owned := LocationsOf(db.locations, Some(owner));
    forall id | OwnsLocation(db.locations, owner, id) ensures id in LocationIds(owned) {
      var l :| l in db.locations && l.owner == owner && l.id == id;
      assert l in owned;
    }
  }

  /** The vouchers of the owner's locations, each as often as it is stored, newest
      first. */
  function OwnerVouchers(db: Db, owner: Id): (r: seq<Voucher>)
    ensures forall v :: v in r <==> v in db.vouchers && OwnsLocation(db.locations, owner, v.location)
    ensures forall v :: multiset(r)[v] == if OwnsLocation(db.locations, owner, v.location) then multiset(db.vouchers)[v] else 0
    ensures VouchersCreatedInOrder(db.vouchers) ==> VouchersNewestFirst(r)
  {
    var at := VouchersAtAny(db.vouchers, LocationIds(LocationsOf(db.locations, Some(owner))));
    OwnedIds(db, owner);
    ReverseSameElements(at);
    ReverseMultiset(at);
    assert VouchersCreatedInOrder(db.vouchers) ==> VouchersNewestFirst(Reverse(at)) by {
      if VouchersCreatedInOrder(db.vouchers) {
        VouchersReversed(at);
      }
    }
    Reverse(at)
  }

  /** The reviews of the owner's locations, each as often as it is stored, newest
      first. */
  function OwnerReviewsNewest(db: Db, owner: Id): (r: seq<Review>)
    ensures forall x :: x in r <==> x in db.reviews && OwnsLocation(db.locations, owner, x.location)
    ensures forall x :: multiset(r)[x] == if OwnsLocation(db.locations, owner, x.location) then multiset(db.reviews)[x] else 0
    ensures ReviewsCreatedInOrder(db.reviews) ==> ReviewsNewestFirst(r)
  {
    var at := ReviewsAtAny(db.reviews, LocationIds(LocationsOf(db.locations, Some(owner))));
    OwnedIds(db, owner);
    ReverseSameElements(at);
    ReverseMultiset(at);
    assert ReviewsCreatedInOrder(db.reviews) ==> ReviewsNewestFirst(Reverse(at)) by {
      if ReviewsCreatedInOrder(db.reviews) {
        ReviewsReversed(at);
      }
    }
    Reverse(at)
  }

  /** `renderDashboard` for the owner `owner` at `now`. */
  function RenderDashboard(db: Db, owner: Id, now: Time): (d: Dashboard)
    ensures d.stats.totalLocations == |d.locations|
    ensures forall l :: l in d.locations <==> l in db.locations && l.owner == owner
    ensures forall l :: multiset(d.locations)[l] == if l.owner == owner then multiset(db.locations)[l] else 0
    ensures LocationsCreatedInOrder(db.locations) ==> LocationsCreatedInOrder(d.locations)
    ensures d.vouchers == Take(OwnerVouchers(db, owner), RecentLimit)
    ensures d.stats.totalVouchers == |OwnerVouchers(db, owner)|
    ensures d.stats.activeVouchers == |Filter(OwnerVouchers(db, owner), (v: Voucher) => IsListed(v, now))|
    ensures d.stats.totalClaims == SumClaimed(OwnerVouchers(db, owner))
    ensures d.recentReviews == (if |d.locations| == 0 then [] else Take(OwnerReviewsNewest(db, owner), RecentLimit))
    ensures |d.recentReviews| <= RecentLimit
  {
    var locations := LocationsOf(db.locations, Some(owner));
    var vouchers := OwnerVouchers(db, owner);
    var stats := DashboardStats(|locations|, |vouchers|,
                                |Filter(vouchers, (v: Voucher) => IsListed(v, now))|, SumClaimed(vouchers));
    var recent := if |locations| > 0 then Take(OwnerReviewsNewest(db, owner), RecentLimit) else [];
    Dashboard(stats, locations, Take(vouchers, RecentLimit), recent)
  }

  /** The active count never exceeds the voucher count, and it counts exactly the
      owner's vouchers whose status is active. */
  lemma ActiveAtMostTotal(db: Db, owner: Id, now: Time)
    ensures var s := RenderDashboard(db, owner, now).stats; s.activeVouchers <= s.totalVouchers
    ensures RenderDashboard(db, owner, now).stats.activeVouchers ==
            |Filter(OwnerVouchers(db, owner), (v: Voucher) => PhaseAt(v, now) == Active)|
  {
    var vs := OwnerVouchers(db, owner);
    forall v | v in vs ensures IsListed(v, now) == (PhaseAt(v, now) == Active) {
      ListedIffActive(v, now);
    }
    FilterExt(vs, (v: Voucher) => IsListed(v, now), (v: Voucher) => PhaseAt(v, now) == Active);
  }

  /** Every recent review is about one of the owner's locations. */
  lemma RecentReviewsAreOwn(db: Db, owner: Id, now: Time)
    ensures forall x :: x in RenderDashboard(db, owner, now).recentReviews ==>
      x in db.reviews && OwnsLocation(db.locations, owner, x.location)
  {
    var all := OwnerReviewsNewest(db, owner);
    var r := Take(all, RecentLimit);
    assert RenderDashboard(db, owner, now).recentReviews == [] || RenderDashboard(db, owner, now).recentReviews == r;
    forall x | x in r ensures x in all {
      var i :| 0 <= i < |r| && r[i] == x;
      assert all[i] == x;
    }
  }

  lemma {:induction false} SumClaimedAtMostIssued(vouchers: seq<Voucher>)
    requires AllWithinCap(vouchers)
    ensures SumClaimed(vouchers) <= SumIssued(vouchers)
  {
    if |vouchers| > 0 {
      assert WithinCap(vouchers[0]);
      assert AllWithinCap(vouchers[1..]) by {
        forall i | 0 <= i < |vouchers[1..]| ensures WithinCap(vouchers[1..][i]) {
          assert vouchers[1..][i] == vouchers[i + 1];
        }
      }
      SumClaimedAtMostIssued(vouchers[1..]);
    }
  }

  /** Every voucher drawn from a collection within its caps is within its cap. */
  lemma WithinCapSubset(vs: seq<Voucher>, all: seq<Voucher>)
    requires AllWithinCap(all)
    requires forall v :: v in vs ==> v in all
    ensures AllWithinCap(vs)
  {
    forall i | 0 <= i < |vs| ensures WithinCap(vs[i]) {
      assert vs[i] in all;
      var k :| 0 <= k < |all| && all[k] == vs[i];
    }
  }

  /** While every voucher is within its cap, the dashboard's claim total is at most the
      number of vouchers the owner issued. */
  lemma TotalClaimsAtMostIssued(db: Db, owner: Id, now: Time)
    requires AllWithinCap(db.vouchers)
    ensures RenderDashboard(db, owner, now).stats.totalClaims <= SumIssued(OwnerVouchers(db, owner))
  {
    var vs := OwnerVouchers(db, owner);
    WithinCapSubset(vs, db.vouchers);
    SumClaimedAtMostIssued(vs);
  }

  /** `listLocations`: the owner's locations, newest first. */
  function ListLocations(db: Db, owner: Id): (r: seq<Location>)
    ensures forall l :: l in r <==> l in db.locations && l.owner == owner
    ensures forall l :: multiset(r)[l] == if l.owner == owner then multiset(db.locations)[l] else 0
    ensures LocationsCreatedInOrder(db.locations) ==> LocationsNewestFirst(r)
  {
    var owned := LocationsOf(db.locations, Some(owner));
    ReverseSameElements(owned);
    ReverseMultiset(owned);
    assert LocationsCreatedInOrder(db.locations) ==> LocationsNewestFirst(Reverse(owned)) by {
      if LocationsCreatedInOrder(db.locations) {
        LocationsReversed(owned);
      }
    }
    Reverse(owned)
  }
}

=== FILE: review_controller.dfy ===
/** Reviews: input validation, the media payload built from an upload, the cap of
    three reviews per user and location, the location rating kept as the rounded
    mean, and the edit, delete, listing and detail operations. */
module ReviewController {
  import opened Wrappers
  import opened Seqs
  import opened Text
  import opened LocationModel
  import opened ReviewModel
  import opened UserModel
  import opened Database
  import opened Auth
  import ObjectIds

  /** At most this many reviews per user and location. */
  const MaxReviewsPerLocation := 3

  // ------------------------------------------------------------ validation

  datatype InputError = NotLoggedIn | MissingLocation | BadRating | EmptyComment | CommentTooLong

  /** `validateReviewInput`: a session id, a location id, a rating that `parseInt` reads
      as 1 to 5, and a comment that is non-empty after trimming and at most 500
      characters; the result is the parsed rating and the trimmed comment. */
  function ValidateReviewInput(rating: string, comment: string, locationId: Option<Id>, userId: Option<Id>): (r: Result<(int, string), InputError>)
    ensures r == Err(NotLoggedIn) <==> userId.None?
    ensures r == Err(MissingLocation) <==> userId.Some? && locationId.None?
    ensures r.Ok? ==> MinRating <= r.value.0 <= MaxRating && ParseInt(rating) == Some(r.value.0)
    ensures r.Ok? ==> r.value.1 == Trim(comment) && 0 < |r.value.1| <= MaxCommentLength
  {
    if userId.None? then Err(NotLoggedIn)
    else if locationId.None? then Err(MissingLocation)
    else
      var n := ParseInt(rating);
      if rating == "" || n.None? || n.value < MinRating || n.value > MaxRating then Err(BadRating)
      else
        var c := Trim(comment);
        if |c| == 0 then Err(EmptyComment)
        else if |c| > MaxCommentLength then Err(CommentTooLong)
        else Ok((n.value, c))
  }

  /** Where a refused review sends the browser. */
  function InputErrorRedirect(e: InputError, locationId: Option<Id>): (url: string)
    ensures e == NotLoggedIn ==> url == "/auth"
    ensures e == MissingLocation ==> url == "/locations"
    ensures e != NotLoggedIn && e != MissingLocation && locationId.Some? ==>
              url == "/locations/" + NatToString(locationId.value)
  {
    match e
    case NotLoggedIn => "/auth"
    case MissingLocation => "/locations"
    case _ => if locationId.Some? then "/locations/" + NatToString(locationId.value) else "/locations/"
  }

  // ---------------------------------------------------------------- media

  /** A file as the upload middleware stored it; an empty `filename` stands for a file
      entry without one. */
  datatype Upload = Upload(filename: string, mimetype: string, size: int)

  /** `buildMediaPayload`. */
  function BuildMediaPayload(file: Upload, userId: Id): (m: Media)
    ensures m.kind == Video <==> StartsWith(file.mimetype, "video/")
    ensures m.url == "/uploads/reviews/" + NatToString(userId) + "/" + ReplaceChar(file.filename, '\\', '/')
    ensures m.filename == file.filename && m.mimetype == file.mimetype && m.size == file.size
  {
    Media(if StartsWith(file.mimetype, "video/") then Video else Image,
          "/uploads/reviews/" + NatToString(userId) + "/" + ReplaceChar(file.filename, '\\', '/'),
          file.filename, file.mimetype, file.size)
  }

  /** A media url never holds a backslash and always lies under the user's directory. */
  lemma MediaUrlShape(file: Upload, userId: Id)
    ensures var m := BuildMediaPayload(file, userId);
      StartsWith(m.url, "/uploads/reviews/") && |m.url| > 0 &&
      forall i :: 0 <= i < |m.url| ==> m.url[i] != '\\'
  {
    var m := BuildMediaPayload(file, userId);
    var d := NatToString(userId);
    var head := "/uploads/reviews/" + d + "/";
    var tail := ReplaceChar(file.filename, '\\', '/');
    assert m.url == head + tail;
    assert m.url[..|"/uploads/reviews/"|] == "/uploads/reviews/";
    forall i | 0 <= i < |m.url| ensures m.url[i] != '\\' {
      if i < |head| {
        if 17 <= i < 17 + |d| {
          assert m.url[i] == d[i - 17];
          assert IsDigit(d[i - 17]);
        }
      } else {
        assert m.url[i] == tail[i - |head|];
      }
    }
  }

  function MediaOf(files: seq<Upload>, userId: Id): (r: seq<Media>)
    ensures |r| == |files|
    ensures forall i :: 0 <= i < |files| ==> r[i] == BuildMediaPayload(files[i], userId)
  {
    if |files| == 0 then [] else [BuildMediaPayload(files[0], userId)] + MediaOf(files[1..], userId)
  }

  predicate HasFilename(f: Upload) { f.filename != "" }

  // ---------------------------------------------------------------- rating

  function SumRatings(reviews: seq<Review>): int {
    if |reviews| == 0 then 0 else reviews[0].rating + SumRatings(reviews[1..])
  }

  /** `Math.round(mean * 10)` in exact arithmetic: the mean of `n` ratings summing to
      `sum`, in tenths, rounded half up. */
  function MeanTenths(sum: int, n: nat): (t: int)
    requires n > 0
    ensures 2 * n * t <= 20 * sum + n < 2 * n * (t + 1)
  {
    (20 * sum + n) / (2 * n)
  }

  /** The rating `updateLocationRating` stores, in tenths: 0 without reviews, the rounded
      mean otherwise. */
  function RatingTenths(reviews: seq<Review>): int {
    if |reviews| == 0 then 0 else MeanTenths(SumRatings(reviews), |reviews|)
  }

  predicate AllRatingsValid(reviews: seq<Review>) {
    forall i :: 0 <= i < |reviews| ==> MinRating <= reviews[i].rating <= MaxRating
  }

  lemma {:induction false} SumRatingsBounds(reviews: seq<Review>)
    requires AllRatingsValid(reviews)
    ensures |reviews| <= SumRatings(reviews) <= 5 * |reviews|
  {
    if |reviews| > 0 {
      assert AllRatingsValid(reviews[1..]) by {
        forall i | 0 <= i < |reviews[1..]| ensures MinRating <= reviews[1..][i].rating <= MaxRating {
          assert reviews[1..][i] == reviews[i + 1];
        }
      }
      SumRatingsBounds(reviews[1..]);
    }
  }

  lemma MulLe(a: int, b: int, c: int)
    requires a <= b && c >= 0
    ensures c * a <= c * b
  {
  }

  /** With every rating between 1 and 5 the stored rating lies between 1.0 and 5.0;
      without reviews it is 0. */
  lemma RatingTenthsBounds(reviews: seq<Review>)
    requires AllRatingsValid(reviews)
    ensures |reviews| == 0 ==> RatingTenths(reviews) == 0
    ensures |reviews| > 0 ==> 10 <= RatingTenths(reviews) <= MaxRatingTenths
  {
    if |reviews| > 0 {
      var n := |reviews|;
      var sum := SumRatings(reviews);
      var t := RatingTenths(reviews);
      SumRatingsBounds(reviews);
      assert 2 * n * t <= 20 * sum + n < 2 * n * (t + 1);
      if t < 10 {
        MulLe(t + 1, 10, 2 * n);
        assert false;
      }
      if t > 50 {
        MulLe(51, t, 2 * n);
        assert false;
      }
    }
  }

  /** `after` is `before` with the location `findByIdAndUpdate(loc)` finds rated by the
      reviews in `reviews` that reference it, and every other location as it was. */
  predicate RatingRecomputed(before: seq<Location>, after: seq<Location>, reviews: seq<Review>, loc: Id) {
    |after| == |before| &&
    forall k :: 0 <= k < |before| ==>
      after[k] == (if LocationIndex(before, loc) == Some(k)
                   then before[k].(ratingTenths := RatingTenths(ReviewsAt(reviews, loc)))
                   else before[k])
  }

  /** `updateLocationRating`: the location with that id gets the rating of the reviews
      now referencing it; without such a location nothing changes. */
  function UpdateLocationRating(db: Db, locationId: Id): (r: Db)
    ensures r.users == db.users && r.vouchers == db.vouchers && r.reviews == db.reviews
    ensures |r.locations| == |db.locations|
    ensures RatingRecomputed(db.locations, r.locations, db.reviews, locationId)
  {
    match LocationIndex(db.locations, locationId)
    case None => db
    case Some(li) =>
      db.(locations := db.locations[li := db.locations[li].(ratingTenths := RatingTenths(ReviewsAt(db.reviews, locationId)))])
  }

  /** After the update the location's stored rating agrees with its reviews, and no
      other location changes. */
  lemma UpdateLocationRatingEffect(db: Db, locationId: Id, li: nat)
    requires li < |db.locations| && db.locations[li].id == locationId
    requires forall k :: 0 <= k < li ==> db.locations[k].id != locationId
    ensures var r := UpdateLocationRating(db, locationId);
      r.locations[li] == db.locations[li].(ratingTenths := RatingTenths(ReviewsAt(db.reviews, locationId))) &&
      forall k :: 0 <= k < |db.locations| && k != li ==> r.locations[k] == db.locations[k]
  {
    assert LocationIndex(db.locations, locationId) == Some(li);
  }

  // ---------------------------------------------------------------- create

  datatype ReviewError =
    | Input(e: InputError)
    | CapReached
    | NoMedia
    | NotFoundOrForbidden
    | Failed

  datatype ReviewResult = ReviewResult(db: Db, outcome: Result<Id, ReviewError>)

  /** The number of reviews the user has left for the location. */
  function ReviewCount(reviews: seq<Review>, user: Id, location: Id): nat {
    CountReviewsBy(reviews, user, location)
  }

  /** `createReview`: validation, then the cap, then at least one uploaded file with a
      filename; the review is stored with the files' media and the location's rating
      recomputed. The location itself is not looked up. */
  function CreateReview(db: Db, s: Session, locationId: Option<Id>, rating: string, comment: string,
                        files: seq<Upload>, now: Time): (r: ReviewResult)
    ensures r.outcome.Err? ==> r.db == db
  {
    match ValidateReviewInput(rating, comment, locationId, s.userId)
    case Err(e) => ReviewResult(db, Err(Input(e)))
    case Ok((stars, text)) =>
      var uid := s.userId.value;
      var lid := locationId.value;
      if ReviewCount(db.reviews, uid, lid) >= MaxReviewsPerLocation then ReviewResult(db, Err(CapReached))
      else
        var valid := Filter(files, HasFilename);
        if |valid| == 0 then ReviewResult(db, Err(NoMedia))
        else
          var review := Review(db.nextId, uid, lid, stars, text, MediaOf(valid, uid), now);
          ReviewResult(StoreReview(db, review), Ok(review.id))
  }

  /** `review.save()` followed by `updateLocationRating(locationId)`. */
  function StoreReview(db: Db, rev: Review): (r: Db)
    ensures r.reviews == db.reviews + [rev] && r.nextId == db.nextId + 1
    ensures r.users == db.users && r.vouchers == db.vouchers
  {
    UpdateLocationRating(db.(reviews := db.reviews + [rev], nextId := db.nextId + 1), rev.location)
  }

  /** Once a review is stored, its location's rating is the rounded mean of all the
      reviews now referencing it, and no other location changes. */
  lemma StoreReviewRating(db: Db, rev: Review, li: nat)
    requires li < |db.locations| && db.locations[li].id == rev.location
    requires forall k :: 0 <= k < li ==> db.locations[k].id != rev.location
    ensures var r := StoreReview(db, rev);
      r.locations[li].ratingTenths == RatingTenths(ReviewsAt(r.reviews, rev.location)) &&
      forall k :: 0 <= k < |db.locations| && k != li ==> r.locations[k] == db.locations[k]
  {
    UpdateLocationRatingEffect(db.(reviews := db.reviews + [rev], nextId := db.nextId + 1), rev.location, li);
  }

  /** A created review is appended with the caller, the location, the parsed rating, the
      trimmed comment and one media item per named file; it passes the schema. */
  lemma CreateReviewEffect(db: Db, s: Session, locationId: Option<Id>, rating: string, comment: string,
                           files: seq<Upload>, now: Time)
    requires CreateReview(db, s, locationId, rating, comment, files, now).outcome.Ok?
    ensures var r := CreateReview(db, s, locationId, rating, comment, files, now);
      s.userId.Some? && locationId.Some? &&
      |r.db.reviews| == |db.reviews| + 1 && r.db.reviews[..|db.reviews|] == db.reviews &&
      var rev := r.db.reviews[|db.reviews|];
      rev.id == db.nextId == r.outcome.value && rev.user == s.userId.value && rev.location == locationId.value &&
      ParseInt(rating) == Some(rev.rating) && rev.comment == Trim(comment) &&
      rev.media == MediaOf(Filter(files, HasFilename), s.userId.value) && |rev.media| > 0 &&
      ReviewModel.SchemaValid(rev) &&
      ReviewCount(db.reviews, s.userId.value, locationId.value) < MaxReviewsPerLocation &&
      r.db == StoreReview(db, rev)
  {
    var uid := s.userId.value;
    var valid := Filter(files, HasFilename);
    var media := MediaOf(valid, uid);
    forall i | 0 <= i < |media| ensures |media[i].url| > 0 {
      MediaUrlShape(valid[i], uid);
    }
  }

  ghost predicate ReviewCapHolds(reviews: seq<Review>) {
    forall u, l :: CountReviewsBy(reviews, u, l) <= MaxReviewsPerLocation
  }

  /** Appending one review raises the count of its own (user, location) pair by one
      and leaves every other pair's count alone. */
  lemma CountAfterAppend(reviews: seq<Review>, rev: Review, u: Id, l: Id)
    ensures CountReviewsBy(reviews + [rev], u, l) ==
            CountReviewsBy(reviews, u, l) + (if rev.user == u && rev.location == l then 1 else 0)
  {
    FilterConcat(reviews, [rev], (x: Review) => x.user == u && x.location == l);
  }

  /** Creation never takes a user past three reviews of one location. */
  lemma CreateReviewKeepsCap(db: Db, s: Session, locationId: Option<Id>, rating: string, comment: string,
                             files: seq<Upload>, now: Time)
    requires ReviewCapHolds(db.reviews)
    ensures ReviewCapHolds(CreateReview(db, s, locationId, rating, comment, files, now).db.reviews)
  {
    var r := CreateReview(db, s, locationId, rating, comment, files, now);
    if r.outcome.Ok? {
      CreateReviewEffect(db, s, locationId, rating, comment, files, now);
      var rev := r.db.reviews[|db.reviews|];
      assert r.db.reviews == db.reviews + [rev];
      forall u, l ensures CountReviewsBy(r.db.reviews, u, l) <= MaxReviewsPerLocation {
        CountAfterAppend(db.reviews, rev, u, l);
      }
    }
  }

  /** After the review is stored its location's rating is the rounded mean of all the
      reviews now referencing it. */
  lemma CreateReviewRating(db: Db, s: Session, locationId: Option<Id>, rating: string, comment: string,
                           files: seq<Upload>, now: Time, li: nat)
    requires CreateReview(db, s, locationId, rating, comment, files, now).outcome.Ok?
    requires li < |db.locations| && locationId == Some(db.locations[li].id)
    requires forall k :: 0 <= k < li ==> db.locations[k].id != locationId.value
    ensures var r := CreateReview(db, s, locationId, rating, comment, files, now);
      r.db.locations[li].ratingTenths == RatingTenths(ReviewsAt(r.db.reviews, locationId.value))
  {
    var r := CreateReview(db, s, locationId, rating, comment, files, now);
    CreateReviewEffect(db, s, locationId, rating, comment, files, now);
    StoreReviewRating(db, r.db.reviews[|db.reviews|], li);
  }

  /** `getReviewRemainingCount`: 401 without a session id. */
  datatype RemainingReply = RemainingUnauthorized | Remaining(currentCount: nat, maxAllowed: nat, remaining: nat, canReview: bool)

  function ReviewRemainingCount(db: Db, s: Session, locationId: Id): (r: RemainingReply)
    ensures r == RemainingUnauthorized <==> s.userId.None?
    ensures r.Remaining? ==> r.maxAllowed == MaxReviewsPerLocation
    ensures r.Remaining? ==> r.currentCount == ReviewCount(db.reviews, s.userId.value, locationId)
    ensures r.Remaining? ==>
      r.remaining == (if r.currentCount < MaxReviewsPerLocation then MaxReviewsPerLocation - r.currentCount else 0)
    ensures r.Remaining? ==> (r.canReview <==> r.remaining > 0)
  {
    if s.userId.None? then RemainingUnauthorized
    else
      var count := ReviewCount(db.reviews, s.userId.value, locationId);
      var remaining := if MaxReviewsPerLocation - count > 0 then MaxReviewsPerLocation - count else 0;
      Remaining(count, MaxReviewsPerLocation, remaining, remaining > 0)
  }

  /** The remaining-count API predicts the cap check: `canReview` holds exactly when a
      valid review with a named file would not be refused for the cap. */
  lemma RemainingPredictsCreate(db: Db, s: Session, locationId: Id, rating: string, comment: string,
                                files: seq<Upload>, now: Time)
    requires s.userId.Some?
    requires ValidateReviewInput(rating, comment, Some(locationId), s.userId).Ok?
    ensures ReviewRemainingCount(db, s, locationId).canReview <==>
            CreateReview(db, s, Some(locationId), rating, comment, files, now).outcome != Err(CapReached)
  {
  }

  // ---------------------------------------------------------- update / delete

  /** The edit form: `None` for a rating the schema cannot cast to a number. */
  datatype ReviewEdit = ReviewEdit(rating: Option<int>, comment: string, files: seq<Upload>)

  /** `updateReview`: only the caller's own review; the rating and (trimmed) comment are
      overwritten, new media are appended after the existing ones, and the save runs
      the schema. A file entry without a filename makes the handler fail. */
  function UpdateReview(db: Db, s: Session, reviewId: Id, edit: ReviewEdit): (r: ReviewResult)
    ensures r.outcome.Err? ==> r.db == db
  {
    match OwnReviewIndex(db.reviews, reviewId, s.userId)
    case None => ReviewResult(db, Err(NotFoundOrForbidden))
    case Some(ri) =>
      if exists i :: 0 <= i < |edit.files| && !HasFilename(edit.files[i]) then ReviewResult(db, Err(Failed))
      else if edit.rating.None? then ReviewResult(db, Err(Failed))
      else
        var old_ := db.reviews[ri];
        var media := if |edit.files| > 0 then old_.media + MediaOf(edit.files, s.userId.value) else old_.media;
        var rev := old_.(rating := edit.rating.value, comment := Trim(edit.comment), media := media);
        if !ReviewModel.SchemaValid(rev) then ReviewResult(db, Err(Failed))
        else
          var db1 := db.(reviews := db.reviews[ri := rev]);
          ReviewResult(UpdateLocationRating(db1, rev.location), Ok(reviewId))
  }

  /** An update changes only the caller's review: its author, location and id stay, the
      existing media stay first in their order, and every other review is untouched. */
  lemma UpdateReviewEffect(db: Db, s: Session, reviewId: Id, edit: ReviewEdit)
    requires UpdateReview(db, s, reviewId, edit).outcome.Ok?
    ensures var r := UpdateReview(db, s, reviewId, edit);
      var ri := OwnReviewIndex(db.reviews, reviewId, s.userId).value;
      var old_ := db.reviews[ri];
      var rev := r.db.reviews[ri];
      s.userId == Some(old_.user) && |r.db.reviews| == |db.reviews| &&
      rev.id == old_.id && rev.user == old_.user && rev.location == old_.location &&
      rev.rating == edit.rating.value && rev.comment == Trim(edit.comment) &&
      rev.media == old_.media + MediaOf(edit.files, old_.user) &&
      (forall k :: 0 <= k < |db.reviews| && k != ri ==> r.db.reviews[k] == db.reviews[k]) &&
      r.db.users == db.users && r.db.vouchers == db.vouchers &&
      RatingRecomputed(db.locations, r.db.locations, r.db.reviews, old_.location)
  {
  }

  /** Replacing a review by one with the same author and location keeps every count. */
  lemma CountAfterReplace(reviews: seq<Review>, ri: nat, rev: Review, u: Id, l: Id)
    requires ri < |reviews| && rev.user == reviews[ri].user && rev.location == reviews[ri].location
    ensures CountReviewsBy(reviews[ri := rev], u, l) == CountReviewsBy(reviews, u, l)
  {
    var a := reviews[..ri];
    var b := reviews[ri + 1..];
    var p := (x: Review) => x.user == u && x.location == l;
    assert reviews == a + [reviews[ri]] + b;
    assert reviews[ri := rev] == a + [rev] + b;
    FilterConcat(a + [reviews[ri]], b, p);
    FilterConcat(a, [reviews[ri]], p);
    FilterConcat(a + [rev], b, p);
    FilterConcat(a, [rev], p);
  }

  /** Editing keeps every count per (user, location), so it keeps the cap. */
  lemma UpdateReviewKeepsCap(db: Db, s: Session, reviewId: Id, edit: ReviewEdit)
    requires ReviewCapHolds(db.reviews)
    ensures ReviewCapHolds(UpdateReview(db, s, reviewId, edit).db.reviews)
  {
    var r := UpdateReview(db, s, reviewId, edit);
    if r.outcome.Ok? {
      UpdateReviewEffect(db, s, reviewId, edit);
      var ri := OwnReviewIndex(db.reviews, reviewId, s.userId).value;
      var rev := r.db.reviews[ri];
      assert r.db.reviews == db.reviews[ri := rev];
      forall u, l ensures CountReviewsBy(r.db.reviews, u, l) <= MaxReviewsPerLocation {
        CountAfterReplace(db.reviews, ri, rev, u, l);
      }
    }
  }

  /** Removing a review and recomputing its location's rating from the reviews that
      remain. */
  function RemoveReview(db: Db, ri: nat): (r: Db)
    requires ri < |db.reviews|
    ensures r.users == db.users && r.vouchers == db.vouchers
    ensures forall x :: x in r.reviews <==> x in db.reviews && x.id != db.reviews[ri].id
    ensures RatingRecomputed(db.locations, r.locations, r.reviews, db.reviews[ri].location)
  {
    var rev := db.reviews[ri];
    UpdateLocationRating(db.(reviews := ReviewsWithout(db.reviews, rev.id)), rev.location)
  }

  /** `deleteReview`: only the caller's own review; its location's rating is then
      recomputed. */
  function DeleteReview(db: Db, s: Session, reviewId: Id): (r: ReviewResult)
    ensures r.outcome.Err? ==> r.db == db
    ensures r.outcome.Ok? <==> exists i :: 0 <= i < |db.reviews| && db.reviews[i].id == reviewId &&
                                           s.userId == Some(db.reviews[i].user)
    ensures r.outcome.Ok? ==> forall x :: x in r.db.reviews <==> x in db.reviews && x.id != reviewId
    ensures r.outcome.Ok? ==> var ri := OwnReviewIndex(db.reviews, reviewId, s.userId).value;
      r.db.users == db.users && r.db.vouchers == db.vouchers &&
      RatingRecomputed(db.locations, r.db.locations, r.db.reviews, db.reviews[ri].location)
  {
    match OwnReviewIndex(db.reviews, reviewId, s.userId)
    case None => ReviewResult(db, Err(NotFoundOrForbidden))
    case Some(ri) => ReviewResult(RemoveReview(db, ri), Ok(reviewId))
  }

  /** `adminDeleteReview`: any review; its location's rating is then recomputed. */
  function AdminDeleteReview(db: Db, reviewId: Id): (r: ReviewResult)
    ensures r.outcome.Err? <==> forall i :: 0 <= i < |db.reviews| ==> db.reviews[i].id != reviewId
    ensures r.outcome.Err? ==> r.db == db
    ensures r.outcome.Ok? ==> forall x :: x in r.db.reviews <==> x in db.reviews && x.id != reviewId
    ensures r.outcome.Ok? ==> var ri := ReviewIndex(db.reviews, reviewId).value;
      r.db.users == db.users && r.db.vouchers == db.vouchers &&
      RatingRecomputed(db.locations, r.db.locations, r.db.reviews, db.reviews[ri].location)
  {
    match ReviewIndex(db.reviews, reviewId)
    case None => ReviewResult(db, Err(NotFoundOrForbidden))
    case Some(ri) => ReviewResult(RemoveReview(db, ri), Ok(reviewId))
  }

  /** Removing a review and recomputing leaves a location without reviews at rating 0. */
  lemma RatingZeroWhenNoneRemain(db: Db, ri: nat, li: nat)
    requires ri < |db.reviews|
    requires li < |db.locations| && db.locations[li].id == db.reviews[ri].location
    requires forall k :: 0 <= k < li ==> db.locations[k].id != db.reviews[ri].location
    requires forall i :: 0 <= i < |db.reviews| && db.reviews[i].location == db.reviews[ri].location ==>
               db.reviews[i].id == db.reviews[ri].id
    ensures RemoveReview(db, ri).locations[li].ratingTenths == 0
  {
    var rev := db.reviews[ri];
    var db1 := db.(reviews := ReviewsWithout(db.reviews, rev.id));
    UpdateLocationRatingEffect(db1, rev.location, li);
  }

  // ---------------------------------------------------------------- owners

  /** `getOwnerReviews`: an owner session sees the reviews of its locations, newest first. */
  function OwnerReviews(db: Db, s: Session): (r: Option<seq<Review>>)
    ensures r.None? <==> s.userId.None? || s.role != Some(OwnerRole)
  {
    if s.userId.None? || s.role != Some(OwnerRole) then None
    else Some(Reverse(ReviewsAtAny(db.reviews, LocationIds(LocationsOf(db.locations, s.userId)))))
  }

  /** Exactly the reviews of the caller's locations are listed. */
  lemma OwnerReviewsAreOwn(db: Db, s: Session)
    requires OwnerReviews(db, s).Some?
    ensures forall x :: x in OwnerReviews(db, s).value <==>
      (x in db.reviews && exists l :: l in db.locations && l.owner == s.userId.value && l.id == x.location)
  {
    var owned := LocationsOf(db.locations, s.userId);
    var at := ReviewsAtAny(db.reviews, LocationIds(owned));
    ReverseSameElements(at);
    forall x | x in db.reviews && exists l :: l in db.locations && l.owner == s.userId.value && l.id == x.location
      ensures x.location in LocationIds(owned)
    {
      var l :| l in db.locations && l.owner == s.userId.value && l.id == x.location;
      assert l in owned;
    }
  }

  datatype DetailError = DetailForbidden | DetailNotFound | DetailNotOwner

  /** `ownerGetReviewDetail`: an owner session, an existing review, and a review whose
      location exists and belongs to the caller. */
  function OwnerReviewDetail(db: Db, s: Session, reviewId: Id): (r: Result<Review, DetailError>)
    ensures r.Ok? ==> r.value.id == reviewId && r.value in db.reviews
  {
    if s.userId.None? || s.role != Some(OwnerRole) then Err(DetailForbidden)
    else match ReviewIndex(db.reviews, reviewId)
      case None => Err(DetailNotFound)
      case Some(ri) =>
        match LocationIndex(db.locations, db.reviews[ri].location)
        case None => Err(DetailNotOwner)
        case Some(li) =>
          if db.locations[li].owner != s.userId.value then Err(DetailNotOwner) else Ok(db.reviews[ri])
  }

  /** An owner sees a review's detail exactly when the review's location is theirs. */
  lemma OwnerReviewDetailIff(db: Db, s: Session, reviewId: Id, ri: nat)
    requires s.userId.Some? && s.role == Some(OwnerRole)
    requires ri < |db.reviews| && db.reviews[ri].id == reviewId
    requires forall k :: 0 <= k < ri ==> db.reviews[k].id != reviewId
    ensures OwnerReviewDetail(db, s, reviewId).Ok? <==>
      exists li :: 0 <= li < |db.locations| && db.locations[li].id == db.reviews[ri].location &&
        (forall k :: 0 <= k < li ==> db.locations[k].id != db.reviews[ri].location) &&
        db.locations[li].owner == s.userId.value
  {
    assert ReviewIndex(db.reviews, reviewId) == Some(ri);
  }

  /** What `review.location?.owner` holds after `findReviewWithRelations`, which
      populates the location's owner with its user name: the owner's user document,
      `null` when that user is gone, or `undefined` when the location is gone. */
  datatype PopulatedOwner = OwnerDocument(id: Id, username: string) | OwnerGone | LocationGone

  function Populated(db: Db, rev: Review): (p: PopulatedOwner)
    ensures p.LocationGone? <==> LocationIndex(db.locations, rev.location).None?
    ensures p.OwnerDocument? ==> p.id == db.locations[LocationIndex(db.locations, rev.location).value].owner
  {
    match LocationIndex(db.locations, rev.location)
    case None => LocationGone
    case Some(li) =>
      match UserIndex(db.users, db.locations[li].owner)
      case None => OwnerGone
      case Some(ui) => OwnerDocument(db.locations[li].owner, db.users[ui].username)
  }

  /** `String(...)` of it: a document prints as an object literal, `{` followed by the
      `inspected` rest, which the model leaves open; the other two print as their
      names. None of them starts with a hex digit. */
  function PrintedOwner(p: PopulatedOwner, inspected: string): (t: string)
    ensures |t| > 0 && !ObjectIds.IsLowerHexDigit(t[0])
  {
    match p
    case OwnerDocument(_, _) => "{" + inspected
    case OwnerGone => "null"
    case LocationGone => "undefined"
  }

  /** `ownerGetReviewDetail` as written: the printed populated owner is compared with
      `self`, the printed session id. The comparison never holds, so no request is
      answered with the detail. */
  function OwnerReviewDetailAsWritten(db: Db, s: Session, reviewId: Id, self: string, inspected: string)
    : (r: Result<Review, DetailError>)
    requires ObjectIds.IsPrinted(self)
    ensures r.Err?
    ensures r == Err(DetailForbidden) <==> s.userId.None? || s.role != Some(OwnerRole)
  {
    if s.userId.None? || s.role != Some(OwnerRole) then Err(DetailForbidden)
    else match ReviewIndex(db.reviews, reviewId)
      case None => Err(DetailNotFound)
      case Some(ri) =>
        var rev := db.reviews[ri];
        var t := PrintedOwner(Populated(db, rev), inspected);
        assert ObjectIds.IsLowerHexDigit(self[0]);
        if t != self then Err(DetailNotOwner) else Ok(rev)
  }

  /** An owner asking for a stored review of one of their own locations: the corrected
      handler shows it, the handler as written refuses it as not theirs. */
  lemma OwnReviewRefused(db: Db, s: Session, reviewId: Id, self: string, inspected: string)
    requires ObjectIds.IsPrinted(self)
    requires OwnerReviewDetail(db, s, reviewId).Ok?
    ensures OwnerReviewDetailAsWritten(db, s, reviewId, self, inspected) == Err(DetailNotOwner)
  {
  }
}

=== FILE: review_model.dfy ===
/** The review document: author, location, a 1 to 5 star rating, a comment and
    a list of media items. */
module ReviewModel {
  import opened Wrappers
  import opened Text

  const MinRating := 1
  const MaxRating := 5
  const MaxCommentLength := 500

  datatype MediaKind = Image | Video

  function MediaKindName(k: MediaKind): string {
    match k
    case Image => "image"
    case Video => "video"
  }

  datatype Media = Media(kind: MediaKind, url: string, filename: string, mimetype: string, size: int)

  datatype Review = Review(
    id: Id,
    user: Id,
    location: Id,
    rating: int,
    comment: string,
    media: seq<Media>,
    createdAt: Time)

  /** The validators that run on save; `user` and `location` are ids in the model,
      so they are always present. */
  predicate SchemaValid(r: Review) {
    MinRating <= r.rating <= MaxRating &&
    |r.comment| <= MaxCommentLength &&
    forall i :: 0 <= i < |r.media| ==> |r.media[i].url| > 0
  }
}

=== FILE: store.dfy ===
/** The application's store as one object: the database the controllers read and
    write, with each request handler that changes it as a method. A method leaves the
    store exactly as the handler's transition says, and keeps the invariants the
    transition is proved to keep. */
module Store {
  import opened Wrappers
  import opened VoucherModel
  import opened UserModel
  import opened LocationModel
  import opened ReviewModel
  import opened Database
  import opened Auth
  import VoucherController
  import UserController
  import ReviewController
  import LocationController
  import Admin

  class Store {
    var db: Db

    constructor (initial: Db)
      ensures db == initial
    {
      db := initial;
    }

    /** `claimVoucher`, step by step as the handler does it: the checks in order, then
        the record pushed onto the user's claims and the voucher's count raised by one.
        A store whose vouchers are within their caps stays so. */
    method Claim(s: Session, voucherId: Id, now: Time) returns (outcome: Result<ClaimRecord, VoucherController.ClaimError>)
      modifies this
      ensures var r := VoucherController.Claim(old(db), s, voucherId, now); db == r.db && outcome == r.outcome
      ensures old(AllWithinCap(db.vouchers)) ==> AllWithinCap(db.vouchers)
    {
      if AllWithinCap(db.vouchers) {
        VoucherController.ClaimPreservesCap(db, s, voucherId, now);
      }
      if s.role != Some(UserRole) {
        return Err(VoucherController.NotUserRole);
      }
      if s.userId.None? {
        return Err(VoucherController.NotLoggedIn);
      }
      var ui := UserIndex(db.users, s.userId.value);
      var vi := VoucherIndex(db.vouchers, voucherId);
      if ui.None? {
        return Err(VoucherController.UserNotFound);
      }
      if vi.None? {
        return Err(VoucherController.VoucherNotFound);
      }
      var user := db.users[ui.value];
      var voucher := db.vouchers[vi.value];
      if now < voucher.startDate || now > voucher.endDate {
        return Err(VoucherController.OutsideWindow);
      }
      if voucher.quantityClaimed >= voucher.quantityTotal {
        return Err(VoucherController.Exhausted);
      }
      if VoucherController.HasLiveClaim(user, voucherId, now) {
        return Err(VoucherController.AlreadyClaimed);
      }
      var li := LocationIndex(db.locations, voucher.location);
      if li.None? {
        return Err(VoucherController.ServerError);
      }
      var rec := VoucherController.NewClaimRecord(voucher, db.locations[li.value].name, now);
      user := user.(claimedVouchers := user.claimedVouchers + [rec]);
      voucher := voucher.(quantityClaimed := voucher.quantityClaimed + 1);
      db := db.(users := db.users[ui.value := PreSave(user)]);
      db := db.(vouchers := db.vouchers[vi.value := voucher]);
      return Ok(rec);
    }

    /** `getProfile`: the expired claims of the signed-in user are swept and saved. */
    method GetProfile(s: Session, now: Time) returns (outcome: Result<UserController.ProfileView, UserController.ProfileError>)
      modifies this
      ensures var r := UserController.GetProfile(old(db), s, now); db == r.db && outcome == r.outcome
    {
      var r := UserController.GetProfile(db, s, now);
      db := r.db;
      outcome := r.outcome;
    }

    /** `register`: a new account unless a field is taken; e-mails and user names stay
        unique. */
    method Register(f: UserController.RegisterForm, hash: string -> string, now: Time) returns (outcome: Result<Id, UserController.RegisterError>)
      modifies this
      ensures var r := UserController.Register(old(db), f, hash, now); db == r.db && outcome == r.outcome
      ensures old(UserController.EmailsUnique(db.users) && UserController.UsernamesUnique(db.users)) ==>
        UserController.EmailsUnique(db.users) && UserController.UsernamesUnique(db.users)
    {
      if UserController.EmailsUnique(db.users) && UserController.UsernamesUnique(db.users) {
        UserController.RegisterKeepsAccountsUnique(db, f, hash, now);
      }
      var r := UserController.Register(db, f, hash, now);
      db := r.db;
      outcome := r.outcome;
    }

    /** `createVoucher`: voucher codes stay unique and every voucher within its cap. */
    method CreateVoucher(s: Session, input: VoucherController.VoucherInput, now: Time) returns (outcome: Result<Id, VoucherController.WriteError>)
      modifies this
      ensures var r := VoucherController.CreateVoucher(old(db), s, input, now); db == r.db && outcome == r.outcome
      ensures old(CodesUnique(db.vouchers)) ==> CodesUnique(db.vouchers)
      ensures old(AllWithinCap(db.vouchers)) ==> AllWithinCap(db.vouchers)
    {
      if CodesUnique(db.vouchers) {
        VoucherController.CreateVoucherKeepsCodesUnique(db, s, input, now);
      }
      if AllWithinCap(db.vouchers) {
        VoucherController.CreateVoucherKeepsCap(db, s, input, now);
      }
      var r := VoucherController.CreateVoucher(db, s, input, now);
      db := r.db;
      outcome := r.outcome;
    }

    /** `updateVoucher`: no cap is kept, since the new total is not checked against the
        claims. */
    method UpdateVoucher(s: Session, id: Id, edit: VoucherController.VoucherEdit) returns (outcome: Result<Id, VoucherController.WriteError>)
      modifies this
      ensures var r := VoucherController.UpdateVoucher(old(db), s, id, edit); db == r.db && outcome == r.outcome
    {
      var r := VoucherController.UpdateVoucher(db, s, id, edit);
      db := r.db;
      outcome := r.outcome;
    }

    /** `deleteVoucher`. */
    method DeleteVoucher(s: Session, id: Id) returns (outcome: Result<Id, VoucherController.WriteError>)
      modifies this
      ensures var r := VoucherController.DeleteVoucher(old(db), s, id); db == r.db && outcome == r.outcome
    {
      var r := VoucherController.DeleteVoucher(db, s, id);
      db := r.db;
      outcome := r.outcome;
    }

    /** `createReview`: no user ever holds more than three reviews of one location. */
    method CreateReview(s: Session, locationId: Option<Id>, rating: string, comment: string,
                        files: seq<ReviewController.Upload>, now: Time) returns (outcome: Result<Id, ReviewController.ReviewError>)
      modifies this
      ensures var r := ReviewController.CreateReview(old(db), s, locationId, rating, comment, files, now);
        db == r.db && outcome == r.outcome
      ensures old(ReviewController.ReviewCapHolds(db.reviews)) ==> ReviewController.ReviewCapHolds(db.reviews)
    {
      if ReviewController.ReviewCapHolds(db.reviews) {
        ReviewController.CreateReviewKeepsCap(db, s, locationId, rating, comment, files, now);
      }
      var r := ReviewController.CreateReview(db, s, locationId, rating, comment, files, now);
      db := r.db;
      outcome := r.outcome;
    }

    /** `updateReview`: the cap on reviews per user and location is kept. */
    method UpdateReview(s: Session, reviewId: Id, edit: ReviewController.ReviewEdit) returns (outcome: Result<Id, ReviewController.ReviewError>)
      modifies this
      ensures var r := ReviewController.UpdateReview(old(db), s, reviewId, edit); db == r.db && outcome == r.outcome
      ensures old(ReviewController.ReviewCapHolds(db.reviews)) ==> ReviewController.ReviewCapHolds(db.reviews)
    {
      if ReviewController.ReviewCapHolds(db.reviews) {
        ReviewController.UpdateReviewKeepsCap(db, s, reviewId, edit);
      }
      var r := ReviewController.UpdateReview(db, s, reviewId, edit);
      db := r.db;
      outcome := r.outcome;
    }

    /** `deleteReview`. */
    method DeleteReview(s: Session, reviewId: Id) returns (outcome: Result<Id, ReviewController.ReviewError>)
      modifies this
      ensures var r := ReviewController.DeleteReview(old(db), s, reviewId); db == r.db && outcome == r.outcome
    {
      var r := ReviewController.DeleteReview(db, s, reviewId);
      db := r.db;
      outcome := r.outcome;
    }

    /** `createLocation`. */
    method CreateLocation(s: Session, f: LocationController.LocationForm, now: Time) returns (outcome: Result<Id, LocationController.LocationError>)
      modifies this
      ensures var r := LocationController.CreateLocation(old(db), s, f, now); db == r.db && outcome == r.outcome
    {
      var r := LocationController.CreateLocation(db, s, f, now);
      db := r.db;
      outcome := r.outcome;
    }

    /** `updateLocation`. */
    method UpdateLocation(s: Session, id: Id, f: LocationController.LocationForm) returns (outcome: Result<Id, LocationController.LocationError>)
      modifies this
      ensures var r := LocationController.UpdateLocation(old(db), s, id, f); db == r.db && outcome == r.outcome
    {
      var r := LocationController.UpdateLocation(db, s, id, f);
      db := r.db;
      outcome := r.outcome;
    }

    /** `deleteLocation`, with its vouchers and reviews. */
    method DeleteLocation(s: Session, id: Id) returns (outcome: Result<Id, LocationController.LocationError>)
      modifies this
      ensures var r := LocationController.DeleteLocation(old(db), s, id); db == r.db && outcome == r.outcome
    {
      var r := LocationController.DeleteLocation(db, s, id);
      db := r.db;
      outcome := r.outcome;
    }

    /** The admin role update. */
    method UpdateRole(json: bool, id: Id, role: string) returns (reply: Admin.Reply)
      modifies this
      ensures var r := Admin.UpdateRole(old(db), json, id, role); db == r.db && reply == r.reply
    {
      var r := Admin.UpdateRole(db, json, id, role);
      db := r.db;
      reply := r.reply;
    }

    /** The admin user deletion, with the user's locations and reviews; the signed-in
        admin is never removed. */
    method DeleteUser(json: bool, self: Id, id: Id) returns (reply: Admin.Reply)
      modifies this
      ensures var r := Admin.DeleteUser(old(db), json, self, id); db == r.db && reply == r.reply
    {
      var r := Admin.DeleteUser(db, json, self, id);
      db := r.db;
      reply := r.reply;
    }
  }
}

=== FILE: text.dfy ===
/** String primitives of JavaScript that the source relies on: `trim`,
    ASCII `toUpperCase`/`toLowerCase`, `startsWith`, `includes`, `repeat`,
    `parseInt` and the decimal rendering of a number.
    A `char` stands for one character of a JavaScript string. */
module Text {
  import opened Wrappers

  /** ECMAScript WhiteSpace or LineTerminator: the characters `trim` removes
      and `\s` matches. */
  predicate IsWhite(c: char) {
    var n := c as int;
    n == 0x09 || n == 0x0A || n == 0x0B || n == 0x0C || n == 0x0D || n == 0x20 ||
    n == 0xA0 || n == 0x1680 || (0x2000 <= n <= 0x200A) || n == 0x2028 || n == 0x2029 ||
    n == 0x202F || n == 0x205F || n == 0x3000 || n == 0xFEFF
  }

  predicate IsDigit(c: char) { '0' <= c <= '9' }

  predicate IsHexDigit(c: char) { IsDigit(c) || 'a' <= c <= 'f' || 'A' <= c <= 'F' }

  predicate IsAsciiLetter(c: char) { 'a' <= c <= 'z' || 'A' <= c <= 'Z' }

  /** The class `\w` of a JavaScript regular expression. */
  predicate IsWordChar(c: char) { IsAsciiLetter(c) || IsDigit(c) || c == '_' }

  predicate AllDigits(s: string) { forall i :: 0 <= i < |s| ==> IsDigit(s[i]) }

  predicate AllWhite(s: string) { forall i :: 0 <= i < |s| ==> IsWhite(s[i]) }

  /** The number of whitespace characters `s` starts with. */
  function LeadingWhite(s: string): (n: nat)
    ensures n <= |s|
    ensures forall i :: 0 <= i < n ==> IsWhite(s[i])
    ensures n < |s| ==> !IsWhite(s[n])
  {
    if |s| > 0 && IsWhite(s[0]) then 1 + LeadingWhite(s[1..]) else 0
  }

  /** The number of whitespace characters `s` ends with. */
  function TrailingWhite(s: string): (n: nat)
    ensures n <= |s|
    ensures forall i :: |s| - n <= i < |s| ==> IsWhite(s[i])
    ensures n < |s| ==> !IsWhite(s[|s| - n - 1])
  {
    if |s| > 0 && IsWhite(s[|s| - 1]) then 1 + TrailingWhite(s[..|s| - 1]) else 0
  }

  function TrimStart(s: string): (r: string)
    ensures |r| <= |s|
    ensures r == [] || !IsWhite(r[0])
  {
    s[LeadingWhite(s)..]
  }

  function TrimEnd(s: string): (r: string)
    ensures |r| <= |s|
    ensures r == [] || !IsWhite(r[|r| - 1])
  {
    s[..|s| - TrailingWhite(s)]
  }

  /** JavaScript's `String.prototype.trim`. */
  function Trim(s: string): (r: string)
    ensures |r| <= |s|
    ensures r == [] || (!IsWhite(r[0]) && !IsWhite(r[|r| - 1]))
  {
    TrimEnd(TrimStart(s))
  }

  lemma TrimmedIsFixed(s: string)
    requires s == [] || (!IsWhite(s[0]) && !IsWhite(s[|s| - 1]))
    ensures Trim(s) == s
  {
  }

  /** Trimming twice is trimming once. */
  lemma TrimIdempotent(s: string)
    ensures Trim(Trim(s)) == Trim(s)
  {
    TrimmedIsFixed(Trim(s));
  }

  lemma TrimStartEmptyIff(s: string)
    ensures TrimStart(s) == [] <==> AllWhite(s)
  {
  }

  /** Trim yields the empty string exactly on whitespace-only input. */
  lemma {:induction false} TrimEmptyIff(s: string)
    ensures Trim(s) == [] <==> AllWhite(s)
  {
    var a := TrimStart(s);
    TrimStartEmptyIff(s);
  }

  function UpperChar(c: char): char {
    if 'a' <= c <= 'z' then (c as int - 32) as char else c
  }

  function LowerChar(c: char): char {
    if 'A' <= c <= 'Z' then (c as int + 32) as char else c
  }

  /** `toUpperCase`, on the ASCII letters. */
  function ToUpper(s: string): (r: string)
    ensures |r| == |s|
    ensures forall i :: 0 <= i < |s| ==> r[i] == UpperChar(s[i])
  {
    if |s| == 0 then [] else [UpperChar(s[0])] + ToUpper(s[1..])
  }

  /** `toLowerCase`, on the ASCII letters. */
  function ToLower(s: string): (r: string)
    ensures |r| == |s|
    ensures forall i :: 0 <= i < |s| ==> r[i] == LowerChar(s[i])
  {
    if |s| == 0 then [] else [LowerChar(s[0])] + ToLower(s[1..])
  }

  lemma ToUpperIdempotent(s: string)
    ensures ToUpper(ToUpper(s)) == ToUpper(s)
  {
  }

  lemma ToLowerIdempotent(s: string)
    ensures ToLower(ToLower(s)) == ToLower(s)
  {
  }

  /** Case mapping changes no whitespace, so it commutes with trimming: the order in
      which a schema applies its `trim` and `uppercase` setters does not matter. */
  lemma {:induction false} TrimToUpperCommute(s: string)
    ensures Trim(ToUpper(s)) == ToUpper(Trim(s))
  {
    TrimStartUpper(s);
    TrimEndUpper(TrimStart(s));
  }

  lemma CaseKeepsWhite(c: char)
    ensures IsWhite(UpperChar(c)) <==> IsWhite(c)
    ensures IsWhite(LowerChar(c)) <==> IsWhite(c)
  {
  }

  lemma {:induction false} LeadingWhiteUpper(s: string)
    ensures LeadingWhite(ToUpper(s)) == LeadingWhite(s)
  {
    if |s| > 0 {
      assert ToUpper(s)[1..] == ToUpper(s[1..]);
      CaseKeepsWhite(s[0]);
      LeadingWhiteUpper(s[1..]);
    }
  }

  lemma {:induction false} TrailingWhiteUpper(s: string)
    ensures TrailingWhite(ToUpper(s)) == TrailingWhite(s)
  {
    if |s| > 0 {
      assert ToUpper(s)[..|s| - 1] == ToUpper(s[..|s| - 1]);
      CaseKeepsWhite(s[|s| - 1]);
      TrailingWhiteUpper(s[..|s| - 1]);
    }
  }

  lemma TrimStartUpper(s: string)
    ensures TrimStart(ToUpper(s)) == ToUpper(TrimStart(s))
  {
    LeadingWhiteUpper(s);
    var n := LeadingWhite(s);
    assert ToUpper(s)[n..] == ToUpper(s[n..]);
  }

  lemma TrimEndUpper(s: string)
    ensures TrimEnd(ToUpper(s)) == ToUpper(TrimEnd(s))
  {
    TrailingWhiteUpper(s);
    var n := |s| - TrailingWhite(s);
    var u := ToUpper(s);
    assert TrimEnd(u) == u[..n];
    assert forall i :: 0 <= i < n ==> u[..n][i] == ToUpper(s[..n])[i];
  }

  lemma {:induction false} TrimLowerCommute(s: string)
    ensures Trim(ToLower(s)) == ToLower(Trim(s))
  {
    TrimStartLower(s);
    TrimEndLower(TrimStart(s));
  }

  lemma {:induction false} LeadingWhiteLower(s: string)
    ensures LeadingWhite(ToLower(s)) == LeadingWhite(s)
  {
    if |s| > 0 {
      assert ToLower(s)[1..] == ToLower(s[1..]);
      CaseKeepsWhite(s[0]);
      LeadingWhiteLower(s[1..]);
    }
  }

  lemma {:induction false} TrailingWhiteLower(s: string)
    ensures TrailingWhite(ToLower(s)) == TrailingWhite(s)
  {
    if |s| > 0 {
      assert ToLower(s)[..|s| - 1] == ToLower(s[..|s| - 1]);
      CaseKeepsWhite(s[|s| - 1]);
      TrailingWhiteLower(s[..|s| - 1]);
    }
  }

  lemma TrimStartLower(s: string)
    ensures TrimStart(ToLower(s)) == ToLower(TrimStart(s))
  {
    LeadingWhiteLower(s);
    var n := LeadingWhite(s);
    assert ToLower(s)[n..] == ToLower(s[n..]);
  }

  lemma TrimEndLower(s: string)
    ensures TrimEnd(ToLower(s)) == ToLower(TrimEnd(s))
  {
    TrailingWhiteLower(s);
    var n := |s| - TrailingWhite(s);
    var u := ToLower(s);
    assert TrimEnd(u) == u[..n];
    assert forall i :: 0 <= i < n ==> u[..n][i] == ToLower(s[..n])[i];
  }

  /** `s.replace(/c/g, d)` for a single character `c`. */
  function ReplaceChar(s: string, c: char, d: char): (r: string)
    ensures |r| == |s|
    ensures forall i :: 0 <= i < |s| ==> r[i] == (if s[i] == c then d else s[i])
  {
    if |s| == 0 then [] else [if s[0] == c then d else s[0]] + ReplaceChar(s[1..], c, d)
  }

  predicate StartsWith(s: string, prefix: string) {
    |prefix| <= |s| && s[..|prefix|] == prefix
  }

  /** `t` occurs in `s` starting at index `i`. */
  predicate OccursAt(s: string, t: string, i: int) {
    0 <= i <= |s| - |t| && s[i..i + |t|] == t
  }

  /** An occurrence past the first position is an occurrence in the tail. */
  lemma OccursInTail(s: string, t: string, i: int)
    requires |s| > 0 && i > 0
    ensures OccursAt(s, t, i) <==> OccursAt(s[1..], t, i - 1)
  {
    if 0 < i <= |s| - |t| {
      assert s[1..][i - 1..i - 1 + |t|] == s[i..i + |t|];
    }
  }

  /** `String.prototype.includes`, by scanning every start position. */
  function Contains(s: string, t: string): (b: bool)
    ensures b <==> exists i :: OccursAt(s, t, i)
    decreases |s|
  {
    if StartsWith(s, t) then
      assert OccursAt(s, t, 0);
      true
    else if |s| <= |t| then
      assert forall i :: OccursAt(s, t, i) ==> i == 0;
      false
    else
      var rest := Contains(s[1..], t);
      assert rest ==> exists i :: OccursAt(s, t, i) by {
        if rest {
          var j :| OccursAt(s[1..], t, j);
          OccursInTail(s, t, j + 1);
        }
      }
      assert (exists i :: OccursAt(s, t, i)) ==> rest by {
        if exists i :: OccursAt(s, t, i) {
          var i :| OccursAt(s, t, i);
          if i > 0 {
            OccursInTail(s, t, i);
          }
        }
      }
      rest
  }

  /** `c.repeat(n)` for a one-character string `c`. */
  function RepeatChar(c: char, n: nat): (r: string)
    ensures |r| == n
    ensures forall i :: 0 <= i < n ==> r[i] == c
  {
    if n == 0 then [] else [c] + RepeatChar(c, n - 1)
  }

  function DigitChar(d: nat): char
    requires d < 10
  {
    ('0' as int + d) as char
  }

  /** `String(n)` for a non-negative integer: its decimal digits, most significant first. */
  function NatToString(n: nat): (r: string)
    ensures |r| > 0 && AllDigits(r)
    ensures |r| > 1 ==> r[0] != '0'
  {
    if n < 10 then [DigitChar(n)] else NatToString(n / 10) + [DigitChar(n % 10)]
  }

  function DigitValue(c: char): nat
    requires IsHexDigit(c)
  {
    if IsDigit(c) then c as int - '0' as int
    else if 'a' <= c <= 'f' then c as int - 'a' as int + 10
    else c as int - 'A' as int + 10
  }

  predicate IsRadixDigit(c: char, radix: nat) {
    IsHexDigit(c) && DigitValue(c) < radix
  }

  predicate AllRadixDigits(s: string, radix: nat) {
    forall i :: 0 <= i < |s| ==> IsRadixDigit(s[i], radix)
  }

  /** The length of the longest prefix of `s` made of digits of `radix`. */
  function RadixDigitRun(s: string, radix: nat): (n: nat)
    ensures n <= |s|
    ensures forall i :: 0 <= i < n ==> IsRadixDigit(s[i], radix)
    ensures n < |s| ==> !IsRadixDigit(s[n], radix)
  {
    if |s| > 0 && IsRadixDigit(s[0], radix) then 1 + RadixDigitRun(s[1..], radix) else 0
  }

  lemma InitRadixDigits(s: string, radix: nat)
    requires |s| > 0 && AllRadixDigits(s, radix)
    ensures AllRadixDigits(s[..|s| - 1], radix)
    ensures IsRadixDigit(s[|s| - 1], radix)
  {
  }

  lemma MulNonneg(a: nat, b: nat)
    ensures a * b >= 0
  {
  }

  /** The value of a digit string in the given radix. */
  function RadixValue(s: string, radix: nat): nat
    requires AllRadixDigits(s, radix)
  {
    if |s| == 0 then 0 else
      InitRadixDigits(s, radix);
      var high := RadixValue(s[..|s| - 1], radix);
      MulNonneg(high, radix);
      high * radix + DigitValue(s[|s| - 1])
  }

  /** The longest run of `radix` digits at the start of `b`, converted; `None`
      when there is none. */
  function ParseDigits(b: string, radix: nat): (r: Option<nat>)
    ensures r.None? <==> (|b| == 0 || !IsRadixDigit(b[0], radix))
  {
    var n := RadixDigitRun(b, radix);
    if n == 0 then None else Some(RadixValue(b[..n], radix))
  }

  /** The digits after the sign: a `0x`/`0X` prefix selects radix 16, otherwise radix 10. */
  function ParseUnsigned(u: string): Option<nat> {
    if |u| >= 2 && u[0] == '0' && (u[1] == 'x' || u[1] == 'X') then ParseDigits(u[2..], 16)
    else ParseDigits(u, 10)
  }

  /** JavaScript's `parseInt(s)` without a radix: leading whitespace is skipped, an
      optional sign is read, a `0x`/`0X` prefix selects radix 16, and the longest run of
      digits that follows is converted. `None` stands for `NaN` (no digit at all). */
  function ParseInt(s: string): Option<int> {
    var t := TrimStart(s);
    if |t| > 0 && (t[0] == '-' || t[0] == '+') then
      match ParseUnsigned(t[1..])
      case None => None
      case Some(v) => Some(if t[0] == '-' then -(v as int) else v as int)
    else
      match ParseUnsigned(t)
      case None => None
      case Some(v) => Some(v as int)
  }

  lemma {:induction false} NatToStringValue(n: nat)
    ensures AllRadixDigits(NatToString(n), 10)
    ensures RadixValue(NatToString(n), 10) == n
  {
    var r := NatToString(n);
    if n >= 10 {
      NatToStringValue(n / 10);
      assert r[..|r| - 1] == NatToString(n / 10);
    }
  }

  lemma {:induction false} WholeRun(b: string, radix: nat)
    requires AllRadixDigits(b, radix)
    ensures RadixDigitRun(b, radix) == |b|
  {
    if |b| > 0 {
      WholeRun(b[1..], radix);
    }
  }

  lemma DigitIsNotWhite(c: char)
    requires IsDigit(c)
    ensures !IsWhite(c) && c != '-' && c != '+' && c != 'x' && c != 'X'
  {
  }

  /** `parseInt` reads back the decimal rendering of every non-negative integer. */
  lemma ParseIntNatToString(n: nat)
    ensures ParseInt(NatToString(n)) == Some(n)
  {
    var s := NatToString(n);
    NatToStringValue(n);
    DigitIsNotWhite(s[0]);
    assert LeadingWhite(s) == 0;
    assert TrimStart(s) == s;
    if |s| >= 2 {
      DigitIsNotWhite(s[1]);
    }
    assert ParseUnsigned(s) == ParseDigits(s, 10);
    WholeRun(s, 10);
    assert s[..|s|] == s;
  }
}

=== FILE: upload.dfy ===
/** The review upload middleware: where a file is stored, the name it is stored under,
    which files are accepted, and the limits. */
module UploadMiddleware {
  import opened Wrappers
  import opened Text
  import ReviewModel
  import ReviewController

  /** The characters `sanitizeFilename` keeps: `[a-zA-Z0-9-_]`. */
  predicate SafeChar(c: char) { IsAsciiLetter(c) || IsDigit(c) || c == '-' || c == '_' }

  /** `sanitizeFilename`: every other character becomes `_`. */
  function SanitizeFilename(s: string): (r: string)
    ensures |r| == |s|
    ensures forall i :: 0 <= i < |s| ==> r[i] == (if SafeChar(s[i]) then s[i] else '_')
  {
    if |s| == 0 then [] else [if SafeChar(s[0]) then s[0] else '_'] + SanitizeFilename(s[1..])
  }

  /** A sanitized name holds only safe characters, and sanitizing it again changes
      nothing. */
  lemma SanitizeIsSafeAndIdempotent(s: string)
    ensures forall i :: 0 <= i < |SanitizeFilename(s)| ==> SafeChar(SanitizeFilename(s)[i])
    ensures SanitizeFilename(SanitizeFilename(s)) == SanitizeFilename(s)
  {
  }

  /** A name made only of safe characters is kept as it is. */
  lemma SanitizeKeepsSafe(s: string)
    requires forall i :: 0 <= i < |s| ==> SafeChar(s[i])
    ensures SanitizeFilename(s) == s
  {
  }

  /** The index of the last `.` in `s`, if any. */
  function LastDot(s: string): (r: Option<nat>)
    ensures r.Some? ==> r.value < |s| && s[r.value] == '.'
    ensures r.Some? ==> forall k :: r.value < k < |s| ==> s[k] != '.'
    ensures r.None? ==> forall k :: 0 <= k < |s| ==> s[k] != '.'
  {
    if |s| == 0 then None
    else if s[|s| - 1] == '.' then Some(|s| - 1)
    else LastDot(s[..|s| - 1])
  }

  /** `path.extname` of a name without `/`: from the last `.` to the end, except when that
      dot is the name's first character or the name is `..`. */
  function ExtName(name: string): (r: string)
    ensures r == [] || (r[0] == '.' && forall k :: 1 <= k < |r| ==> r[k] != '.')
    ensures |r| <= |name| && r == name[|name| - |r|..]
    ensures r != [] ==> |r| < |name|
  {
    match LastDot(name)
    case None => ""
    case Some(d) => if d == 0 || name == ".." then "" else name[d..]
  }

  /** `path.basename(name, ext)` of a name without `/`: the name without the extension. */
  function BaseName(name: string, ext: string): string
    requires |ext| <= |name|
  {
    if ext != [] && name[|name| - |ext|..] == ext && ext != name then name[..|name| - |ext|] else name
  }

  /** Splitting a name into its base and its extension loses nothing, and the base is
      never empty when there is an extension. */
  lemma BaseAndExtension(name: string)
    ensures BaseName(name, ExtName(name)) + ExtName(name) == name
    ensures ExtName(name) != [] ==> BaseName(name, ExtName(name)) != []
  {
    var ext := ExtName(name);
    if ext != [] {
      assert name[..|name| - |ext|] + name[|name| - |ext|..] == name;
    }
  }

  /** The suffix that makes a stored name unique: the time in milliseconds and a random
      number, both given. */
  function UniqueSuffix(nowMillis: nat, random: nat): string {
    NatToString(nowMillis) + "-" + NatToString(random)
  }

  /** The sanitized base, or `media` when nothing is left of it. */
  function StoredBase(originalName: string): (r: string)
    ensures r != [] && forall i :: 0 <= i < |r| ==> SafeChar(r[i])
  {
    var s := SanitizeFilename(BaseName(originalName, ExtName(originalName)));
    if s == "" then "media" else s
  }

  /** The `filename` callback: the stored base, `-`, the unique suffix, and the extension
      in lower case. */
  function StoredFilename(originalName: string, suffix: string): (r: string)
    ensures var ext := ToLower(ExtName(originalName));
      |r| >= |ext| + 1 && r[|r| - |ext|..] == ext
  {
    StoredBase(originalName) + "-" + suffix + ToLower(ExtName(originalName))
  }

  /** The stored name starts with characters `sanitizeFilename` allows, then `-` and the
      suffix; the extension keeps its letters, in lower case. */
  lemma StoredFilenameShape(originalName: string, suffix: string)
    ensures var r := StoredFilename(originalName, suffix); var b := StoredBase(originalName);
      r[..|b|] == b && r[|b|] == '-' && r[|b| + 1..|b| + 1 + |suffix|] == suffix &&
      r[|b| + 1 + |suffix|..] == ToLower(ExtName(originalName))
    ensures StoredBase(originalName) == "media" <==> var s := SanitizeFilename(BaseName(originalName, ExtName(originalName))); s == "" || s == "media"
  {
  }

  /** `mediaFileFilter`: images and videos only. */
  predicate AcceptsMedia(mimetype: string) {
    StartsWith(mimetype, "image/") || StartsWith(mimetype, "video/")
  }

  /** An accepted file that is not a video is stored as an image because its type is an
      image type. */
  lemma AcceptedKinds(file: ReviewController.Upload, userId: Id)
    requires AcceptsMedia(file.mimetype)
    ensures ReviewController.BuildMediaPayload(file, userId).kind == ReviewModel.Image ==> StartsWith(file.mimetype, "image/")
    ensures ReviewController.BuildMediaPayload(file, userId).kind == ReviewModel.Video ==> StartsWith(file.mimetype, "video/")
  {
  }

  const UploadRoot := "uploads/reviews/"

  /** The `destination` callback, relative to the application directory: a directory per
      user, or `anonymous` without a signed-in user. */
  function Destination(userId: Option<Id>): (dir: string)
    ensures |dir| > |UploadRoot| && dir[..|UploadRoot|] == UploadRoot
    ensures forall i :: |UploadRoot| <= i < |dir| ==> dir[i] != '/' && dir[i] != '\\'
    ensures userId.None? <==> dir[|UploadRoot|..] == "anonymous"
  {
    var leaf := if userId.Some? then NatToString(userId.value) else "anonymous";
    assert userId.Some? ==> IsDigit(leaf[0]);
    UploadRoot + leaf
  }

  /** Two signed-in users never share an upload directory. */
  lemma DestinationPerUser(a: Id, b: Id)
    ensures Destination(Some(a)) == Destination(Some(b)) <==> a == b
  {
    if Destination(Some(a)) == Destination(Some(b)) {
      assert NatToString(a) == Destination(Some(a))[|UploadRoot|..];
      assert NatToString(b) == Destination(Some(b))[|UploadRoot|..];
      ParseIntNatToString(a);
      ParseIntNatToString(b);
    }
  }

  /** A file stored for a signed-in user is served from the directory the middleware
      wrote it to: the media url is that directory, `/`, and the stored name. */
  lemma MediaUrlMatchesDestination(file: ReviewController.Upload, userId: Id)
    requires forall i :: 0 <= i < |file.filename| ==> file.filename[i] != '\\'
    ensures ReviewController.BuildMediaPayload(file, userId).url == "/" + Destination(Some(userId)) + "/" + file.filename
  {
    var d := NatToString(userId);
    var f := file.filename;
    assert ReplaceChar(f, '\\', '/') == f;
    assert Destination(Some(userId)) == "uploads/reviews/" + d;
    assert "/" + "uploads/reviews/" == "/uploads/reviews/";
    assert "/" + ("uploads/reviews/" + d) == "/uploads/reviews/" + d;
  }

  /** The largest file accepted, in bytes, and the most files per request. */
  const MaxFileSize := 15 * 1024 * 1024
  const MaxFiles := 5

  datatype UploadError = TooManyFiles | NotMedia(index: nat) | TooLarge(index: nat)

  /** One file of a request, as the middleware sees it before storing it. */
  datatype Incoming = Incoming(originalName: string, mimetype: string, size: nat)

  /** The checks made on each file in order of arrival, from `i` on: the sixth file is
      refused, then a file of another type, then one over the size limit. */
  function Screen(files: seq<Incoming>, i: nat): (r: Result<(), UploadError>)
    requires i <= |files|
    ensures r.Ok? <==> (forall k :: i <= k < |files| ==>
                          k < MaxFiles && AcceptsMedia(files[k].mimetype) && files[k].size <= MaxFileSize)
    ensures r.Ok? && i < |files| ==> |files| <= MaxFiles
    decreases |files| - i
  {
    if i == |files| then Ok(())
    else if i >= MaxFiles then
      assert files[i] in files;
      Err(TooManyFiles)
    else if !AcceptsMedia(files[i].mimetype) then Err(NotMedia(i))
    else if files[i].size > MaxFileSize then Err(TooLarge(i))
    else Screen(files, i + 1)
  }

  /** The stored files of an accepted request: each under the user's directory, with its
      stored name; `suffixes[k]` is the unique suffix drawn for file `k`. */
  function Accept(files: seq<Incoming>, userId: Option<Id>, suffixes: seq<string>): (r: Result<seq<(string, string)>, UploadError>)
    requires |suffixes| == |files|
    ensures r.Ok? <==> Screen(files, 0).Ok?
    ensures r.Ok? ==> |r.value| == |files| && |files| <= MaxFiles
    ensures r.Ok? ==> forall k :: 0 <= k < |files| ==>
      r.value[k] == (Destination(userId), StoredFilename(files[k].originalName, suffixes[k]))
  {
    match Screen(files, 0)
    case Err(e) => Err(e)
    case Ok(_) =>
      Ok(seq(|files|, k requires 0 <= k < |files| =>
                        (Destination(userId), StoredFilename(files[k].originalName, suffixes[k]))))
  }

  /** The first refused file decides the error: it is the first file past the limit or
      the first that fails a check. */
  lemma {:induction false} ScreenFindsFirstFailure(files: seq<Incoming>, i: nat)
    requires i <= |files| && Screen(files, i).Err?
    ensures var e := Screen(files, i).error;
      (e.TooManyFiles? ==> |files| > MaxFiles && forall k :: i <= k < MaxFiles ==> AcceptsMedia(files[k].mimetype) && files[k].size <= MaxFileSize) &&
      (e.NotMedia? ==> i <= e.index < |files| && e.index < MaxFiles && !AcceptsMedia(files[e.index].mimetype)) &&
      (e.TooLarge? ==> i <= e.index < |files| && e.index < MaxFiles && files[e.index].size > MaxFileSize) &&
      (e.NotMedia? || e.TooLarge? ==> forall k :: i <= k < e.index ==> AcceptsMedia(files[k].mimetype) && files[k].size <= MaxFileSize)
    decreases |files| - i
  {
    if i < |files| && i < MaxFiles && AcceptsMedia(files[i].mimetype) && files[i].size <= MaxFileSize {
      ScreenFindsFirstFailure(files, i + 1);
    }
  }
}

=== FILE: user_controller.dfy ===
/** Accounts: registration with its validation and duplicate check, login, the
    profile page with its sweep of expired claims, and the owner's profile page. */
module UserController {
  import opened Wrappers
  import opened Seqs
  import opened Text
  import opened UserModel
  import opened LocationModel
  import opened VoucherModel
  import opened ReviewModel
  import opened Database
  import opened Auth

  // ---------------------------------------------------------- registration

  datatype RegisterError =
    | PasswordMismatch
    | InvalidPhone
    | EmailTaken
    | UsernameTaken
    | PhoneTaken
    | InfoTaken
    | SaveFailed

  /** The role a registration asks for: `owner` or `user` as given, anything else `user`.
      An admin account cannot be registered. */
  function SelectRole(role: string): (r: Role)
    ensures r != AdminRole
    ensures r == OwnerRole <==> role == "owner"
  {
    if role == "user" || role == "owner" then ParseRole(role).value else UserRole
  }

  /** `validateRegistration`: the passwords must agree, then the phone number as typed
      must be 9 to 11 digits; otherwise the selected role. */
  function ValidateRegistration(password: string, confirmPassword: string, phone: string, role: string): (r: Result<Role, RegisterError>)
    ensures r == Err(PasswordMismatch) <==> password != confirmPassword
    ensures r == Err(InvalidPhone) <==> password == confirmPassword && !PhonePattern(phone)
    ensures r.Ok? <==> password == confirmPassword && PhonePattern(phone)
    ensures r.Ok? ==> r.value == SelectRole(role)
  {
    if password != confirmPassword then Err(PasswordMismatch)
    else if !PhonePattern(phone) then Err(InvalidPhone)
    else Ok(SelectRole(role))
  }

  /** The email as registration normalizes it (lower-cased, then trimmed). */
  function RegisterEmail(email: string): string {
    Trim(ToLower(email))
  }

  /** The email as login normalizes it (trimmed, then lower-cased). */
  function LoginEmail(email: string): string {
    ToLower(Trim(email))
  }

  /** Both orders give the same string, so an address registered in any spelling is
      found again at login. */
  lemma EmailNormalizationsAgree(email: string)
    ensures RegisterEmail(email) == LoginEmail(email)
  {
    TrimLowerCommute(email);
  }

  datatype RegisterForm = RegisterForm(
    username: string,
    email: string,
    password: string,
    confirmPassword: string,
    role: string,
    phone: string)

  /** The values the duplicate query searches for, after the schema's setters: the
      normalized email, the trimmed username, the trimmed phone number. */
  datatype Probe = Probe(email: string, username: string, phone: string)

  function ProbeOf(f: RegisterForm): Probe {
    Probe(RegisterEmail(f.email), Trim(f.username), Trim(f.phone))
  }

  /** The `$or` filter of the duplicate query. */
  predicate ConflictsWith(u: User, p: Probe) {
    u.email == p.email || u.username == p.username || u.phoneNumber == p.phone
  }

  function FirstConflict(users: seq<User>, p: Probe): (r: Option<nat>)
    ensures r.Some? ==> r.value < |users| && ConflictsWith(users[r.value], p)
    ensures r.None? ==> forall i :: 0 <= i < |users| ==> !ConflictsWith(users[i], p)
  {
    FirstIndex(users, (u: User) => ConflictsWith(u, p))
  }

  /** The message for the first conflicting account. Its fields are compared with the
      normalized email, the username as typed and the trimmed phone number. */
  function DuplicateMessage(u: User, p: Probe, typedUsername: string): (e: RegisterError)
    ensures e in {EmailTaken, UsernameTaken, PhoneTaken, InfoTaken}
    ensures e == EmailTaken <==> u.email == p.email
    ensures e == UsernameTaken <==> u.email != p.email && u.username == typedUsername
    ensures e == PhoneTaken <==> u.email != p.email && u.username != typedUsername && u.phoneNumber == p.phone
    ensures e == InfoTaken <==> u.email != p.email && u.username != typedUsername && u.phoneNumber != p.phone
  {
    if u.email == p.email then EmailTaken
    else if u.username == typedUsername then UsernameTaken
    else if u.phoneNumber == p.phone then PhoneTaken
    else InfoTaken
  }

  /** The document registration saves, if it passes the schema (which checks the
      password before the pre-save hook hashes it). */
  function BuildUser(id: Id, p: Probe, password: string, role: Role, hash: string -> string, now: Time): (r: Option<User>)
    ensures r.Some? ==> r.value == User(id, p.username, p.username, p.phone, p.email, hash(password), role, now, [])
  {
    if UserModel.SchemaValid(p.username, p.phone, p.email, password) then
      Some(User(id, p.username, p.username, p.phone, p.email, hash(password), role, now, []))
    else None
  }

  /** A saved account passes the schema: a 3 to 30 character username, a 9 to 11 digit
      phone, a well-formed email and a password of at least 6 characters. */
  lemma BuildUserValid(id: Id, p: Probe, password: string, role: Role, hash: string -> string, now: Time)
    requires BuildUser(id, p, password, role, hash, now).Some?
    ensures var u := BuildUser(id, p, password, role, hash, now).value;
      MinUsernameLength <= |u.username| <= MaxUsernameLength && PhonePattern(u.phoneNumber) &&
      EmailPattern(u.email) && |password| >= MinPasswordLength
  {
  }

  datatype RegisterResult = RegisterResult(db: Db, outcome: Result<Id, RegisterError>)

  /** `register`. The hash function stands for bcrypt. */
  function Register(db: Db, f: RegisterForm, hash: string -> string, now: Time): (r: RegisterResult)
    ensures r.outcome.Err? ==> r.db == db
  {
    match ValidateRegistration(f.password, f.confirmPassword, f.phone, f.role)
    case Err(e) => RegisterResult(db, Err(e))
    case Ok(role) =>
      var p := ProbeOf(f);
      match FirstConflict(db.users, p)
      case Some(i) => RegisterResult(db, Err(DuplicateMessage(db.users[i], p, f.username)))
      case None =>
        match BuildUser(db.nextId, p, f.password, role, hash, now)
        case None => RegisterResult(db, Err(SaveFailed))
        case Some(u) => RegisterResult(db.(users := db.users + [u], nextId := db.nextId + 1), Ok(u.id))
  }

  /** Where registration sends the browser: the login tab on success, the register tab
      with the message otherwise. */
  function RegisterRedirect(outcome: Result<Id, RegisterError>): (url: string)
    ensures url == "/auth?tab=login" <==> outcome.Ok?
  {
    if outcome.Ok? then "/auth?tab=login" else "/auth?tab=register"
  }

  /** A validated phone number is digits only, so trimming leaves it as typed. */
  lemma ValidPhoneIsTrimmed(phone: string)
    requires PhonePattern(phone)
    ensures Trim(phone) == phone
  {
    forall i | 0 <= i < |phone| ensures !IsWhite(phone[i]) { DigitIsNotWhite(phone[i]); }
    TrimmedIsFixed(phone);
  }

  /** A registration that succeeds appended one account whose email, username and phone
      number no earlier account used, with the selected non-admin role and the hashed
      password; nothing else changes. */
  lemma RegisterEffect(db: Db, f: RegisterForm, hash: string -> string, now: Time)
    requires Register(db, f, hash, now).outcome.Ok?
    ensures var r := Register(db, f, hash, now);
      var p := ProbeOf(f);
      var u := User(db.nextId, p.username, p.username, f.phone, p.email, hash(f.password), SelectRole(f.role), now, []);
      r.db.users == db.users + [u] && r.outcome.value == db.nextId && r.db.nextId == db.nextId + 1 &&
      u.role != AdminRole && f.password == f.confirmPassword &&
      (forall i :: 0 <= i < |db.users| ==> !ConflictsWith(db.users[i], p)) &&
      r.db.locations == db.locations && r.db.vouchers == db.vouchers && r.db.reviews == db.reviews
  {
    var r := Register(db, f, hash, now);
    assert ValidateRegistration(f.password, f.confirmPassword, f.phone, f.role) == Ok(SelectRole(f.role));
    var p := ProbeOf(f);
    assert FirstConflict(db.users, p).None?;
    var b := BuildUser(db.nextId, p, f.password, SelectRole(f.role), hash, now);
    assert b.Some?;
    assert r.db.users == db.users + [b.value];
    ValidPhoneIsTrimmed(f.phone);
  }

  predicate EmailsUnique(users: seq<User>) {
    forall i, j :: 0 <= i < j < |users| ==> users[i].email != users[j].email
  }

  predicate UsernamesUnique(users: seq<User>) {
    forall i, j :: 0 <= i < j < |users| ==> users[i].username != users[j].username
  }

  lemma AppendKeepsAccountsUnique(users: seq<User>, u: User)
    requires EmailsUnique(users) && UsernamesUnique(users)
    requires forall i :: 0 <= i < |users| ==> users[i].email != u.email && users[i].username != u.username
    ensures EmailsUnique(users + [u]) && UsernamesUnique(users + [u])
  {
    var us := users + [u];
    forall i, j | 0 <= i < j < |us| ensures us[i].email != us[j].email && us[i].username != us[j].username {
      if j == |users| {
        assert us[i] == users[i];
      }
    }
  }

  /** Registration keeps emails and usernames unique (the schema's unique indexes). */
  lemma RegisterKeepsAccountsUnique(db: Db, f: RegisterForm, hash: string -> string, now: Time)
    requires EmailsUnique(db.users) && UsernamesUnique(db.users)
    ensures var users := Register(db, f, hash, now).db.users;
      EmailsUnique(users) && UsernamesUnique(users)
  {
    if Register(db, f, hash, now).outcome.Ok? {
      RegisterEffect(db, f, hash, now);
      var p := ProbeOf(f);
      var u := User(db.nextId, p.username, p.username, f.phone, p.email, hash(f.password), SelectRole(f.role), now, []);
      assert Register(db, f, hash, now).db.users == db.users + [u];
      assert forall i :: 0 <= i < |db.users| ==> db.users[i].email != u.email && db.users[i].username != u.username;
      AppendKeepsAccountsUnique(db.users, u);
    }
  }

  /** A valid form whose normalized email, trimmed username or trimmed phone number is
      already in use is refused with one of the duplicate messages. */
  lemma RegisterRefusesTaken(db: Db, f: RegisterForm, hash: string -> string, now: Time, i: nat)
    requires f.password == f.confirmPassword && PhonePattern(f.phone)
    requires i < |db.users| && ConflictsWith(db.users[i], ProbeOf(f))
    ensures Register(db, f, hash, now).db == db
    ensures Register(db, f, hash, now).outcome.Err? &&
            Register(db, f, hash, now).outcome.error in {EmailTaken, UsernameTaken, PhoneTaken, InfoTaken}
  {
  }

  /** The duplicate query matches the trimmed username but the message compares the
      username as typed, so a taken name typed with a leading space gets the generic
      message. */
  lemma PaddedUsernameGetsGenericMessage()
    ensures Trim(" bob") == "bob"
    ensures var bob := User(1, "bob", "bob", "0123456789", "bob@mail.com", "h", UserRole, 0, []);
      var p := Probe("carol@mail.com", Trim(" bob"), "0987654321");
      FirstConflict([bob], p) == Some(0) && DuplicateMessage(bob, p, " bob") == InfoTaken
  {
    TrimSpaceBob();
    var bob := User(1, "bob", "bob", "0123456789", "bob@mail.com", "h", UserRole, 0, []);
    var p := Probe("carol@mail.com", "bob", "0987654321");
    assert ConflictsWith(bob, p);
  }

  lemma TrimSpaceBob()
    ensures Trim(" bob") == "bob"
  {
    assert " bob"[1..] == "bob";
    assert TrimStart("bob") == "bob";
  }

  // ------------------------------------------------------------------ login

  datatype LoginError = MissingCredentials | BadCredentials

  datatype LoginResult = LoginResult(session: Session, outcome: Result<string, LoginError>)

  function UserByEmail(users: seq<User>, email: string): (r: Option<nat>)
    ensures r.Some? ==> r.value < |users| && users[r.value].email == email
    ensures r.None? ==> forall i :: 0 <= i < |users| ==> users[i].email != email
  {
    FirstIndex(users, (u: User) => u.email == email)
  }

  /** `login`: both fields are required; the account is found by normalized email and
      the password checked against its hash (`check` stands for bcrypt's compare). On
      success the session records the id, role and username, and the browser goes to
      the role's landing page; on failure the session is untouched. */
  function Login(db: Db, s: Session, email: string, password: string, check: (string, string) -> bool): (r: LoginResult)
    ensures r.outcome.Err? ==> r.session == s
    ensures r.outcome.Ok? ==> r.session.userId.Some? && r.outcome.value == HomeFor(r.session.role)
    ensures r.outcome == Err(MissingCredentials) <==> email == "" || password == ""
  {
    if email == "" || password == "" then LoginResult(s, Err(MissingCredentials))
    else
      match UserByEmail(db.users, LoginEmail(email))
      case None => LoginResult(s, Err(BadCredentials))
      case Some(i) =>
        var u := db.users[i];
        if !check(u.password, password) then LoginResult(s, Err(BadCredentials))
        else LoginResult(Session(Some(u.id), Some(u.role), Some(u.username)), Ok(HomeFor(Some(u.role))))
  }

  /** Login succeeds exactly for non-empty fields, a stored account with the normalized
      email, and a password the first such account's hash accepts; the session then
      names that account. */
  lemma LoginOkIff(db: Db, s: Session, email: string, password: string, check: (string, string) -> bool)
    ensures var r := Login(db, s, email, password, check);
      r.outcome.Ok? <==> (email != "" && password != "" &&
        (exists i :: 0 <= i < |db.users| && db.users[i].email == LoginEmail(email)) &&
        check(db.users[UserByEmail(db.users, LoginEmail(email)).value].password, password))
    ensures var r := Login(db, s, email, password, check);
      r.outcome.Ok? ==> var u := db.users[UserByEmail(db.users, LoginEmail(email)).value];
        r.session == Session(Some(u.id), Some(u.role), Some(u.username))
  {
  }

  /** Whoever has just registered can log in with the same email, in any spelling the
      normalization maps to the same address, and the same password, and lands on the
      page of the role they chose. */
  lemma LoginAfterRegister(db: Db, f: RegisterForm, hash: string -> string, now: Time, s: Session,
                           check: (string, string) -> bool)
    requires Register(db, f, hash, now).outcome.Ok?
    requires check(hash(f.password), f.password)
    requires f.email != "" && f.password != ""
    ensures var db1 := Register(db, f, hash, now).db;
      var r := Login(db1, s, f.email, f.password, check);
      r.outcome == Ok(HomeFor(Some(SelectRole(f.role)))) &&
      r.session.userId == Some(Register(db, f, hash, now).outcome.value)
  {
    RegisterEffect(db, f, hash, now);
    EmailNormalizationsAgree(f.email);
    var p := ProbeOf(f);
    var u := User(db.nextId, p.username, p.username, f.phone, p.email, hash(f.password), SelectRole(f.role), now, []);
    var db1 := Register(db, f, hash, now).db;
    assert db1.users == db.users + [u];
    var n := |db.users|;
    var e := LoginEmail(f.email);
    assert e == p.email;
    assert db1.users[n].email == e;
    forall j | 0 <= j < n ensures db1.users[j].email != e {
      assert db1.users[j] == db.users[j];
    }
    var k := UserByEmail(db1.users, e);
    assert k.Some?;
    assert k.value >= n;
    assert k.value == n;
  }

  // --------------------------------------------------------------- profiles

  /** The claim records still live at `now`, in order. */
  function LiveClaims(claims: seq<ClaimRecord>, now: Time): (r: seq<ClaimRecord>)
    ensures |r| <= |claims|
    ensures forall c :: c in r <==> c in claims && IsLive(c, now)
    ensures forall c :: multiset(r)[c] == if IsLive(c, now) then multiset(claims)[c] else 0
  {
    var keep := (c: ClaimRecord) => IsLive(c, now);
    forall c ensures multiset(Filter(claims, keep))[c] == if IsLive(c, now) then multiset(claims)[c] else 0 {
      FilterMultiplicity(claims, keep, c);
    }
    Filter(claims, keep)
  }

  /** The sweep keeps the live records in their original order: it works record by
      record, keeping a live one and dropping an expired one. */
  lemma LiveClaimsInOrder(a: seq<ClaimRecord>, b: seq<ClaimRecord>, c: ClaimRecord, now: Time)
    ensures LiveClaims(a + b, now) == LiveClaims(a, now) + LiveClaims(b, now)
    ensures LiveClaims([c], now) == if IsLive(c, now) then [c] else []
    ensures LiveClaims([], now) == []
  {
    FilterConcat(a, b, (c: ClaimRecord) => IsLive(c, now));
    assert [c][1..] == [];
  }

  /** The sweep removes something exactly when some record has expired; sweeping twice
      removes nothing more. */
  lemma LiveClaimsSweep(claims: seq<ClaimRecord>, now: Time)
    ensures |LiveClaims(claims, now)| == |claims| <==> LiveClaims(claims, now) == claims
    ensures LiveClaims(claims, now) == claims <==> forall i :: 0 <= i < |claims| ==> IsLive(claims[i], now)
    ensures LiveClaims(LiveClaims(claims, now), now) == LiveClaims(claims, now)
  {
    FilterSameLength(claims, (c: ClaimRecord) => IsLive(c, now));
    FilterIdempotent(claims, (c: ClaimRecord) => IsLive(c, now));
  }

  datatype ProfileError = OwnerProfileRedirect | ProfileUserNotFound

  datatype ProfileView = ProfileView(
    userId: Id,
    username: string,
    email: string,
    phoneNumber: string,
    role: Role,
    createdAt: Time,
    reviews: seq<Review>,
    claims: seq<ClaimRecord>)

  datatype ProfileResult = ProfileResult(db: Db, outcome: Result<ProfileView, ProfileError>)

  /** `Review.find({ user }).sort({ createdAt: -1 })`: the user's reviews, each as often
      as it is stored, newest first. */
  function ReviewsByUser(reviews: seq<Review>, user: Id): (r: seq<Review>)
    ensures forall x :: x in r <==> x in reviews && x.user == user
    ensures forall x :: multiset(r)[x] == if x.user == user then multiset(reviews)[x] else 0
    ensures ReviewsCreatedInOrder(reviews) ==> ReviewsNewestFirst(r)
  {
    var keep := (x: Review) => x.user == user;
    var mine := Filter(reviews, keep);
    ReverseSameElements(mine);
    ReverseMultiset(mine);
    forall x ensures multiset(mine)[x] == if x.user == user then multiset(reviews)[x] else 0 {
      FilterMultiplicity(reviews, keep, x);
    }
    assert ReviewsCreatedInOrder(reviews) ==> ReviewsNewestFirst(Reverse(mine)) by {
      if ReviewsCreatedInOrder(reviews) {
        ReviewsFiltered(reviews, keep);
        ReviewsReversed(mine);
      }
    }
    Reverse(mine)
  }

  /** The profile page's write-back: when some claim of the user at `i` has expired,
      the user's list is replaced by the live claims and the user saved. */
  function SweepClaims(db: Db, i: nat, now: Time): Db
    requires i < |db.users|
  {
    var u := db.users[i];
    var live := LiveClaims(u.claimedVouchers, now);
    if |u.claimedVouchers| != |live| then db.(users := db.users[i := PreSave(u.(claimedVouchers := live))]) else db
  }

  /** The write-back keeps every user's id, and a second one changes nothing. */
  lemma SweepClaimsIdempotent(db: Db, i: nat, now: Time)
    requires i < |db.users|
    ensures var db1 := SweepClaims(db, i, now);
      |db1.users| == |db.users| && (forall k :: 0 <= k < |db.users| ==> db1.users[k].id == db.users[k].id) &&
      SweepClaims(db1, i, now) == db1
  {
    var u := db.users[i];
    var live := LiveClaims(u.claimedVouchers, now);
    LiveClaimsSweep(u.claimedVouchers, now);
    var db1 := SweepClaims(db, i, now);
    assert db1.users[i].claimedVouchers == live;
    assert |LiveClaims(live, now)| == |live|;
  }

  /** `getProfile`: an owner session is sent to the owner profile; otherwise the user's
      reviews newest first and the live claims. When some claim has expired the
      user's list is replaced by the live ones and the user saved. */
  function GetProfile(db: Db, s: Session, now: Time): (r: ProfileResult)
    ensures r.outcome.Err? ==> r.db == db
    ensures r.outcome.Ok? ==> forall c :: c in r.outcome.value.claims ==> IsLive(c, now)
    ensures r.outcome.Ok? ==> s.userId.Some? && r.outcome.value.userId == s.userId.value &&
                              r.outcome.value.reviews == ReviewsByUser(db.reviews, s.userId.value)
  {
    if s.role == Some(OwnerRole) then ProfileResult(db, Err(OwnerProfileRedirect))
    else if s.userId.None? then ProfileResult(db, Err(ProfileUserNotFound))
    else
      match UserIndex(db.users, s.userId.value)
      case None => ProfileResult(db, Err(ProfileUserNotFound))
      case Some(i) =>
        var u := db.users[i];
        var live := LiveClaims(u.claimedVouchers, now);
        var db1 := SweepClaims(db, i, now);
        var view := ProfileView(u.id, u.username, u.email, u.phoneNumber, u.role, u.createdAt,
                                ReviewsByUser(db.reviews, u.id), live);
        ProfileResult(db1, Ok(view))
  }

  /** After the profile page the stored claims are exactly the live ones shown, and the
      database changes only when some claim had expired. */
  lemma ProfileSweepsExpired(db: Db, s: Session, now: Time)
    requires GetProfile(db, s, now).outcome.Ok?
    ensures var r := GetProfile(db, s, now);
      var i := UserIndex(db.users, s.userId.value).value;
      |r.db.users| == |db.users| && r.db.users[i].id == db.users[i].id &&
      r.db.users[i].claimedVouchers == r.outcome.value.claims &&
      r.outcome.value.claims == LiveClaims(db.users[i].claimedVouchers, now) &&
      (r.db == db <==> forall k :: 0 <= k < |db.users[i].claimedVouchers| ==> IsLive(db.users[i].claimedVouchers[k], now)) &&
      (forall k :: 0 <= k < |db.users| && k != i ==> r.db.users[k] == db.users[k])
  {
    var r := GetProfile(db, s, now);
    var i := UserIndex(db.users, s.userId.value).value;
    var u := db.users[i];
    LiveClaimsSweep(u.claimedVouchers, now);
    if r.db != db {
      assert r.db.users[i].claimedVouchers != u.claimedVouchers;
    }
  }

  /** Viewing the profile again at the same instant changes nothing. */
  lemma ProfileSweepIdempotent(db: Db, s: Session, now: Time)
    requires GetProfile(db, s, now).outcome.Ok?
    ensures var db1 := GetProfile(db, s, now).db; GetProfile(db1, s, now).db == db1
  {
    var i := UserIndex(db.users, s.userId.value).value;
    var db1 := SweepClaims(db, i, now);
    ProfileWriteBack(db, s, now);
    SweepClaimsIdempotent(db, i, now);
    UserIndexByIds(db.users, db1.users, s.userId.value);
    ProfileWriteBack(db1, s, now);
  }

  /** What the profile page writes back: nothing on a refusal, the sweep of the user's
      claims otherwise. */
  lemma ProfileWriteBack(db: Db, s: Session, now: Time)
    ensures GetProfile(db, s, now).db ==
      if s.role == Some(OwnerRole) || s.userId.None? || UserIndex(db.users, s.userId.value).None? then db
      else SweepClaims(db, UserIndex(db.users, s.userId.value).value, now)
  {
  }

  datatype OwnerProfileError = OwnerProfileForbidden | OwnerProfileUserNotFound

  datatype OwnerProfileView = OwnerProfileView(
    userId: Id,
    username: string,
    locations: seq<Location>,
    vouchers: seq<Voucher>)

  /** `getOwnerProfile`: refused for a `user` session; otherwise the caller's locations
      and the vouchers at them, newest first. */
  function GetOwnerProfile(db: Db, s: Session): (r: Result<OwnerProfileView, OwnerProfileError>)
    ensures r == Err(OwnerProfileForbidden) <==> s.role == Some(UserRole)
    ensures r.Ok? <==> s.role != Some(UserRole) && s.userId.Some? && UserIndex(db.users, s.userId.value).Some?
    ensures r.Ok? ==> r.value.userId == s.userId.value
    ensures r.Ok? ==> forall l :: l in r.value.locations <==> l in db.locations && s.userId == Some(l.owner)
    ensures r.Ok? ==> var owned := LocationsOf(db.locations, s.userId);
      |r.value.locations| == |owned| &&
      forall i :: 0 <= i < |owned| ==> r.value.locations[i] == owned[|owned| - 1 - i]
  {
    if s.role == Some(UserRole) then Err(OwnerProfileForbidden)
    else if s.userId.None? then Err(OwnerProfileUserNotFound)
    else
      match UserIndex(db.users, s.userId.value)
      case None => Err(OwnerProfileUserNotFound)
      case Some(i) =>
        var locations := Reverse(LocationsOf(db.locations, s.userId));
        var vouchers := Reverse(VouchersAtAny(db.vouchers, LocationIds(locations)));
        ReverseSameElements(LocationsOf(db.locations, s.userId));
        Ok(OwnerProfileView(db.users[i].id, db.users[i].username, locations, vouchers))
  }

  /** The owner holds a location with that id. */
  predicate OwnsLocation(locations: seq<Location>, owner: Option<Id>, id: Id) {
    exists l :: l in locations && owner == Some(l.owner) && l.id == id
  }

  /** Every voucher on the owner profile is at one of the caller's locations, and every
      voucher at one of them is shown. */
  lemma OwnerProfileVouchers(db: Db, s: Session)
    requires GetOwnerProfile(db, s).Ok?
    ensures var p := GetOwnerProfile(db, s).value;
      forall v :: v in p.vouchers <==> (v in db.vouchers && OwnsLocation(db.locations, s.userId, v.location))
  {
    var owned := LocationsOf(db.locations, s.userId);
    var locations := Reverse(owned);
    ReverseSameElements(owned);
    var ids := LocationIds(locations);
    var vs := VouchersAtAny(db.vouchers, ids);
    ReverseSameElements(vs);
    forall v | v in db.vouchers ensures v.location in ids <==> OwnsLocation(db.locations, s.userId, v.location) {
      if OwnsLocation(db.locations, s.userId, v.location) {
        var l :| l in db.locations && s.userId == Some(l.owner) && l.id == v.location;
        assert l in locations;
      }
    }
  }
}

=== FILE: user_model.dfy ===
/** The user document: account fields with their schema constraints, the role,
    the embedded claim records, and the pre-save hook. */
module UserModel {
  import opened Wrappers
  import opened Text

  const MinUsernameLength := 3
  const MaxUsernameLength := 30
  const MinPasswordLength := 6
  const MinPhoneDigits := 9
  const MaxPhoneDigits := 11

  datatype Role = UserRole | OwnerRole | AdminRole

  /** The stored spelling of a role. */
  function RoleName(r: Role): string {
    match r
    case UserRole => "user"
    case OwnerRole => "owner"
    case AdminRole => "admin"
  }

  /** The schema's `enum` on `role`: exactly the three names are accepted. */
  function ParseRole(s: string): (r: Option<Role>)
    ensures r.Some? ==> RoleName(r.value) == s
    ensures r.None? ==> forall x: Role :: RoleName(x) != s
  {
    if s == "user" then Some(UserRole)
    else if s == "owner" then Some(OwnerRole)
    else if s == "admin" then Some(AdminRole)
    else None
  }

  lemma ParseRoleName(r: Role)
    ensures ParseRole(RoleName(r)) == Some(r)
  {
  }

  /** The role a document gets when none is given. */
  const DefaultRole := UserRole

  /** One entry of `claimedVouchers`: a snapshot of the voucher at claim time. */
  datatype ClaimRecord = ClaimRecord(
    voucherCode: string,
    voucherId: Id,
    claimedAt: Time,
    expiryDate: Time,
    locationName: string,
    discountPct: int)

  /** A claim record is still live at `now` when it expires strictly later. */
  predicate IsLive(c: ClaimRecord, now: Time) {
    c.expiryDate > now
  }

  /** The record fields the sub-schema requires (`voucherId` and `expiryDate` are
      always present in the model; the code must be a non-empty string). */
  predicate ClaimRecordValid(c: ClaimRecord) {
    |c.voucherCode| > 0
  }

  datatype User = User(
    id: Id,
    username: string,
    idName: string,
    phoneNumber: string,
    email: string,
    password: string,
    role: Role,
    createdAt: Time,
    claimedVouchers: seq<ClaimRecord>)

  /** `^[0-9]{9,11}$`. */
  predicate PhonePattern(s: string) {
    MinPhoneDigits <= |s| <= MaxPhoneDigits && AllDigits(s)
  }

  predicate IsSeparator(c: char) { c == '.' || c == '-' }

  /** `\w+([.-]?\w+)*`: word characters, each `.` or `-` standing alone between two
      word characters. */
  predicate WordSequence(s: string) {
    |s| > 0 && IsWordChar(s[0]) && IsWordChar(s[|s| - 1]) &&
    (forall i :: 0 <= i < |s| ==> IsWordChar(s[i]) || IsSeparator(s[i])) &&
    (forall i :: 0 <= i < |s| - 1 ==> !(IsSeparator(s[i]) && IsSeparator(s[i + 1])))
  }

  /** `(\.\w{2,3})+`. */
  predicate TldSequence(t: string)
    decreases |t|
  {
    |t| >= 3 && t[0] == '.' && IsWordChar(t[1]) && IsWordChar(t[2]) &&
    ((|t| == 3 || TldSequence(t[3..])) ||
     (|t| >= 4 && IsWordChar(t[3]) && (|t| == 4 || TldSequence(t[4..]))))
  }

  /** `\w+([.-]?\w+)*(\.\w{2,3})+` as a whole string: some split puts a word sequence
      before a non-empty run of top-level labels. */
  predicate DomainPattern(d: string) {
    exists j :: 0 < j < |d| && WordSequence(d[..j]) && TldSequence(d[j..])
  }

  /** The schema's email pattern `^\w+([.-]?\w+)*@\w+([.-]?\w+)*(\.\w{2,3})+$`. Neither
      side can hold an `@`, so the split is at the only one. */
  predicate EmailPattern(s: string) {
    exists i :: 0 < i < |s| && s[i] == '@' && WordSequence(s[..i]) && DomainPattern(s[i + 1..])
  }

  lemma {:induction false} TldNoAt(t: string)
    requires TldSequence(t)
    ensures forall k :: 0 <= k < |t| ==> t[k] != '@'
    decreases |t|
  {
    if |t| > 3 && TldSequence(t[3..]) {
      TldNoAt(t[3..]);
      assert forall k :: 3 <= k < |t| ==> t[k] == t[3..][k - 3];
    }
    if |t| > 4 && IsWordChar(t[3]) && TldSequence(t[4..]) {
      TldNoAt(t[4..]);
      assert forall k :: 4 <= k < |t| ==> t[k] == t[4..][k - 4];
    }
  }

  lemma WordSequenceNoAt(w: string)
    requires WordSequence(w)
    ensures forall k :: 0 <= k < |w| ==> w[k] != '@'
  {
  }

  lemma DomainNoAt(d: string)
    requires DomainPattern(d)
    ensures forall k :: 0 <= k < |d| ==> d[k] != '@'
  {
    var j :| 0 < j < |d| && WordSequence(d[..j]) && TldSequence(d[j..]);
    WordSequenceNoAt(d[..j]);
    TldNoAt(d[j..]);
    forall k | 0 <= k < |d| ensures d[k] != '@' {
      if k < j { assert d[k] == d[..j][k]; } else { assert d[k] == d[j..][k - j]; }
    }
  }

  /** A matching email holds exactly one `@`: the split point is unique. */
  lemma EmailHasOneAt(s: string, i: int)
    requires 0 < i < |s| && s[i] == '@' && WordSequence(s[..i]) && DomainPattern(s[i + 1..])
    ensures forall k :: 0 <= k < |s| && s[k] == '@' ==> k == i
  {
    WordSequenceNoAt(s[..i]);
    DomainNoAt(s[i + 1..]);
    forall k | 0 <= k < |s| && k != i ensures s[k] != '@' {
      if k < i { assert s[k] == s[..i][k]; } else { assert s[k] == s[i + 1..][k - i - 1]; }
    }
  }

  /** The validators that run on save. The password length is checked on the
      plain text: validation runs before the pre-save hook replaces it by its hash. */
  predicate SchemaValid(username: string, phoneNumber: string, email: string, password: string) {
    MinUsernameLength <= |username| <= MaxUsernameLength &&
    PhonePattern(phoneNumber) &&
    EmailPattern(email) &&
    |password| >= MinPasswordLength
  }

  /** The pre-save hook's first step: an empty `idName` takes the username. */
  function PreSave(u: User): (r: User)
    ensures r.idName == (if u.idName == "" then u.username else u.idName)
    ensures r == u.(idName := r.idName)
  {
    if u.idName == "" && u.username != "" then u.(idName := u.username) else u
  }

  /** Saving twice fills `idName` no differently from saving once. */
  lemma PreSaveIdempotent(u: User)
    ensures PreSave(PreSave(u)) == PreSave(u)
  {
  }
}

=== FILE: voucher_controller.dfy ===
/** The voucher ledger: the claim state machine, the status report, the public
    listing, and the owner's create, update and delete operations, each as a
    transition from one database snapshot to the next. */
module VoucherController {
  import opened Wrappers
  import opened Seqs
  import opened Text
  import opened VoucherModel
  import opened UserModel
  import opened LocationModel
  import opened Database
  import opened Auth

  // ---------------------------------------------------------------- listing

  /** The public voucher list: vouchers inside their window and not sold out, newest first. */
  function ListedVouchers(vouchers: seq<Voucher>, now: Time): (r: seq<Voucher>)
    ensures forall v :: v in r <==> v in vouchers && IsListed(v, now)
    ensures forall v :: multiset(r)[v] == if IsListed(v, now) then multiset(vouchers)[v] else 0
    ensures forall i :: 0 <= i < |r| ==> PhaseAt(r[i], now) == Active
    ensures VouchersCreatedInOrder(vouchers) ==> VouchersNewestFirst(r)
  {
    var keep := (v: Voucher) => IsListed(v, now);
    var listed := Filter(vouchers, keep);
    var r := Reverse(listed);
    ReverseSameElements(listed);
    ReverseMultiset(listed);
    forall v ensures multiset(r)[v] == if IsListed(v, now) then multiset(vouchers)[v] else 0 {
      FilterMultiplicity(vouchers, keep, v);
    }
    assert VouchersCreatedInOrder(vouchers) ==> VouchersNewestFirst(r) by {
      if VouchersCreatedInOrder(vouchers) {
        NewestFirst(vouchers, keep);
      }
    }
    assert forall i :: 0 <= i < |r| ==> PhaseAt(r[i], now) == Active by {
      forall i | 0 <= i < |r| ensures PhaseAt(r[i], now) == Active {
        assert r[i] in listed;
        ListedIffActive(r[i], now);
      }
    }
    r
  }

  /** Filtering and reversing vouchers stored in creation order lists them newest first. */
  lemma NewestFirst(vouchers: seq<Voucher>, keep: Voucher -> bool)
    requires VouchersCreatedInOrder(vouchers)
    ensures VouchersNewestFirst(Reverse(Filter(vouchers, keep)))
  {
    VouchersFiltered(vouchers, keep);
    VouchersReversed(Filter(vouchers, keep));
  }

  // ------------------------------------------------------------------ claim

  datatype ClaimError =
    | NotUserRole
    | NotLoggedIn
    | UserNotFound
    | VoucherNotFound
    | OutsideWindow
    | Exhausted
    | AlreadyClaimed
    | ServerError

  /** Where the claim handler sends the browser afterwards: the login page only when a
      user-role session lacks an id, the voucher list in every other case. */
  function ClaimRedirect(outcome: Result<ClaimRecord, ClaimError>): (url: string)
    ensures url == "/auth" <==> outcome == Err(NotLoggedIn)
  {
    if outcome == Err(NotLoggedIn) then "/auth" else "/vouchers"
  }

  /** The user holds a record for the voucher that has not expired at `now`. */
  predicate HasLiveClaim(u: User, voucherId: Id, now: Time) {
    exists i :: 0 <= i < |u.claimedVouchers| &&
      u.claimedVouchers[i].voucherId == voucherId && IsLive(u.claimedVouchers[i], now)
  }

  datatype ClaimResult = ClaimResult(db: Db, outcome: Result<ClaimRecord, ClaimError>)

  /** Claiming a voucher. The checks run in the handler's order: a user-role session
      with an id, the user, the voucher, the inclusive window, the remaining quantity,
      no live claim of the same voucher, and the voucher's location (a missing one makes
      the handler fail). On success one snapshot record is appended to the user's
      claims and the voucher's claim count goes up by one. */
  function Claim(db: Db, s: Session, voucherId: Id, now: Time): (r: ClaimResult)
    ensures r.outcome.Err? ==> r.db == db
  {
    if s.userId.None? || s.role != Some(UserRole) then
      ClaimResult(db, Err(if s.role != Some(UserRole) then NotUserRole else NotLoggedIn))
    else
      var ui := UserIndex(db.users, s.userId.value);
      var vi := VoucherIndex(db.vouchers, voucherId);
      if ui.None? then ClaimResult(db, Err(UserNotFound))
      else if vi.None? then ClaimResult(db, Err(VoucherNotFound))
      else
        var u := db.users[ui.value];
        var v := db.vouchers[vi.value];
        if now < v.startDate || now > v.endDate then ClaimResult(db, Err(OutsideWindow))
        else if v.quantityClaimed >= v.quantityTotal then ClaimResult(db, Err(Exhausted))
        else if HasLiveClaim(u, voucherId, now) then ClaimResult(db, Err(AlreadyClaimed))
        else
          var li := LocationIndex(db.locations, v.location);
          if li.None? then ClaimResult(db, Err(ServerError))
          else
            var rec := NewClaimRecord(v, db.locations[li.value].name, now);
            var u' := PreSave(u.(claimedVouchers := u.claimedVouchers + [rec]));
            var v' := v.(quantityClaimed := v.quantityClaimed + 1);
            ClaimResult(db.(users := db.users[ui.value := u'], vouchers := db.vouchers[vi.value := v']), Ok(rec))
  }

  /** The snapshot a claim records: the voucher's code, id, end date and discount,
      and its location's name. */
  function NewClaimRecord(v: Voucher, locationName: string, now: Time): (c: ClaimRecord)
    ensures c.voucherId == v.id && c.voucherCode == v.code && c.expiryDate == v.endDate
    ensures c.discountPct == v.discountPct && c.locationName == locationName && c.claimedAt == now
  {
    ClaimRecord(v.code, v.id, now, v.endDate, locationName, v.discountPct)
  }

  /** Everything a claim needs to succeed, stated without reference to `Claim`. */
  predicate ClaimAllowed(db: Db, s: Session, voucherId: Id, now: Time) {
    s.userId.Some? && s.role == Some(UserRole) &&
    (exists i :: 0 <= i < |db.users| && db.users[i].id == s.userId.value) &&
    (exists j :: 0 <= j < |db.vouchers| && db.vouchers[j].id == voucherId) &&
    var u := db.users[UserIndex(db.users, s.userId.value).value];
    var v := db.vouchers[VoucherIndex(db.vouchers, voucherId).value];
    v.startDate <= now <= v.endDate &&
    v.quantityClaimed < v.quantityTotal &&
    !HasLiveClaim(u, voucherId, now) &&
    exists k :: 0 <= k < |db.locations| && db.locations[k].id == v.location
  }

  /** A claim succeeds exactly when every check passes; otherwise nothing changes. */
  lemma ClaimOkIff(db: Db, s: Session, voucherId: Id, now: Time)
    ensures Claim(db, s, voucherId, now).outcome.Ok? <==> ClaimAllowed(db, s, voucherId, now)
    ensures !ClaimAllowed(db, s, voucherId, now) ==> Claim(db, s, voucherId, now).db == db
  {
    if s.userId.Some? && s.role == Some(UserRole) {
      var ui := UserIndex(db.users, s.userId.value);
      var vi := VoucherIndex(db.vouchers, voucherId);
      if ui.Some? && vi.Some? {
        var v := db.vouchers[vi.value];
        var li := LocationIndex(db.locations, v.location);
        if li.None? {
          assert !exists k :: 0 <= k < |db.locations| && db.locations[k].id == v.location;
        }
      }
    }
  }

  /** Without a user-role session that has an id, a claim is refused and nothing
      changes; a non-user role is told so, a user role without an id is sent to log in. */
  lemma ClaimNeedsUserSession(db: Db, s: Session, voucherId: Id, now: Time)
    requires s.userId.None? || s.role != Some(UserRole)
    ensures var r := Claim(db, s, voucherId, now);
      r.db == db &&
      r.outcome == Err(if s.role != Some(UserRole) then NotUserRole else NotLoggedIn) &&
      (ClaimRedirect(r.outcome) == "/auth" <==> s.role == Some(UserRole))
  {
  }

  /** A claim outside `[startDate, endDate]`, of a sold-out voucher, or of a voucher the
      user holds a live record for, is refused with nothing changed. */
  lemma ClaimRefusals(db: Db, s: Session, voucherId: Id, now: Time, j: nat)
    requires j < |db.vouchers| && db.vouchers[j].id == voucherId
    requires forall k :: 0 <= k < j ==> db.vouchers[k].id != voucherId
    requires var v := db.vouchers[j];
      now < v.startDate || now > v.endDate || v.quantityClaimed >= v.quantityTotal ||
      (s.userId.Some? && UserIndex(db.users, s.userId.value).Some? &&
       HasLiveClaim(db.users[UserIndex(db.users, s.userId.value).value], voucherId, now))
    ensures Claim(db, s, voucherId, now).outcome.Err?
    ensures Claim(db, s, voucherId, now).db == db
  {
    assert VoucherIndex(db.vouchers, voucherId) == Some(j);
  }

  /** A successful claim appends exactly one record, holding the voucher's code, id,
      end date, discount and location name, to the claiming user; raises that voucher's
      claim count by exactly one; and changes nothing else. */
  lemma ClaimEffect(db: Db, s: Session, voucherId: Id, now: Time)
    requires Claim(db, s, voucherId, now).outcome.Ok?
    ensures var r := Claim(db, s, voucherId, now);
      var ui := UserIndex(db.users, s.userId.value).value;
      var vi := VoucherIndex(db.vouchers, voucherId).value;
      var v := db.vouchers[vi];
      var rec := r.outcome.value;
      |r.db.users| == |db.users| && |r.db.vouchers| == |db.vouchers| &&
      r.db.users[ui].claimedVouchers == db.users[ui].claimedVouchers + [rec] &&
      r.db.users[ui] == PreSave(db.users[ui]).(claimedVouchers := r.db.users[ui].claimedVouchers) &&
      rec.voucherId == voucherId && rec.voucherCode == v.code && rec.expiryDate == v.endDate &&
      rec.discountPct == v.discountPct && rec.claimedAt == now &&
      rec.locationName == db.locations[LocationIndex(db.locations, v.location).value].name &&
      r.db.vouchers[vi] == v.(quantityClaimed := v.quantityClaimed + 1) &&
      (forall k :: 0 <= k < |db.users| && k != ui ==> r.db.users[k] == db.users[k]) &&
      (forall k :: 0 <= k < |db.vouchers| && k != vi ==> r.db.vouchers[k] == db.vouchers[k]) &&
      r.db.locations == db.locations && r.db.reviews == db.reviews && r.db.nextId == db.nextId
  {
  }

  /** A claim never raises a count above the number issued. */
  lemma ClaimPreservesCap(db: Db, s: Session, voucherId: Id, now: Time)
    requires AllWithinCap(db.vouchers)
    ensures AllWithinCap(Claim(db, s, voucherId, now).db.vouchers)
  {
    var r := Claim(db, s, voucherId, now);
    if r.outcome.Ok? {
      ClaimEffect(db, s, voucherId, now);
    }
  }

  /** A claim leaves the id at every position of the users and the vouchers as it was. */
  lemma ClaimKeepsIds(db: Db, s: Session, voucherId: Id, now: Time)
    ensures var r := Claim(db, s, voucherId, now);
      |r.db.users| == |db.users| && |r.db.vouchers| == |db.vouchers| &&
      (forall k :: 0 <= k < |db.users| ==> r.db.users[k].id == db.users[k].id) &&
      (forall k :: 0 <= k < |db.vouchers| ==>
        r.db.vouchers[k].id == db.vouchers[k].id && r.db.vouchers[k].quantityTotal == db.vouchers[k].quantityTotal)
  {
    if Claim(db, s, voucherId, now).outcome.Ok? {
      ClaimEffect(db, s, voucherId, now);
    }
  }

  /** After a successful claim, claiming the same voucher again before its end date is
      refused: the new record is live until then. */
  lemma RepeatClaimRefused(db: Db, s: Session, voucherId: Id, now: Time, later: Time)
    requires Claim(db, s, voucherId, now).outcome.Ok?
    requires now <= later < db.vouchers[VoucherIndex(db.vouchers, voucherId).value].endDate
    ensures var db1 := Claim(db, s, voucherId, now).db;
      Claim(db1, s, voucherId, later).outcome.Err? && Claim(db1, s, voucherId, later).db == db1
  {
    var r := Claim(db, s, voucherId, now);
    ClaimEffect(db, s, voucherId, now);
    ClaimKeepsIds(db, s, voucherId, now);
    var db1 := r.db;
    var ui := UserIndex(db.users, s.userId.value).value;
    var vi := VoucherIndex(db.vouchers, voucherId).value;
    assert UserIndex(db1.users, s.userId.value) == Some(ui);
    assert VoucherIndex(db1.vouchers, voucherId) == Some(vi);
    var cs := db1.users[ui].claimedVouchers;
    assert cs[|cs| - 1] == r.outcome.value;
    assert HasLiveClaim(db1.users[ui], voucherId, later);
  }

  /** The claim test counts a record live only while `expiryDate > now`, but the window
      admits `now == endDate`, and the record a claim writes expires at `endDate`. So at
      that very instant a second claim by the same user also succeeds. */
  lemma DoubleClaimAtEndInstant()
    ensures var u := User(1, "alice", "alice", "0123456789", "a@b.com", "h", UserRole, 0, []);
      var l := Location(2, "Cafe", "d", "a", "cafe", 0, "", 9, "", "standard", PriceRange(0, 0), [], [], [], 0);
      var v := Voucher(3, "ABC", 10, 5, 0, 0, 10, 2, "", 0);
      var db := Db([u], [l], [v], [], 4);
      var s := Session(Some(1), Some(UserRole), Some("alice"));
      var r1 := Claim(db, s, 3, 10);
      var r2 := Claim(r1.db, s, 3, 10);
      r1.outcome.Ok? && r2.outcome.Ok? && r2.db.vouchers[0].quantityClaimed == 2 &&
      |r2.db.users[0].claimedVouchers| == 2
  {
    var u := User(1, "alice", "alice", "0123456789", "a@b.com", "h", UserRole, 0, []);
    var l := Location(2, "Cafe", "d", "a", "cafe", 0, "", 9, "", "standard", PriceRange(0, 0), [], [], [], 0);
    var v := Voucher(3, "ABC", 10, 5, 0, 0, 10, 2, "", 0);
    var db := Db([u], [l], [v], [], 4);
    var s := Session(Some(1), Some(UserRole), Some("alice"));
    assert UserIndex(db.users, 1) == Some(0);
    assert VoucherIndex(db.vouchers, 3) == Some(0);
    assert LocationIndex(db.locations, 2) == Some(0);
    assert !HasLiveClaim(u, 3, 10);
    var r1 := Claim(db, s, 3, 10);
    var rec := NewClaimRecord(v, "Cafe", 10);
    assert r1.outcome == Ok(rec);
    var u1 := r1.db.users[0];
    assert u1.claimedVouchers == [rec];
    assert UserIndex(r1.db.users, 1) == Some(0);
    assert VoucherIndex(r1.db.vouchers, 3) == Some(0);
    assert !HasLiveClaim(u1, 3, 10);
    var r2 := Claim(r1.db, s, 3, 10);
    assert r2.outcome == Ok(rec);
  }

  // -------------------------------------------------- claims in sequence

  datatype ClaimRequest = ClaimRequest(session: Session, voucherId: Id, now: Time)

  /** Claims handled one after the other. */
  function ClaimAll(db: Db, reqs: seq<ClaimRequest>): Db
    decreases |reqs|
  {
    if |reqs| == 0 then db
    else ClaimAll(Claim(db, reqs[0].session, reqs[0].voucherId, reqs[0].now).db, reqs[1..])
  }

  /** How many of the requests succeed and name the voucher at position `vi`. */
  function SuccessesAt(db: Db, reqs: seq<ClaimRequest>, vi: nat): nat
    decreases |reqs|
  {
    if |reqs| == 0 then 0
    else
      var r := Claim(db, reqs[0].session, reqs[0].voucherId, reqs[0].now);
      var hit := r.outcome.Ok? && vi < |db.vouchers| && db.vouchers[vi].id == reqs[0].voucherId &&
                 VoucherIndex(db.vouchers, reqs[0].voucherId) == Some(vi);
      (if hit then 1 else 0) + SuccessesAt(r.db, reqs[1..], vi)
  }

  /** Over any sequence of claims, a voucher's count grows by exactly the number of
      successful claims of it, its issued total is untouched, and so the successes never
      exceed what remained at the start. */
  lemma {:induction false} ClaimsNeverExceedIssued(db: Db, reqs: seq<ClaimRequest>, vi: nat)
    requires vi < |db.vouchers| && WithinCap(db.vouchers[vi])
    ensures var end := ClaimAll(db, reqs);
      vi < |end.vouchers| &&
      end.vouchers[vi].quantityClaimed == db.vouchers[vi].quantityClaimed + SuccessesAt(db, reqs, vi) &&
      end.vouchers[vi].quantityTotal == db.vouchers[vi].quantityTotal &&
      SuccessesAt(db, reqs, vi) <= QuantityRemaining(db.vouchers[vi])
    decreases |reqs|
  {
    if |reqs| > 0 {
      var q := reqs[0];
      var r := Claim(db, q.session, q.voucherId, q.now);
      ClaimKeepsIds(db, q.session, q.voucherId, q.now);
      if r.outcome.Ok? {
        ClaimEffect(db, q.session, q.voucherId, q.now);
      }
      var vj := VoucherIndex(db.vouchers, q.voucherId);
      var hit := r.outcome.Ok? && db.vouchers[vi].id == q.voucherId && vj == Some(vi);
      assert r.db.vouchers[vi].quantityClaimed == db.vouchers[vi].quantityClaimed + (if hit then 1 else 0) by {
        if r.outcome.Ok? && vj.value != vi {
          assert r.db.vouchers[vi] == db.vouchers[vi];
        }
      }
      assert WithinCap(r.db.vouchers[vi]) by {
        if r.outcome.Ok? && vj.value == vi {
          assert r.db.vouchers[vi].quantityClaimed <= r.db.vouchers[vi].quantityTotal;
        }
      }
      ClaimsNeverExceedIssued(r.db, reqs[1..], vi);
    }
  }

  // ----------------------------------------------------------------- status

  datatype StatusReport = StatusReport(
    eligible: bool,
    alreadyClaimed: bool,
    phase: Phase,
    quantityRemaining: nat,
    quantityTotal: int,
    quantityClaimed: int,
    code: string,
    discountPct: int,
    expiryDate: Time,
    locationName: Option<string>)

  datatype StatusReply = Unauthorized | NotFound | Report(report: StatusReport)

  function StatusCode(reply: StatusReply): int {
    match reply
    case Unauthorized => 401
    case NotFound => 404
    case Report(_) => 200
  }

  /** The status API: 401 without a session id, 404 for an unknown voucher, otherwise
      the phase, the remaining quantity clamped at zero, whether the caller may claim
      (role `user`) and whether they hold a live record already. */
  function VoucherStatus(db: Db, s: Session, voucherId: Id, now: Time): (reply: StatusReply)
    ensures reply == Unauthorized <==> s.userId.None?
    ensures reply == NotFound <==> s.userId.Some? && VoucherIndex(db.vouchers, voucherId).None?
    ensures reply.Report? ==> reply.report.eligible == (s.role == Some(UserRole))
    ensures reply.Report? ==>
      var v := db.vouchers[VoucherIndex(db.vouchers, voucherId).value];
      var ui := UserIndex(db.users, s.userId.value);
      reply.report.phase == PhaseAt(v, now) &&
      (reply.report.alreadyClaimed <==> ui.Some? && HasLiveClaim(db.users[ui.value], voucherId, now)) &&
      reply.report.quantityTotal == v.quantityTotal && reply.report.quantityClaimed == v.quantityClaimed &&
      reply.report.code == v.code && reply.report.discountPct == v.discountPct &&
      reply.report.expiryDate == v.endDate &&
      (reply.report.locationName.Some? <==> LocationIndex(db.locations, v.location).Some?)
  {
    if s.userId.None? then Unauthorized
    else
      match VoucherIndex(db.vouchers, voucherId)
      case None => NotFound
      case Some(vi) =>
        var v := db.vouchers[vi];
        var ui := UserIndex(db.users, s.userId.value);
        var claimed := ui.Some? && HasLiveClaim(db.users[ui.value], voucherId, now);
        var li := LocationIndex(db.locations, v.location);
        Report(StatusReport(
          s.role == Some(UserRole),
          claimed,
          PhaseAt(v, now),
          if v.quantityTotal - v.quantityClaimed > 0 then v.quantityTotal - v.quantityClaimed else 0,
          v.quantityTotal, v.quantityClaimed, v.code, v.discountPct, v.endDate,
          if li.Some? then Some(db.locations[li.value].name) else None))
  }

  /** The reported remainder is the virtual `quantityRemaining` clamped at zero, and equal
      to it while the count is within the cap. */
  lemma StatusRemaining(db: Db, s: Session, voucherId: Id, now: Time)
    requires VoucherStatus(db, s, voucherId, now).Report?
    ensures var rep := VoucherStatus(db, s, voucherId, now).report;
      var v := db.vouchers[VoucherIndex(db.vouchers, voucherId).value];
      rep.quantityRemaining == (if QuantityRemaining(v) > 0 then QuantityRemaining(v) else 0) &&
      (WithinCap(v) ==> rep.quantityRemaining == QuantityRemaining(v)) &&
      (rep.quantityRemaining == 0 <==> v.quantityClaimed >= v.quantityTotal)
  {
  }

  /** The status report predicts the claim: for a user-role session whose user exists and
      whose voucher's location exists, a claim succeeds exactly when the report says
      eligible, active and not already claimed. */
  lemma StatusPredictsClaim(db: Db, s: Session, voucherId: Id, now: Time)
    requires s.userId.Some? && UserIndex(db.users, s.userId.value).Some?
    requires VoucherIndex(db.vouchers, voucherId).Some?
    requires LocationIndex(db.locations, db.vouchers[VoucherIndex(db.vouchers, voucherId).value].location).Some?
    ensures var rep := VoucherStatus(db, s, voucherId, now).report;
      Claim(db, s, voucherId, now).outcome.Ok? <==>
        rep.eligible && rep.phase == Active && !rep.alreadyClaimed
  {
  }

  // ---------------------------------------------------- create / update / delete

  /** The submitted voucher form. An absent or non-numeric number, or an invalid
      date, is `None`: the document then fails to save. */
  datatype VoucherInput = VoucherInput(
    code: string,
    discountPct: Option<int>,
    quantityTotal: Option<int>,
    startDate: Option<Time>,
    endDate: Option<Time>,
    locationId: Id,
    conditions: string)

  datatype WriteError = NotFoundOrForbidden | CodeExists | Invalid | Failed

  datatype WriteResult = WriteResult(db: Db, outcome: Result<Id, WriteError>)

  /** The document a create request builds: the normalized code, the submitted numbers
      and dates, zero claims, the trimmed conditions; `None` when a field is missing or
      the schema rejects it. */
  function BuildVoucher(id: Id, input: VoucherInput, now: Time): (r: Option<Voucher>)
    ensures r.Some? ==> r.value.id == id && r.value.code == NormalizeCode(input.code) &&
                        r.value.quantityClaimed == 0 && r.value.location == input.locationId &&
                        VoucherModel.SchemaValid(r.value) && WithinCap(r.value)
    ensures r.Some? ==> input.discountPct.Some? && input.quantityTotal.Some? &&
                        input.startDate.Some? && input.endDate.Some?
  {
    if input.discountPct.None? || input.quantityTotal.None? || input.startDate.None? || input.endDate.None? then None
    else
      var v := Voucher(id, NormalizeCode(input.code), input.discountPct.value, input.quantityTotal.value, 0,
        input.startDate.value, input.endDate.value, input.locationId, Trim(input.conditions), now);
      if VoucherModel.SchemaValid(v) then Some(v) else None
  }

  /** Creating a voucher: refused unless the caller owns the location, refused when a
      voucher with the (normalized) code exists, and refused when the document fails
      its schema; otherwise appended with a fresh id. */
  function CreateVoucher(db: Db, s: Session, input: VoucherInput, now: Time): (r: WriteResult)
    ensures r.outcome.Err? ==> r.db == db
  {
    if OwnedLocationIndex(db.locations, input.locationId, s.userId).None? then
      WriteResult(db, Err(NotFoundOrForbidden))
    else if CodeTaken(db.vouchers, NormalizeCode(input.code)) then
      WriteResult(db, Err(CodeExists))
    else match BuildVoucher(db.nextId, input, now)
      case None => WriteResult(db, Err(Invalid))
      case Some(v) => WriteResult(db.(vouchers := db.vouchers + [v], nextId := db.nextId + 1), Ok(v.id))
  }

  /** Creation is refused unless the caller owns the location and no stored voucher
      carries the normalized code. */
  lemma CreateVoucherGuards(db: Db, s: Session, input: VoucherInput, now: Time)
    requires CreateVoucher(db, s, input, now).outcome.Ok?
    ensures s.userId.Some?
    ensures exists k :: 0 <= k < |db.locations| && db.locations[k].id == input.locationId &&
                        db.locations[k].owner == s.userId.value
    ensures !CodeTaken(db.vouchers, NormalizeCode(input.code))
  {
    var k := OwnedLocationIndex(db.locations, input.locationId, s.userId).value;
    assert db.locations[k].id == input.locationId;
  }

  /** A created voucher carries the normalized submitted code, zero claims, the caller's
      location and a fresh id; it is appended and nothing else changes. */
  lemma CreateVoucherEffect(db: Db, s: Session, input: VoucherInput, now: Time)
    requires CreateVoucher(db, s, input, now).outcome.Ok?
    ensures var r := CreateVoucher(db, s, input, now);
      var v := BuildVoucher(db.nextId, input, now).value;
      r.db.vouchers == db.vouchers + [v] && r.outcome.value == db.nextId && r.db.nextId == db.nextId + 1 &&
      r.db.users == db.users && r.db.locations == db.locations && r.db.reviews == db.reviews
  {
  }

  /** Appending a voucher whose code is not taken keeps the codes distinct. */
  lemma AppendKeepsCodesUnique(vs: seq<Voucher>, v: Voucher)
    requires CodesUnique(vs) && !CodeTaken(vs, v.code)
    ensures CodesUnique(vs + [v])
  {
    var ws := vs + [v];
    forall i, j | 0 <= i < j < |ws| ensures ws[i].code != ws[j].code {
      if j == |vs| {
        assert ws[i] == vs[i];
      }
    }
  }

  /** Creation keeps the codes pairwise distinct. */
  lemma CreateVoucherKeepsCodesUnique(db: Db, s: Session, input: VoucherInput, now: Time)
    requires CodesUnique(db.vouchers)
    ensures CodesUnique(CreateVoucher(db, s, input, now).db.vouchers)
  {
    if CreateVoucher(db, s, input, now).outcome.Ok? {
      CreateVoucherGuards(db, s, input, now);
      CreateVoucherEffect(db, s, input, now);
      AppendKeepsCodesUnique(db.vouchers, BuildVoucher(db.nextId, input, now).value);
    }
  }

  /** Creation keeps every count within its cap. */
  lemma CreateVoucherKeepsCap(db: Db, s: Session, input: VoucherInput, now: Time)
    requires AllWithinCap(db.vouchers)
    ensures AllWithinCap(CreateVoucher(db, s, input, now).db.vouchers)
  {
    if CreateVoucher(db, s, input, now).outcome.Ok? {
      CreateVoucherEffect(db, s, input, now);
      AppendKeepsCap(db.vouchers, BuildVoucher(db.nextId, input, now).value);
    }
  }

  lemma AppendKeepsCap(vs: seq<Voucher>, v: Voucher)
    requires AllWithinCap(vs) && WithinCap(v)
    ensures AllWithinCap(vs + [v])
  {
    var ws := vs + [v];
    forall i | 0 <= i < |ws| ensures WithinCap(ws[i]) {
      if i < |vs| { assert ws[i] == vs[i]; }
    }
  }

  /** The fields the owner's edit form submits. */
  datatype VoucherEdit = VoucherEdit(
    discountPct: Option<int>,
    quantityTotal: Option<int>,
    startDate: Option<Time>,
    endDate: Option<Time>,
    conditions: string)

  /** The guard shared by update and delete: the voucher must exist, its location must
      exist (the handler fails otherwise), and its owner must be the caller. */
  function OwnedVoucher(db: Db, s: Session, id: Id): (r: Result<nat, WriteError>)
    ensures r.Ok? ==> r.value < |db.vouchers| && db.vouchers[r.value].id == id
  {
    match VoucherIndex(db.vouchers, id)
    case None => Err(NotFoundOrForbidden)
    case Some(vi) =>
      match LocationIndex(db.locations, db.vouchers[vi].location)
      case None => Err(Failed)
      case Some(li) =>
        if s.userId.None? || db.locations[li].owner != s.userId.value then Err(NotFoundOrForbidden)
        else Ok(vi)
  }

  /** Updating a voucher: after the ownership guard, the submitted numbers, dates and
      conditions overwrite the stored ones if the result passes the schema. Nothing
      compares the new total with the claims already made. */
  function UpdateVoucher(db: Db, s: Session, id: Id, edit: VoucherEdit): (r: WriteResult)
    ensures r.outcome.Err? ==> r.db == db
  {
    match OwnedVoucher(db, s, id)
    case Err(e) => WriteResult(db, Err(e))
    case Ok(vi) =>
      if edit.discountPct.None? || edit.quantityTotal.None? || edit.startDate.None? || edit.endDate.None? then
        WriteResult(db, Err(Invalid))
      else
        var v := db.vouchers[vi].(discountPct := edit.discountPct.value, quantityTotal := edit.quantityTotal.value,
          startDate := edit.startDate.value, endDate := edit.endDate.value, conditions := Trim(edit.conditions));
        if !VoucherModel.SchemaValid(v) then WriteResult(db, Err(Invalid))
        else WriteResult(db.(vouchers := db.vouchers[vi := v]), Ok(id))
  }

  /** An update takes the submitted numbers and dates and the trimmed conditions, keeps
      the code, claim count, location, id and creation time, and changes no other voucher
      and no other collection. */
  lemma UpdateVoucherEffect(db: Db, s: Session, id: Id, edit: VoucherEdit)
    requires UpdateVoucher(db, s, id, edit).outcome.Ok?
    ensures var r := UpdateVoucher(db, s, id, edit);
      var vi := VoucherIndex(db.vouchers, id).value;
      var old_ := db.vouchers[vi];
      var v := r.db.vouchers[vi];
      |r.db.vouchers| == |db.vouchers| &&
      v.code == old_.code && v.quantityClaimed == old_.quantityClaimed && v.location == old_.location &&
      v.id == old_.id && v.createdAt == old_.createdAt &&
      v.quantityTotal == edit.quantityTotal.value && v.discountPct == edit.discountPct.value &&
      v.startDate == edit.startDate.value && v.endDate == edit.endDate.value &&
      v.conditions == Trim(edit.conditions) &&
      (forall k :: 0 <= k < |db.vouchers| && k != vi ==> r.db.vouchers[k] == db.vouchers[k]) &&
      r.db.users == db.users && r.db.locations == db.locations && r.db.reviews == db.reviews
  {
  }

  /** Because nothing checks it, an accepted update can lower the total below the claims
      already made: the cap is a property of each claim, not of the store. */
  lemma UpdateCanBreakCap()
    ensures var l := Location(2, "Cafe", "d", "a", "cafe", 0, "", 9, "", "standard", PriceRange(0, 0), [], [], [], 0);
      var v := Voucher(3, "ABC", 10, 5, 4, 0, 10, 2, "", 0);
      var db := Db([], [l], [v], [], 4);
      var r := UpdateVoucher(db, Session(Some(9), Some(OwnerRole), None), 3, VoucherEdit(Some(10), Some(1), Some(0), Some(10), ""));
      AllWithinCap(db.vouchers) && r.outcome.Ok? && !AllWithinCap(r.db.vouchers)
  {
    var l := Location(2, "Cafe", "d", "a", "cafe", 0, "", 9, "", "standard", PriceRange(0, 0), [], [], [], 0);
    var v := Voucher(3, "ABC", 10, 5, 4, 0, 10, 2, "", 0);
    var db := Db([], [l], [v], [], 4);
    var s := Session(Some(9), Some(OwnerRole), None);
    assert VoucherIndex(db.vouchers, 3) == Some(0);
    assert LocationIndex(db.locations, 2) == Some(0);
    assert OwnedVoucher(db, s, 3) == Ok(0);
    assert Trim("") == "";
    var edited := v.(quantityTotal := 1);
    assert VoucherModel.SchemaValid(edited);
    var r := UpdateVoucher(db, s, 3, VoucherEdit(Some(10), Some(1), Some(0), Some(10), ""));
    assert r.db.vouchers == [edited];
    assert !WithinCap(r.db.vouchers[0]);
  }

  /** Deleting a voucher: after the ownership guard, the voucher is removed. The claim
      records users hold for it stay. */
  function DeleteVoucher(db: Db, s: Session, id: Id): (r: WriteResult)
    ensures r.outcome.Err? ==> r.db == db
    ensures r.outcome.Ok? ==> r.db == db.(vouchers := VouchersWithout(db.vouchers, id))
    ensures r.outcome.Ok? ==> forall x :: x in r.db.vouchers <==> x in db.vouchers && x.id != id
  {
    match OwnedVoucher(db, s, id)
    case Err(e) => WriteResult(db, Err(e))
    case Ok(_) => WriteResult(db.(vouchers := VouchersWithout(db.vouchers, id)), Ok(id))
  }

  /** The owner guard refuses callers who do not own the voucher's location. */
  lemma OwnerGuard(db: Db, s: Session, id: Id, vi: nat, li: nat)
    requires vi < |db.vouchers| && db.vouchers[vi].id == id
    requires forall k :: 0 <= k < vi ==> db.vouchers[k].id != id
    requires li < |db.locations| && db.locations[li].id == db.vouchers[vi].location
    requires forall k :: 0 <= k < li ==> db.locations[k].id != db.vouchers[vi].location
    ensures OwnedVoucher(db, s, id).Ok? <==> s.userId == Some(db.locations[li].owner)
  {
    assert VoucherIndex(db.vouchers, id) == Some(vi);
    assert LocationIndex(db.locations, db.vouchers[vi].location) == Some(li);
  }
}

=== FILE: voucher_model.dfy ===
/** The voucher document: its fields, the bounds its schema enforces, and the
    two virtual fields `quantityRemaining` and `status`. */
module VoucherModel {
  import opened Wrappers
  import opened Text

  const MinCodeLength := 3
  const MaxCodeLength := 20
  const MinDiscountPct := 1
  const MaxDiscountPct := 100
  const MinQuantityTotal := 1
  const MaxConditionsLength := 300

  datatype Voucher = Voucher(
    id: Id,
    code: string,
    discountPct: int,
    quantityTotal: int,
    quantityClaimed: int,
    startDate: Time,
    endDate: Time,
    location: Id,
    conditions: string,
    createdAt: Time)

  /** The stored form of a submitted code: the schema's `trim` and `uppercase`
      setters run on every assignment. */
  function NormalizeCode(code: string): (r: string)
    ensures |r| <= |code|
  {
    Trim(ToUpper(code))
  }

  /** A normalized code is already trimmed and upper-case, so normalizing a stored
      code changes nothing. */
  lemma NormalizeCodeIdempotent(code: string)
    ensures var r := NormalizeCode(code); Trim(r) == r && ToUpper(r) == r
    ensures NormalizeCode(NormalizeCode(code)) == NormalizeCode(code)
  {
    var u := ToUpper(code);
    TrimToUpperCommute(u);
    ToUpperIdempotent(code);
    TrimIdempotent(u);
    var r := NormalizeCode(code);
    assert ToUpper(r) == r;
  }

  /** The validators the schema runs on save. */
  predicate SchemaValid(v: Voucher) {
    MinCodeLength <= |v.code| <= MaxCodeLength &&
    MinDiscountPct <= v.discountPct <= MaxDiscountPct &&
    v.quantityTotal >= MinQuantityTotal &&
    v.quantityClaimed >= 0 &&
    |v.conditions| <= MaxConditionsLength
  }

  /** The claim count does not exceed the number issued. */
  predicate WithinCap(v: Voucher) {
    v.quantityClaimed <= v.quantityTotal
  }

  /** The `quantityRemaining` virtual: not clamped at zero. */
  function QuantityRemaining(v: Voucher): (r: int)
    ensures r > 0 <==> v.quantityClaimed < v.quantityTotal
    ensures r >= 0 <==> WithinCap(v)
  {
    v.quantityTotal - v.quantityClaimed
  }

  datatype Phase = Upcoming | Expired | SoldOut | Active

  /** The label the status API reports for a phase. */
  function PhaseName(p: Phase): string {
    match p
    case Upcoming => "upcoming"
    case Expired => "expired"
    case SoldOut => "soldout"
    case Active => "active"
  }

  /** The phase of a voucher at `now`, decided in the order: before the start, after
      the end, all claimed, otherwise active. Both ends of the window are inclusive. */
  function PhaseAt(v: Voucher, now: Time): (p: Phase)
    ensures p == Upcoming <==> now < v.startDate
    ensures p == Expired <==> v.startDate <= now && v.endDate < now
    ensures p == SoldOut <==> v.startDate <= now <= v.endDate && v.quantityClaimed >= v.quantityTotal
    ensures p == Active <==> v.startDate <= now <= v.endDate && v.quantityClaimed < v.quantityTotal
  {
    if now < v.startDate then Upcoming
    else if now > v.endDate then Expired
    else if v.quantityClaimed >= v.quantityTotal then SoldOut
    else Active
  }

  /** The filter of the public voucher list and of the active-voucher counts:
      inside the window and not sold out. */
  predicate IsListed(v: Voucher, now: Time) {
    v.startDate <= now && now <= v.endDate && v.quantityClaimed < v.quantityTotal
  }

  /** A voucher is listed exactly when its status is active, and then some remain. */
  lemma ListedIffActive(v: Voucher, now: Time)
    ensures IsListed(v, now) <==> PhaseAt(v, now) == Active
    ensures IsListed(v, now) ==> QuantityRemaining(v) > 0
  {
  }

  /** The phase names are distinct, so the reported label determines the phase. */
  lemma PhaseNameInjective(p: Phase, q: Phase)
    ensures PhaseName(p) == PhaseName(q) ==> p == q
  {
  }

  // ------------------------------------------------------- fractional totals

  /** The sold-out test of a claim with the total as the schema accepts it: any number
      of at least 1, fractions included. */
  predicate SoldOutAt(claimed: int, total: real) {
    claimed as real >= total
  }

  /** The claim count after `n` claims made one after another, each counted while the
      voucher is not sold out. */
  function CountAfterClaims(claimed: int, total: real, n: nat): (c: int)
    ensures claimed <= c <= claimed + n
    ensures SoldOutAt(claimed, total) ==> c == claimed
    decreases n
  {
    if n == 0 then claimed
    else CountAfterClaims(if SoldOutAt(claimed, total) then claimed else claimed + 1, total, n - 1)
  }

  /** A total of 1.5: the claims at counts 0 and 1 both pass, so two vouchers are claimed
      of the one and a half issued, and the remainder is negative. */
  lemma FractionalTotalOvershoots()
    ensures CountAfterClaims(0, 1.5, 2) == 2
    ensures CountAfterClaims(0, 1.5, 2) as real > 1.5
  {
    assert CountAfterClaims(2, 1.5, 0) == 2;
    assert CountAfterClaims(1, 1.5, 1) == CountAfterClaims(2, 1.5, 0);
  }

  /** Even with a fractional total, the count stays below the total plus one. */
  lemma {:induction false} ClaimsBelowTotalPlusOne(claimed: int, total: real, n: nat)
    requires claimed as real < total + 1.0
    ensures CountAfterClaims(claimed, total, n) as real < total + 1.0
    decreases n
  {
    if n > 0 {
      ClaimsBelowTotalPlusOne(if SoldOutAt(claimed, total) then claimed else claimed + 1, total, n - 1);
    }
  }

  /** With a whole-number total, the count never passes the total: the cap that the
      rest of the model, whose totals are integers, keeps. */
  lemma {:induction false} WholeTotalHoldsCap(claimed: int, total: int, n: nat)
    requires claimed <= total
    ensures CountAfterClaims(claimed, total as real, n) <= total
    decreases n
  {
    if n > 0 {
      WholeTotalHoldsCap(if SoldOutAt(claimed, total as real) then claimed else claimed + 1, total, n - 1);
    }
  }
}

=== FILE: wrappers.dfy ===
/** Failure-compatible result types shared by every module of the model. */
module Wrappers {

  datatype Option<T> = None | Some(value: T)

  datatype Result<T, E> = Ok(value: T) | Err(error: E)

  /** A document id (a MongoDB ObjectId). */
  type Id = nat

  /** An instant, in milliseconds since the epoch (a JavaScript `Date`). */
  type Time = int
}

/** Generic sequence helpers: the list operations (filter, find, slice, reverse)
    that the controllers perform over fetched documents. */
module Seqs {
  import opened Wrappers

  /** Keeps, in order, the elements that satisfy `keep` (JavaScript's `filter`,
      or a MongoDB `find` with that predicate over a collection in natural order). */
  function Filter<T(!new)>(s: seq<T>, keep: T -> bool): (r: seq<T>)
    ensures |r| <= |s|
    ensures forall x :: x in r <==> x in s && keep(x)
    ensures multiset(r) <= multiset(s)
  {
    if |s| == 0 then []
    else
      assert s == [s[0]] + s[1..];
      if keep(s[0]) then [s[0]] + Filter(s[1..], keep) else Filter(s[1..], keep)
  }

  lemma {:induction false} FilterConcat<T(!new)>(a: seq<T>, b: seq<T>, keep: T -> bool)
    ensures Filter(a + b, keep) == Filter(a, keep) + Filter(b, keep)
  {
    if |a| == 0 {
      assert a + b == b;
    } else {
      assert (a + b)[1..] == a[1..] + b;
      FilterConcat(a[1..], b, keep);
    }
  }

  /** Filtering removes nothing exactly when every element is kept. */
  lemma {:induction false} FilterSameLength<T(!new)>(s: seq<T>, keep: T -> bool)
    ensures |Filter(s, keep)| == |s| <==> Filter(s, keep) == s
    ensures Filter(s, keep) == s <==> forall i :: 0 <= i < |s| ==> keep(s[i])
  {
    if |s| > 0 {
      FilterSameLength(s[1..], keep);
      assert s == [s[0]] + s[1..];
    }
  }

  lemma {:induction false} FilterIdempotent<T(!new)>(s: seq<T>, keep: T -> bool)
    ensures Filter(Filter(s, keep), keep) == Filter(s, keep)
  {
    var r := Filter(s, keep);
    FilterSameLength(r, keep);
    forall i | 0 <= i < |r| ensures keep(r[i]) {
      assert r[i] in r;
    }
  }

  /** Filters whose predicates agree on the elements are equal. */
  lemma {:induction false} FilterExt<T(!new)>(s: seq<T>, p: T -> bool, q: T -> bool)
    requires forall x :: x in s ==> p(x) == q(x)
    ensures Filter(s, p) == Filter(s, q)
  {
    if |s| > 0 {
      assert s[0] in s;
      assert forall x :: x in s[1..] ==> x in s;
      FilterExt(s[1..], p, q);
    }
  }

  /** Each element is kept as many times as it occurs, or dropped every time. */
  lemma {:induction false} FilterMultiplicity<T(!new)>(s: seq<T>, keep: T -> bool, x: T)
    ensures multiset(Filter(s, keep))[x] == if keep(x) then multiset(s)[x] else 0
  {
    if |s| > 0 {
      var t := s[1..];
      FilterMultiplicity(t, keep, x);
      assert s == [s[0]] + t;
      assert multiset(s) == multiset([s[0]]) + multiset(t);
      var f := Filter(t, keep);
      assert Filter(s, keep) == if keep(s[0]) then [s[0]] + f else f;
      if keep(s[0]) {
        assert multiset([s[0]] + f) == multiset([s[0]]) + multiset(f);
      }
    }
  }

  /** `before` holds between every earlier and every later element of `s`. */
  predicate InOrder<T>(s: seq<T>, before: (T, T) -> bool) {
    forall i, j :: 0 <= i < j < |s| ==> before(s[i], s[j])
  }

  /** Filtering keeps the kept elements in their order. */
  lemma {:induction false} FilterKeepsOrder<T(!new)>(s: seq<T>, keep: T -> bool, before: (T, T) -> bool)
    requires InOrder(s, before)
    ensures InOrder(Filter(s, keep), before)
  {
    if |s| > 0 {
      var t := s[1..];
      forall i, j | 0 <= i < j < |t| ensures before(t[i], t[j]) {
        assert t[i] == s[i + 1] && t[j] == s[j + 1];
      }
      assert InOrder(t, before);
      FilterKeepsOrder(t, keep, before);
      var f := Filter(t, keep);
      assert Filter(s, keep) == if keep(s[0]) then [s[0]] + f else f;
      if keep(s[0]) {
        var r := [s[0]] + f;
        forall y | y in t ensures before(s[0], y) {
          var k :| 0 <= k < |t| && t[k] == y;
          assert s[k + 1] == y;
        }
        forall i, j | 0 <= i < j < |r| ensures before(r[i], r[j]) {
          if i == 0 {
            assert r[j] == f[j - 1] && f[j - 1] in f;
          } else {
            assert r[i] == f[i - 1] && r[j] == f[j - 1];
            assert before(f[i - 1], f[j - 1]);
          }
        }
        assert InOrder(r, before);
      }
    }
  }

  /** The index of the first element satisfying `p` (a MongoDB `findOne`). */
  function FirstIndex<T>(s: seq<T>, p: T -> bool): (r: Option<nat>)
    ensures r.Some? ==> r.value < |s| && p(s[r.value]) && forall j :: 0 <= j < r.value ==> !p(s[j])
    ensures r.None? ==> forall j :: 0 <= j < |s| ==> !p(s[j])
  {
    if |s| == 0 then None
    else if p(s[0]) then Some(0)
    else match FirstIndex(s[1..], p)
      case None => None
      case Some(i) => Some(i + 1)
  }

  /** The elements in reverse order (a `sort({ createdAt: -1 })` over a collection
      whose natural order is the order of creation). */
  function Reverse<T>(s: seq<T>): (r: seq<T>)
    ensures |r| == |s|
    ensures forall i :: 0 <= i < |s| ==> r[i] == s[|s| - 1 - i]
  {
    if |s| == 0 then [] else Reverse(s[1..]) + [s[0]]
  }

  /** Reversing keeps the same elements. */
  lemma ReverseSameElements<T>(s: seq<T>)
    ensures forall x :: x in Reverse(s) <==> x in s
  {
    var r := Reverse(s);
    forall x | x in s ensures x in r {
      var i :| 0 <= i < |s| && s[i] == x;
      assert r[|s| - 1 - i] == x;
    }
  }

  /** Reversing keeps every element as many times as it occurs. */
  lemma {:induction false} ReverseMultiset<T>(s: seq<T>)
    ensures multiset(Reverse(s)) == multiset(s)
  {
    if |s| > 0 {
      ReverseMultiset(s[1..]);
      assert s == [s[0]] + s[1..];
    }
  }

  /** The first `n` elements, or all of them when there are fewer (`limit(n)`, `slice(0, n)`). */
  function Take<T>(s: seq<T>, n: nat): (r: seq<T>)
    ensures |r| == if n < |s| then n else |s|
    ensures r == s[..|r|]
  {
    if n < |s| then s[..n] else s
  }
}
